=== FILE: README.md ===
# appledict2html — a Dafny model of the tree-rewriting core

appledict2html turns the HTML of an Apple Dictionary entry into plain HTML
in two variants, a "semantic" converter and an earlier prototype script
(`main.py`). Both parse an entry with BeautifulSoup and then rewrite the tree
in a fixed sequence of passes:

- spans whose classes name a style become `strong`, `em`, `sup` and the
  like;
- regional labels (`lg`) are wrapped in square brackets;
- phrase blocks (`x_xo0`, `x_xo1`, `x_xo2`) become `div`, `ul` and `li`;
- sense blocks (`se1`, `se2`, `t_core`, `t_subsense`) become nested lists;
- cleanup passes remove bullets, retitle the origin, derivatives, usage,
  phrase and phrasal-verb blocks, mark headword line breaks, prune empty
  tags, unwrap leftover spans and strip the classes and attributes nobody
  needs.

A separate audit lists the classes that no pass knows and that are not
excluded on purpose.

The model has these parts:

- A parsed document is a forest of `Tree.Node` values: a text node, or an
  element with a name, an ordered class list, its other attributes, and
  its children.
- Every pass is a pure function from forest to forest.
- Each BeautifulSoup loop over a `find_all` snapshot is modelled as a
  structural recursion that visits the nodes in the same order. Each
  module's header comment gives the argument for why the two agree.
- Python's `str.strip` and `str.isspace` are modelled on the exact
  whitespace set Python uses (`Tree.IsSpaceChar`).
- `str.isalpha` is a function parameter.

Modules:

| file | module | source |
|---|---|---|
| `wrappers.dfy` | `Wrappers` | `Option` and `Result` |
| `tree.dfy` | `Tree` | nodes, text, `strip`, `.string`, the document-order snapshot |
| `matchers.dfy` | `Matchers` | `is_class`, `has_all_classes`, `CLASS_SETS`, `has_classes`, `convert_tag`, `find` |
| `span_styles.dfy` | `SpanStyles` | the style tables, `convert_span_styles`, `convert_apple_span_styles`, the `wrap_with_tags` helpers |
| `brackets.dfy` | `Brackets` | both `wrap_class_text_with_brackets` and the prototype's |
| `definition_phrases.dfy` | `DefinitionPhrases` | `group_xo0_blocks`, `convert_xo1_to_list`, `convert_subsenses_to_list` |
| `main_definition.dfy` | `MainDefinition` | `convert_senses_to_list`, `process_t_core_blocks`, `process_se2_blocks` |
| `cleanup.dfy` | `Cleanup` | every cleanup pass of both converters, and `cleanup_stuff` |
| `class_check.dfy` | `ClassCheck` | `known_classes`, `excluded_classes`, `find_unknown_classes_in_file` |
| `pipeline.dfy` | `Pipeline` | the semantic `process_html` and the prototype's |

## Model

| member | source | states |
|---|---|---|
| `Matchers.HasClassesIsHasAllClasses` | appledict2semantic/helpers/process_main_definition.py:18-22 | `has_classes(tag, key)` holds exactly when the tag is a span whose classes include every class of `CLASS_SETS[key]`, which is the same test as `has_all_classes` |
| `Matchers.SubsetMatch` | appledict2semantic/helpers/class_check.py:19-25 | Adding classes to a span never breaks a `has_all_classes` match. A span that lacks any required class never matches. |
| `Matchers.ConvertTag` | appledict2semantic/helpers/process_main_definition.py:25-29 | The tag is renamed unless it is a label span (`skip_label` set). Classes, attributes and children are untouched. |
| `Matchers.FirstIn` | appledict2semantic/helpers/process_definition_phrases.py:60 | `find` returns the first matching element in document order, and returns nothing exactly when no element matches |
| `Matchers.FirstInAppend` | appledict2semantic/helpers/process_definition_phrases.py:60 | A search over two forests in a row finds the first forest's match if it has one, else the second forest's |
| `Matchers.ExtractFirst` | appledict2semantic/helpers/process_definition_phrases.py:60-62 | Extracting the first match succeeds exactly when `find` finds something, and the extracted subtree is that match. The sizes of the match and the leftover forest add up to the original's. |
| `Matchers.ExtractPutBack` | appledict2semantic/helpers/process_definition_phrases.py:60-62 | Putting the extracted subtree back at the position it was taken from gives back the original forest, so the leftover forest is the original with exactly that subtree missing |
| `SpanStyles.FirstComposite` | appledict2semantic/helpers/span_converters.py:57-68 | The composite rule used is the first whose class set is contained in the span's classes. No earlier composite set is contained. |
| `SpanStyles.FirstKey` | appledict2semantic/helpers/span_converters.py:69-81 | The single-class rule used belongs to the span's first class that has a `STYLE_MAP` entry |
| `SpanStyles.SpanStyleRule` | appledict2semantic/helpers/span_converters.py:45-81 | A span is left alone exactly when no composite set matches and no class has a `STYLE_MAP` entry. A composite match wins, in table order, over single classes. Otherwise the span's first listed class with an entry decides. |
| `SpanStyles.HomographIsSup` | appledict2semantic/helpers/span_converters.py:39-42 | A span with classes `gp ty_hom tg_hw` or `gp ty_hom tg_xr` becomes `sup`, whatever other classes it carries |
| `SpanStyles.IsInsideEg` | appledict2semantic/helpers/span_converters.py:84-95 | `is_inside_eg` is true exactly when some ancestor carries class `eg` |
| `SpanStyles.AppleRule` | appledict2semantic/helpers/span_converters.py:98-150 | A span is left alone exactly when none of its classes is in the Apple table. A `gg` span becomes `code` inside an example and the table's tag elsewhere. Any other span takes the entry of its first listed class in the table. |
| `SpanStyles.WrapWithTags` | appledict2semantic/helpers/span_converters.py:153-168 | With no tag names the element is returned as it is. Otherwise only the last tag of the chain is kept: it holds all the children, the original is emptied, and the visible text is unchanged. |
| `SpanStyles.ChainRoundTrip` | appledict2semantic/helpers/span_converters.py:171-199 | Reading back the nested chain built for a tag list gives that tag list, outermost first, and the original children innermost |
| `SpanStyles.WrapPreserving` | appledict2semantic/helpers/span_converters.py:171-199 | The call fails exactly when the tag list is empty. Otherwise the outermost tag is the list's first, the chain of names is the list, the innermost children are the element's, and the visible text is unchanged. |
| `SpanStyles.StyleTablesInert` | appledict2semantic/helpers/span_converters.py:7-42 | No output rule of either style table creates a span that the same tables would rewrite |
| `SpanStyles.StyleNode` | appledict2semantic/helpers/span_converters.py:45-81 | A span some rule applies to becomes the rule's last tag, with the rule's classes and no attributes. Every other element keeps its name, classes and attributes. Every element has its children converted the same way, in place. The visible text is unchanged. |
| `SpanStyles.SpanStylesConserveText` | appledict2semantic/helpers/span_converters.py:45-81 | `convert_span_styles` keeps the document's visible text |
| `SpanStyles.NoStyledSpanLeft` | appledict2semantic/helpers/span_converters.py:45-81 | After `convert_span_styles`, no span with a style class is left |
| `SpanStyles.SpanStylesIdentity` | appledict2semantic/helpers/span_converters.py:45-81 | A document without styled spans is left unchanged |
| `SpanStyles.SpanStylesIdempotent` | appledict2semantic/helpers/span_converters.py:45-81 | Running `convert_span_styles` twice gives what one run gives |
| `SpanStyles.AppleTablesWellFormed` | appledict2semantic/helpers/span_converters.py:20-36 | Every entry of both Apple tables names at least one tag |
| `SpanStyles.AppleTablesInert` | appledict2semantic/helpers/span_converters.py:20-36 | No Apple rule creates a span carrying an Apple class |
| `SpanStyles.AppleNode` | appledict2semantic/helpers/span_converters.py:98-150 | A span with an Apple class becomes the chain of the rule's tags, the outermost first, with no attributes: reading the chain back gives the rule's tag list, and its innermost children are the span's children converted the same way. Every other element keeps its name, classes and attributes and has its children converted. The visible text is unchanged. |
| `SpanStyles.AppleConservesText` | appledict2semantic/helpers/span_converters.py:98-150 | `convert_apple_span_styles` keeps the visible text |
| `SpanStyles.NoAppleSpanLeft` | appledict2semantic/helpers/span_converters.py:98-150 | Afterwards no span carries a class of the Apple table |
| `SpanStyles.AppleIdentity` | appledict2semantic/helpers/span_converters.py:98-150 | A document without Apple-styled spans is left unchanged |
| `SpanStyles.AppleIdempotent` | appledict2semantic/helpers/span_converters.py:98-150 | Running `convert_apple_span_styles` twice gives what one run gives |
| `Brackets.DropLeadingSpec` | appledict2semantic/helpers/wrapinbrackets.py:40-47 | The leading loop pops exactly the blank children before the first non-blank one |
| `Brackets.DropTrailingSpec` | appledict2semantic/helpers/wrapinbrackets.py:49-56 | The trailing loop pops exactly the blank children after the last non-blank one |
| `Brackets.TrimEdges` | appledict2semantic/helpers/wrapinbrackets.py:37-56 | The two popping loops leave a contiguous middle, everything removed is blank, and the middle is what the two drops leave |
| `Brackets.SkipLeading` | appledict2semantic/helpers/wrapinbrackets.py:40-47 | The leading loop stops at the first non-blank child, and all children before it are blank |
| `Brackets.SkipTrailing` | appledict2semantic/helpers/wrapinbrackets.py:49-56 | The trailing loop stops after the last non-blank child, and all children after it are blank |
| `Brackets.StripEdges` | appledict2semantic/helpers/wrapinbrackets.py:58-70 | The first child's text is left-stripped and the last child's text right-stripped, for a text node or an element with a single `.string`. A lone child is stripped on both sides. The middle is untouched. |
| `Brackets.StripEdgesAsWritten` | appledict2semantic/helpers/wrapinbrackets.py:58-70 | The loop as written fails exactly when the only child is a text node. The stripped copies of text children never reach the output, so text edges are kept, and only an element's inner string is stripped. |
| `Brackets.Prepare` | appledict2semantic/helpers/wrapinbrackets.py:37-70 | The prototype moves the children as they are. The semantic converter trims the blank edges and then strips the edge texts; as written that strip fails on a lone text child, and corrected it never fails. |
| `Brackets.BracketNode` | appledict2semantic/helpers/wrapinbrackets.py:20-81 | A tag with a bracket class and no skipped ancestor keeps its name, classes and attributes. Its single child is a class-less `span` that starts with `[`, ends with the closing bracket, and holds between them the prepared children, themselves passed through the pass. Any other tag keeps its shell and has its children passed through. |
| `Brackets.BracketSeqEach` | appledict2semantic/helpers/wrapinbrackets.py:20-81 | The pass over a forest fails exactly when it fails on one of the nodes, and otherwise gives each node's own result in place |
| `Brackets.BracketsRoundTrip` | appledict2html/helpers/wrapinbrackets.py:34-42 | When contents are moved unchanged, removing the bracket wrappers again gives back the original document |
| `Brackets.PreparedKeep` | appledict2html/helpers/wrapinbrackets.py:34-42 | When contents are moved unchanged, the prepared forest is the input itself |
| `Brackets.BracketsUnbracketed` | appledict2semantic/helpers/wrapinbrackets.py:37-81 | In every edge mode, when the pass succeeds, removing the bracket wrappers gives back the input with each wrapped element's children replaced by their trimmed and stripped form, and nothing else changed |
| `Brackets.BracketsIdentity` | appledict2html/helpers/wrapinbrackets.py:23-25 | A document with no element carrying a bracket class is left unchanged |
| `Brackets.SkippedLeftAlone` | appledict2semantic/helpers/wrapinbrackets.py:28-33 | Below an ancestor with a skip class nothing is wrapped, whatever classes the descendants carry |
| `Brackets.AsWrittenFailsOnLoneText` | appledict2semantic/helpers/wrapinbrackets.py:59-70 | Counterexample: `<span class="lg">British</span>` makes the loop as written fail |
| `Brackets.AsWrittenKeepsTextEdge` | appledict2semantic/helpers/wrapinbrackets.py:59-70 | Counterexample: as written, a leading space in a text child survives, while the element's inner string is stripped |
| `Brackets.StrippedNeverFails` | appledict2semantic/helpers/wrapinbrackets.py:58-81 | The corrected pass succeeds on every document |
| `Brackets.StrippedLoneText` | appledict2semantic/helpers/wrapinbrackets.py:58-70 | In the corrected pass, a lone non-blank text child comes out stripped on both sides |
| `DefinitionPhrases.GroupSeq` | appledict2semantic/helpers/process_definition_phrases.py:7-39 | Grouping only moves nodes: the size of the forest is unchanged |
| `DefinitionPhrases.GroupStepsOver` | appledict2semantic/helpers/process_definition_phrases.py:13-39 | A node that is not a head keeps its place and shell, its children are grouped among themselves, and grouping goes on with its siblings, so heads nested at any depth are reached |
| `DefinitionPhrases.GroupTakesItsSiblings` | appledict2semantic/helpers/process_definition_phrases.py:19-39 | A `span.x_xo0` becomes a `div` with its classes and attributes. It takes the element siblings that follow it, up to the next `x_xo0` element, appended after its own children. The text siblings of that run stay in place, and grouping goes on from there. |
| `DefinitionPhrases.GroupKeepsDirectTexts` | appledict2semantic/helpers/process_definition_phrases.py:21-32 | Grouping moves only element siblings. The text nodes of each child list stay there, in their order. |
| `DefinitionPhrases.NoGroupHeadLeft` | appledict2semantic/helpers/process_definition_phrases.py:15-39 | After `group_xo0_blocks` no `span.x_xo0` is left. Each has become a `div`. |
| `DefinitionPhrases.GroupIdentity` | appledict2semantic/helpers/process_definition_phrases.py:15 | A document without `span.x_xo0` is left unchanged |
| `DefinitionPhrases.GroupIdempotent` | appledict2semantic/helpers/process_definition_phrases.py:7-39 | Grouping twice gives what grouping once gives |
| `DefinitionPhrases.Label` | appledict2semantic/helpers/process_definition_phrases.py:59-64 | The label is the first `span.x_xoh` in document order, else the first `span.l`, extracted with its subtree; putting it back where it was gives back the children. Failing both, it is a new text node holding the stripped text, and the children are untouched. |
| `DefinitionPhrases.ListedXo2` | appledict2semantic/helpers/process_definition_phrases.py:66-81 | Every listed child is an `x_xo2`. The semantic converter drops those with no text and no element inside, while the prototype lists every direct `x_xo2` child in order. |
| `DefinitionPhrases.Xo1Div` | appledict2semantic/helpers/process_definition_phrases.py:57-86 | A sub-entry becomes a class-less `div`. Its first child is the label, itself rewritten when it is an element. A `ul` follows exactly when something is listed, with one `li` per listed `x_xo2`, each holding that span rewritten. |
| `DefinitionPhrases.XoNode` | appledict2semantic/helpers/process_definition_phrases.py:49-55 | Inside a `subEntryBlock` a sub-entry becomes a class-less `div`. Every other element keeps its name, classes and attributes, and its children are converted in place, counting as inside once the element itself has class `subEntryBlock`. |
| `DefinitionPhrases.XoSeqEach` | appledict2semantic/helpers/process_definition_phrases.py:49-55 | The pass rewrites each node of a forest on its own |
| `DefinitionPhrases.Xo1OutsideUnchanged` | appledict2semantic/helpers/process_definition_phrases.py:53-55 | With no `subEntryBlock` anywhere, `convert_xo1_to_list` changes nothing |
| `DefinitionPhrases.NoXo1LeftInside` | appledict2semantic/helpers/process_definition_phrases.py:49-86 | Inside a `subEntryBlock` no `span.x_xo1` is left |
| `DefinitionPhrases.NoXo1BelowSubEntry` | appledict2semantic/helpers/process_definition_phrases.py:42-86 | Run from the document root, the pass leaves no `span.x_xo1` anywhere below a `subEntryBlock` element |
| `DefinitionPhrases.ConvertXo1ToList` | appledict2semantic/helpers/process_definition_phrases.py:42-86 | Below every `subEntryBlock` no `span.x_xo1` is left, and a document without a `subEntryBlock` is unchanged |
| `DefinitionPhrases.SplitSubsenses` | appledict2semantic/helpers/process_definition_phrases.py:112-116 | The direct children split into the subsense spans and the rest, each part being the filter of the children in order. No child is lost. |
| `DefinitionPhrases.AnchorIndex` | appledict2semantic/helpers/process_definition_phrases.py:129-134 | The anchor is the first direct child whose classes include `msDict x_xo2sub t_first`. There is no anchor exactly when no child matches. |
| `DefinitionPhrases.Place` | appledict2semantic/helpers/process_definition_phrases.py:129-138 | The new `ul` goes right after the anchor, or at the end when there is none. Everything else keeps its place. |
| `DefinitionPhrases.SubItems` | appledict2semantic/helpers/process_definition_phrases.py:121-127 | Each subsense becomes a class-less `li`, one per subsense |
| `DefinitionPhrases.SubItemsContents` | appledict2semantic/helpers/process_definition_phrases.py:121-127 | Each `li` has no attributes and holds its subsense's children, rewritten, in order |
| `DefinitionPhrases.SubNode` | appledict2semantic/helpers/process_definition_phrases.py:100-138 | An `se2` span with subsense children keeps its shell. Its other children, rewritten, keep their order, with the `ul` of items placed after the first anchor or at the end. Any other element keeps its shell and has its children rewritten. |
| `DefinitionPhrases.SubsensesSettled` | appledict2semantic/helpers/process_definition_phrases.py:100-138 | After `convert_subsenses_to_list` no `span.se2` keeps a subsense span as a direct child |
| `DefinitionPhrases.SubsensesIdentity` | appledict2semantic/helpers/process_definition_phrases.py:118-119 | A document in which no entry has a subsense child is left unchanged |
| `DefinitionPhrases.SubsensesIdempotent` | appledict2semantic/helpers/process_definition_phrases.py:100-138 | Running the pass twice gives what one run gives |
| `MainDefinition.PosNode` | appledict2semantic/helpers/process_main_definition.py:136-138 | A part-of-speech span becomes `p` unless it is a label span. Classes and attributes are kept, and every element's children are converted the same way, in place. |
| `MainDefinition.PosHeadingsRenamed` | appledict2semantic/helpers/process_main_definition.py:136-138 | Afterwards every `span.x_xdh` left is a label span |
| `MainDefinition.PosKeepsText` | appledict2semantic/helpers/process_main_definition.py:136-138 | The renaming keeps the visible text |
| `MainDefinition.PosIdentity` | appledict2semantic/helpers/process_main_definition.py:136-138 | A document whose headings are all label spans is left unchanged |
| `MainDefinition.AppendFirst` | appledict2semantic/helpers/process_main_definition.py:166-174 | The first `t_first` in document order is removed, and its children are appended at the end. Putting it back at its place in what comes before those children gives back the original children. Without one, nothing changes. |
| `MainDefinition.ContentItems` | appledict2semantic/helpers/process_main_definition.py:32-36 | `create_li_with_contents` gives a class-less `li` holding the element's children |
| `MainDefinition.NestSubsenses` | appledict2semantic/helpers/process_main_definition.py:176-189 | The direct subsense children are removed, the other children keep their order, and a `ul` of the subsenses' contents in order is appended when there is any. Otherwise nothing changes. |
| `MainDefinition.GatherSense` | appledict2semantic/helpers/process_main_definition.py:164-189 | A sense keeps its name, classes and attributes and has no subsense child left. A sense with neither a definition nor subsenses is unchanged. |
| `MainDefinition.FirstKnown` | appledict2semantic/helpers/process_main_definition.py:195-196 | The block rule applied is the first of `KNOWN_BLOCK_CLASSES`, in dict order, whose class the child carries |
| `MainDefinition.KnownBlock` | appledict2semantic/helpers/process_main_definition.py:195-202 | A `note`, `etym` or `x_xdt` block becomes a `section` whose class set has the original class replaced by the canonical one. Any other child is unchanged. |
| `MainDefinition.ReplaceClassSet` | appledict2semantic/helpers/process_main_definition.py:197-199 | The rewritten class list holds the old classes minus the original, plus the canonical one |
| `MainDefinition.Classify` | appledict2semantic/helpers/process_main_definition.py:153-163 | A child counts as a sense exactly when it has `t_core` or `t_subsense`, or is a `span` with `se2 x_xd1 hasSn`. A sense becomes an `li` with its definition and subsenses gathered. Any other element goes through the `note`/`etym`/`x_xdt` renaming, and a text is kept. |
| `MainDefinition.RenderRun` | appledict2semantic/helpers/process_main_definition.py:143-150 | A run of senses becomes one `ul` holding them in order |
| `MainDefinition.RenderAppend` | appledict2semantic/helpers/process_main_definition.py:152-209 | Rendering distributes over a split between runs |
| `MainDefinition.FlushingLoop` | appledict2semantic/helpers/process_main_definition.py:140-209 | The loop with its pending sense list and `flush_sense_list` builds the reference rendering: each maximal run of senses becomes one `ul`, and every other child stays in place |
| `MainDefinition.WalkChildren` | appledict2semantic/helpers/process_main_definition.py:152-213 | The walk over the children gives the reference rendering of their classification |
| `MainDefinition.WalkNoSense` | appledict2semantic/helpers/process_main_definition.py:152-209 | After the walk no direct child of the `se1` is a sense. All are inside lists. |
| `MainDefinition.CoreItem` | appledict2semantic/helpers/process_main_definition.py:53-70 | A core becomes an `li` with the core's children, followed by a `ul` of its subsenses exactly when it has any |
| `MainDefinition.CoreIdentity` | appledict2semantic/helpers/process_main_definition.py:42-48 | With no `t_core` span the pass changes nothing. It produces items only when a core exists. |
| `MainDefinition.CoreTakesItsSubsenses` | appledict2semantic/helpers/process_main_definition.py:56-65 | A core takes the `t_subsense` siblings up to the next core, and those leave the tree. Other siblings stay. |
| `MainDefinition.CoreSeq` | appledict2semantic/helpers/process_main_definition.py:39-73 | Collecting the cores never grows the forest, and every collected item is an `li` |
| `MainDefinition.CoreStepsOver` | appledict2semantic/helpers/process_main_definition.py:43-47 | A node that is not a core stays in place with its shell. The cores found inside it come first, in document order, then those of its later siblings. |
| `MainDefinition.ProcessTCoreBlocks` | appledict2semantic/helpers/process_main_definition.py:39-73 | Without a core the children are unchanged. Otherwise the remaining children hold no core, and one `ul` of the collected items, in document order, is appended. |
| `MainDefinition.NoCoreLeft` | appledict2semantic/helpers/process_main_definition.py:39-73 | No `t_core` span is left in the `se1`'s own subtree |
| `MainDefinition.CoreKeepsNoSense` | appledict2semantic/helpers/process_main_definition.py:39-73 | Removing cores keeps every remaining child a non-sense |
| `MainDefinition.Se2Items` | appledict2semantic/helpers/process_main_definition.py:91-114 | Each `se2` block becomes its renamed `li` with its definition and subsenses gathered |
| `MainDefinition.ProcessSe2Blocks` | appledict2semantic/helpers/process_main_definition.py:76-116 | With no direct `se2` block nothing changes. Otherwise the other children keep their order, a `ul` of the blocks' items is appended, and no `se2` block is left as a direct child. |
| `MainDefinition.Se1KidsNoSense` | appledict2semantic/helpers/process_main_definition.py:209-216 | After the walk and the core pass, `process_se2_blocks` has nothing left to do |
| `MainDefinition.Se1Node` | appledict2semantic/helpers/process_main_definition.py:129-216 | An `se1` becomes a `section` (a label span keeps its name) with its classes and attributes. Its children are the headings renamed, the walk's rendering and the core list, in that order. The `se2` pass finds nothing left, and no direct child is a sense. |
| `MainDefinition.SensesNode` | appledict2semantic/helpers/process_main_definition.py:126-216 | An element keeps its classes and attributes. An `se1` is rebuilt by `MainDefinition.Se1Node` and has no sense left among its direct children. Any other element keeps its name and has each child converted the same way, in place. |
| `MainDefinition.SensesIdentity` | appledict2semantic/helpers/process_main_definition.py:129-131 | A document without `se1` spans is left unchanged |
| `MainDefinition.ConvertSensesToList` | appledict2semantic/helpers/process_main_definition.py:126-216 | Each top-level `se1` is rebuilt by `MainDefinition.Se1Node` with no sense among its direct children, and a document without `se1` spans is unchanged |
| `Cleanup.RemoveBulletSpans` | appledict2semantic/helpers/cleanup.py:24-36 | Exactly the bullet spans are removed, meaning spans with `gp sn tg_msDict` whose single string strips to `•`. Every kept node keeps its shell, in order. |
| `Cleanup.BulletNode` | appledict2semantic/helpers/cleanup.py:24-36 | An element keeps its shell, and bullet spans are removed among its children at every level reached |
| `Cleanup.BulletSpansEach` | appledict2semantic/helpers/cleanup.py:24-36 | The output is the input's non-bullet nodes, in order, each with its own children cleaned the same way |
| `Cleanup.BulletIdentity` | appledict2semantic/helpers/cleanup.py:31-36 | A document with no bullet span is left unchanged |
| `Cleanup.RulesWellFormed` | appledict2semantic/helpers/cleanup.py:39-237 | No block rule of either converter targets a `p` or `span` container, and no rule's marker classes are just the block class it writes |
| `Cleanup.Retitle` | appledict2semantic/helpers/cleanup.py:59-71 | A bare child span (`x_xo1` and the like) becomes an attribute-less `p`, and a label span becomes `p` with only the title class. A span that is both is bare exactly when the rule tests the bare class first, which the origin pass does and the derivatives pass does not. Other nodes are untouched. |
| `Cleanup.BlockNode` | appledict2semantic/helpers/cleanup.py:48-71 | A matching container keeps its name and attributes and gets the block class alone. A span below it takes the retitling's name, classes and attributes. Every other element keeps its shell. |
| `Cleanup.BlockSeq` | appledict2semantic/helpers/cleanup.py:48-71 | Each node of a forest is converted by `Cleanup.BlockNode` in place |
| `Cleanup.ConvertBlocks` | appledict2semantic/helpers/cleanup.py:39-131 | A block pass keeps the visible text and leaves no matching container. A document without one is unchanged. |
| `Cleanup.BlockIdentity` | appledict2semantic/helpers/cleanup.py:48-54 | A document without a matching block is left unchanged |
| `Cleanup.BlockKeepsText` | appledict2semantic/helpers/cleanup.py:39-131 | Block conversion keeps the visible text |
| `Cleanup.NoBlockLeft` | appledict2semantic/helpers/cleanup.py:48-57 | After a block pass no container carries the rule's marker classes |
| `Cleanup.NoTitleSpanLeft` | appledict2semantic/helpers/cleanup.py:59-71 | Inside a converted block no title or bare span is left |
| `Cleanup.BlockIdempotent` | appledict2semantic/helpers/cleanup.py:39-237 | Each block pass run twice gives what one run gives |
| `Cleanup.WordTextStrips` | appledict2semantic/helpers/cleanup.py:148-150 | A text node holds a word exactly when its stripped value is non-empty |
| `Cleanup.FirstWord` | appledict2semantic/helpers/cleanup.py:147-150 | The headword is the first text child that is not blank |
| `Cleanup.InsertMark` | appledict2semantic/helpers/cleanup.py:147-152 | ` [linebreaks]` is inserted right after the headword text. Deleting it gives back the old children, and nothing changes without a headword. |
| `Cleanup.InjectHwLinebreaks` | appledict2semantic/helpers/cleanup.py:134-152 | Every top-level node keeps its shell |
| `Cleanup.HwIdentity` | appledict2semantic/helpers/cleanup.py:142-144 | Without an `hw` span carrying valid line breaks (containing `|` and `¦`), nothing changes |
| `Cleanup.HwMarksHeadword` | appledict2semantic/helpers/cleanup.py:147-152 | In a valid `hw` span the headword stays, and the mark follows it immediately |
| `Cleanup.HwSeqFirstWord` | appledict2semantic/helpers/cleanup.py:147-150 | Marking nested `hw` spans does not move a forest's headword |
| `Cleanup.RemoveEmptyTags` | appledict2semantic/helpers/cleanup.py:155-164 | Exactly the empty tags are removed: not `d:index`, no element child, and text that strips to nothing. Kept nodes keep their shell, in order. |
| `Cleanup.PruneNode` | appledict2semantic/helpers/cleanup.py:155-164 | An element keeps its shell, and empty tags are removed among its children at every level reached |
| `Cleanup.EmptyTagsEach` | appledict2semantic/helpers/cleanup.py:155-164 | The output is the input's non-empty nodes, in order, each with its own children pruned the same way |
| `Cleanup.PruneKeepsText` | appledict2semantic/helpers/cleanup.py:155-164 | Pruning keeps the stripped text |
| `Cleanup.PruneIdentity` | appledict2semantic/helpers/cleanup.py:155-164 | A document without empty tags is left unchanged |
| `Cleanup.PruneOneLevel` | appledict2semantic/helpers/cleanup.py:157-164 | The check is made on the input tree: `<b><i></i></b>` loses the `i`, and only a second run removes the `b` |
| `Cleanup.HeadNode` | appledict2semantic/helpers/cleanup.py:167-181 | A `span.hg.x_xh0` becomes a bare `p`. Other elements keep their shell. Every element has its children converted the same way, in place. |
| `Cleanup.NoHeadingLeft` | appledict2semantic/helpers/cleanup.py:167-181 | Afterwards no heading span is left |
| `Cleanup.HeadingIdentity` | appledict2semantic/helpers/cleanup.py:172-173 | A document without heading spans is left unchanged |
| `Cleanup.HeadingKeepsText` | appledict2semantic/helpers/cleanup.py:177-181 | The children move into the `p`, so the visible text is kept |
| `Cleanup.HeadingIdempotent` | appledict2semantic/helpers/cleanup.py:167-181 | Running the heading pass twice gives what one run gives |
| `Cleanup.UnwrapSpan` | appledict2semantic/helpers/cleanup.py:240-261 | Afterwards no `span`, `d:entry`, `d:prn`, `d:def` or `d:pos` element is left. The visible text is exactly the input's text outside `d:prn`, `d:def` and `d:pos`. |
| `Cleanup.UnwrapOutside` | appledict2semantic/helpers/cleanup.py:244-247 | Unwrapping a tag name (`Cleanup.UnwrapSeq`) removes every element of that name and keeps earlier guarantees |
| `Cleanup.DropOutside` | appledict2semantic/helpers/cleanup.py:249-256 | Decomposing (`Cleanup.DropSeq`) removes every element with the dropped names and keeps earlier guarantees |
| `Cleanup.DropSeq` | appledict2semantic/helpers/cleanup.py:249-256 | After decomposing, the visible text is exactly the text outside the dropped elements |
| `Cleanup.DropIdentity` | appledict2semantic/helpers/cleanup.py:249-256 | A document without a dropped name is left unchanged |
| `Cleanup.UnwrapKeepsText` | appledict2semantic/helpers/cleanup.py:244-247 | Unwrapping (`Cleanup.UnwrapSeq`) keeps the visible text |
| `Cleanup.UnwrapTextOutside` | appledict2semantic/helpers/cleanup.py:244-256 | Unwrapping spans before decomposing does not change the text outside the decomposed elements |
| `Cleanup.UnwrapIdentity` | appledict2semantic/helpers/cleanup.py:244-247 | A document without the unwrapped name is left unchanged by `Cleanup.UnwrapSeq` |
| `Cleanup.KeptClasses` | appledict2semantic/helpers/cleanup.py:264-291 | The kept classes are exactly the classes in `exclude_classes` |
| `Cleanup.KeptClassesIdentity` | appledict2semantic/helpers/cleanup.py:288-290 | A class list made only of kept classes is unchanged |
| `Cleanup.CleanNode` | appledict2semantic/helpers/cleanup.py:279-298 | The element keeps its name, and its classes are filtered. `id` and `linebreaks` are removed, and the other attributes stay. Its children are cleaned the same way, in place. |
| `Cleanup.CleanAttributes` | appledict2semantic/helpers/cleanup.py:279-298 | Each node of a forest is cleaned by `Cleanup.CleanNode` in place |
| `Cleanup.CleanIdempotent` | appledict2semantic/helpers/cleanup.py:279-298 | `clean_attributes` run twice gives what one run gives |
| `Cleanup.CleanTidies` | appledict2semantic/helpers/cleanup.py:279-298 | After unwrapping and cleaning, every element is tidy: no unwrapped name, only kept classes, no `id` and no `linebreaks` |
| `Cleanup.SpaceSeq` | appledict2semantic/helpers/cleanup.py:301-316 | Elements keep their shell. A text gains a leading space exactly when its previous sibling is `strong` or `em` and it starts with a letter, and is otherwise unchanged. |
| `Cleanup.EnsureSpaceAfterTags` | appledict2semantic/helpers/cleanup.py:301-316 | On the document's top level, elements keep their shell, and a text gains a leading space exactly when it follows `strong` or `em` and starts with a letter. Since a space is not a letter, a second run changes nothing. |
| `Cleanup.SpaceNode` | appledict2semantic/helpers/cleanup.py:301-316 | An element keeps its shell, and its children are spaced as a child list of their own |
| `Cleanup.SpaceIdempotent` | appledict2semantic/helpers/cleanup.py:301-316 | Running the spacing pass twice gives what one run gives |
| `Cleanup.SpaceKeepsTidy` | appledict2semantic/helpers/cleanup.py:301-316 | Spacing keeps a tidy document tidy |
| `Cleanup.TitleNode` | appledict2semantic/helpers/cleanup.py:334-339 | A title whose only child is a text has that text stripped. Every other element keeps its shell and has its children processed the same way, so nested titles are stripped too. |
| `Cleanup.StripTitleWhitespace` | appledict2semantic/helpers/cleanup.py:319-339 | Every top-level node keeps its shell and is processed by `Cleanup.TitleNode` in place |
| `Cleanup.TitleIdempotent` | appledict2semantic/helpers/cleanup.py:319-339 | Stripping titles twice gives what one run gives |
| `Cleanup.TitleKeepsTidy` | appledict2semantic/helpers/cleanup.py:319-339 | Stripping titles keeps a tidy document tidy |
| `Cleanup.CleanupStuff` | appledict2semantic/helpers/cleanup.py:7-21 | The whole cleanup leaves every element tidy |
| `ClassCheck.CompositeClasses` | appledict2semantic/helpers/class_check.py:30-31 | The classes named by some composite key |
| `ClassCheck.KnownClasses` | appledict2semantic/helpers/class_check.py:28-33 | A class is known exactly when it is a key of a style table, a member of a composite key, or a member of some `CLASS_SETS` entry |
| `ClassCheck.UnknownInSpec` | appledict2semantic/helpers/class_check.py:112-119 | A class is collected exactly when some element carries it, shows non-blank text, and the class is neither known nor excluded |
| `ClassCheck.FindUnknownClassesInFile` | appledict2semantic/helpers/class_check.py:102-120 | The result maps exactly the reported classes, each to the set holding the one file |
| `ClassCheck.KeptClassesExcluded` | appledict2semantic/helpers/class_check.py:35-99 | Every class the cleanup keeps is in `excluded_classes` |
| `ClassCheck.TidyNotReported` | appledict2semantic/helpers/class_check.py:112-119 | A fully cleaned document has no class to report |
| `Pipeline.ProcessHtml` | appledict2semantic/helpers/process_html.py:26-43 | The semantic pipeline in source order fails exactly when its bracket pass fails. Otherwise it leaves no heading span. |
| `Pipeline.AfterBrackets` | appledict2semantic/helpers/process_html.py:33-42 | The passes after the bracket pass leave no heading span |
| `Pipeline.ProcessHtmlFailsOnLoneText` | appledict2semantic/helpers/process_html.py:30-32 | A page whose only `lg` span holds one bare text reaches the bracket pass unchanged, and the whole call fails on it |
| `Pipeline.CorrectedProcessHtml` | appledict2semantic/helpers/process_html.py:26-43 | With the corrected bracket pass the pipeline never fails and leaves no heading span |
| `Pipeline.LgBracketInsideEm` | appledict2semantic/helpers/process_html.py:32-33 | The bracket pass runs before the Apple pass, so an `lg` span whose only Apple class is `lg` ends as an `em` with no classes or attributes whose only child is the class-less bracket span, its `[` and `] ` texts intact |
| `Pipeline.PrototypeProcessHtml` | main.py:322-331 | The prototype pipeline, run in source order, leaves no `se2` with a subsense child |

## Left out

- Parsing with lxml, `prettify`, serialization and file I/O are not modelled.
  The same goes for the command line, multiprocessing and the file reading
  in `class_check.py`. A document is the already parsed forest.
- `str.isalpha` is a parameter of the spacing pass. Unicode letter
  classification is not modelled.
- `create_li_with_contents` re-parses the serialized children with
  `html.parser`. The model copies the children as they are and assumes that
  parse gives back the same tree.
- `convert_senses_to_list` visits nested `se1` spans too. The model
  rewrites only the outermost `se1` of each subtree.
- `process_t_core_blocks` collects cores from the whole `se1` subtree,
  and so does `MainDefinition.CoreSeq`. A core that is a direct child
  never reaches it, because the rebuilding walk has already made it an
  `li`. `CoreSeq` leaves out a core nested inside another core, or inside
  a subsense taken with a core. The source reaches those after the
  enclosing node was decomposed, which a tree of values cannot express.
- The order of the rewritten class list in `convert_senses_to_list` comes
  from iterating a Python set.
- `MainDefinition.KnownBlock`: states the resulting class set, not the
  list order.
- Snapshot loops that revisit nodes already destroyed by an earlier
  iteration (bullets inside a removed bullet) are modelled as one
  structural pass.
- `Cleanup.RemoveEmptyTags`: the emptiness test is made on the input
  tree, as in the source, so a parent emptied by the pass survives
  (shown by `Cleanup.PruneOneLevel`).
- The HTML converter's cleanup module has no `cleanup_stuff`. Its
  bullet, heading, empty-tag and line-break passes are the same functions as
  the semantic ones. Its three block passes differ only in the container
  name and the title attributes, which are the `Cleanup.HTML_RULES`
  values.
- `is_inside_eg` walks parents. The model threads the ancestors' class
  lists down the recursion.
- `Cleanup.InjectHwLinebreaks`: its own contract states only that the shell
  is kept. The mark itself is stated by `Cleanup.InsertMark` and
  `Cleanup.HwMarksHeadword`.
- `Cleanup.StripTitleWhitespace`: its own contract states that the shell
  is kept and defers to `Cleanup.TitleNode` per node. The stripping is
  stated there.
- `ClassCheck.CompositeClasses`: a helper set whose contract is its
  membership.
- Dafny's `string` is a sequence of characters with no encoding. Byte
  order and Unicode normalization are not modelled.

## Findings

| source | as written | input that shows it | evidently intended | confidence | as-written member | corrected member |
|---|---|---|---|---|---|---|
| appledict2semantic/helpers/wrapinbrackets.py:59-70 | The first child is replaced by a stripped copy. When the only child is a text node, the last child is that same, already replaced node, and its `replace_with` raises. In every other case the wrapper receives the old unstripped node from the `contents` list, so text edges are never stripped. | `<span class="lg">British</span>` | Strip the outer whitespace of the first and last text and put the stripped text in the brackets | not executed | `Brackets.AsWrittenFailsOnLoneText` | `Brackets.StrippedNeverFails` |

`Pipeline.ProcessHtml` keeps the pass as written, so the page above makes
the whole call fail (`Pipeline.ProcessHtmlFailsOnLoneText`).
`Pipeline.CorrectedProcessHtml` runs the same passes with the corrected
bracket pass.

=== FILE: brackets.dfy ===
/** `wrap_class_text_with_brackets`: the contents of every element carrying
    one of the target classes move into a fresh class-less span between an
    opening "[" and a closing text, unless a proper ancestor carries a skip
    class.

    The pass snapshots every element in document order and then rewrites.
    Wrapping an element moves its children, objects and all, into the new
    span, so the later snapshot entries are exactly the moved children and
    what lies after; the wrapper has no class, so no ancestor test changes.
    The functions below therefore work top-down, passing down whether some
    ancestor already carries a skip class. */
module Brackets {
  import opened Wrappers
  import opened Tree

  /** How the edges of the moved contents are treated.
      `Keep`: moved unchanged (the HTML converter and the prototype script).
      `TrimAsWritten`: the semantic converter's code — blank edge nodes are
      dropped, an edge element with a `.string` has it stripped, a bare text
      edge is left as it was, and a lone text left after trimming fails.
      `TrimStripped`: the same with every edge stripped and no failure (see
      the findings in the README). */
  datatype EdgeMode = Keep | TrimAsWritten | TrimStripped

  /** The edge treatment and the closing text of one variant. */
  datatype BracketStyle = BracketStyle(edges: EdgeMode, closing: string)

  const HTML_BRACKETS := BracketStyle(Keep, "]")
  const SEMANTIC_BRACKETS_AS_WRITTEN := BracketStyle(TrimAsWritten, "] ")
  const SEMANTIC_BRACKETS := BracketStyle(TrimStripped, "] ")

  /** `skip_parent_classes`, defaulting to `{"vg"}`. */
  function SkipClasses(skip: Option<set<string>>): set<string>
  {
    if skip.None? then {"vg"} else skip.value
  }

  /** The prototype script has no ancestor test: its skip set is empty. */
  const PROTOTYPE_SKIP: set<string> := {}

  /** The element carries a class of `names`. */
  predicate Meets(n: Node, names: set<string>)
  {
    n.Elem? && ClassSet(n) * names != {}
  }

  // ---------------------------------------------------------------------
  // Edge trimming
  // ---------------------------------------------------------------------

  /** A node the trimming loops pop: a whitespace-only text, or a tag whose
      `.string` is whitespace only (the markup of a tag is never blank). */
  predicate Blank(n: Node)
  {
    DotString(n).Some? && IsSpaceStr(DotString(n).value)
  }

  /** The longest suffix that does not start with a blank node. */
  function DropLeading(L: seq<Node>): (r: seq<Node>)
    ensures |r| <= |L| && r == L[|L| - |r|..]
  {
    if |L| > 0 && Blank(L[0]) then DropLeading(L[1..]) else L
  }

  /** Everything dropped from the front is blank, and what is left does not
      start with a blank node. */
  lemma {:induction false} DropLeadingSpec(L: seq<Node>)
    ensures var r := DropLeading(L);
      && (forall i | 0 <= i < |L| - |r| :: Blank(L[i]))
      && (r == [] || !Blank(r[0]))
  {
    if |L| > 0 && Blank(L[0]) {
      DropLeadingSpec(L[1..]);
      assert forall i | 1 <= i < |L| :: L[i] == L[1..][i - 1];
    }
  }

  /** The longest prefix that does not end with a blank node. */
  function DropTrailing(L: seq<Node>): (r: seq<Node>)
    ensures |r| <= |L| && r == L[..|r|]
  {
    if |L| > 0 && Blank(L[|L| - 1]) then DropTrailing(L[..|L| - 1]) else L
  }

  /** Everything dropped from the back is blank, and what is left does not
      end with a blank node. */
  lemma {:induction false} DropTrailingSpec(L: seq<Node>)
    ensures var r := DropTrailing(L);
      && (forall i | |r| <= i < |L| :: Blank(L[i]))
      && (r == [] || !Blank(r[|r| - 1]))
  {
    if |L| > 0 && Blank(L[|L| - 1]) {
      DropTrailingSpec(L[..|L| - 1]);
      assert forall i | 0 <= i < |L| - 1 :: L[i] == L[..|L| - 1][i];
    }
  }

  /** The two `while contents and ...: contents.pop(...)` loops: the kept
      nodes are `contents[start..end]`, everything popped is blank, and the
      result is what the two drops leave. */
  method TrimEdges(contents: seq<Node>) returns (r: seq<Node>, start: nat, end: nat)
    ensures start <= end <= |contents| && r == contents[start..end]
    ensures forall i | 0 <= i < start :: Blank(contents[i])
    ensures forall i | end <= i < |contents| :: Blank(contents[i])
    ensures r == DropTrailing(DropLeading(contents))
  {
    start := SkipLeading(contents);
    end := SkipTrailing(contents, start);
    TrimmedAt(contents, start, end);
    r := contents[start..end];
  }

  /** The kept slice is what the two drops leave. */
  lemma TrimmedAt(L: seq<Node>, i: nat, j: nat)
    requires i <= j <= |L|
    requires forall k | 0 <= k < i :: Blank(L[k])
    requires forall k | j <= k < |L| :: Blank(L[k])
    requires i == |L| || !Blank(L[i])
    requires j == i || !Blank(L[j - 1])
    ensures DropTrailing(DropLeading(L)) == L[i..j]
  {
    LeadingAt(L, i);
    TrailingAt(L, i, j);
    Compose(L, i, j);
  }

  lemma TrailingAt(L: seq<Node>, i: nat, j: nat)
    requires i <= j <= |L|
    requires forall k | j <= k < |L| :: Blank(L[k])
    requires j == i || !Blank(L[j - 1])
    ensures DropTrailing(L[i..]) == L[i..j]
  {
    TrailingFrom(L, i, j, |L|);
    assert L[i..|L|] == L[i..];
  }

  lemma Compose(L: seq<Node>, i: nat, j: nat)
    requires i <= j <= |L|
    requires DropLeading(L) == L[i..]
    requires DropTrailing(L[i..]) == L[i..j]
    ensures DropTrailing(DropLeading(L)) == L[i..j]
  {
  }

  /** The first loop: pop blank nodes from the front. */
  method SkipLeading(contents: seq<Node>) returns (start: nat)
    ensures start <= |contents|
    ensures forall i | 0 <= i < start :: Blank(contents[i])
    ensures start == |contents| || !Blank(contents[start])
  {
    start := 0;
    while start < |contents| && Blank(contents[start])
      invariant start <= |contents|
      invariant forall i | 0 <= i < start :: Blank(contents[i])
    {
      start := start + 1;
    }
  }

  /** The second loop: pop blank nodes from the back, never past `start`. */
  method SkipTrailing(contents: seq<Node>, start: nat) returns (end: nat)
    requires start <= |contents|
    ensures start <= end <= |contents|
    ensures forall i | end <= i < |contents| :: Blank(contents[i])
    ensures end == start || !Blank(contents[end - 1])
  {
    end := |contents|;
    while start < end && Blank(contents[end - 1])
      invariant start <= end <= |contents|
      invariant forall i | end <= i < |contents| :: Blank(contents[i])
    {
      end := end - 1;
    }
  }

  /** The leading blank run ends at the first non-blank node. */
  lemma LeadingAt(L: seq<Node>, i: nat)
    requires i <= |L| && (i == |L| || !Blank(L[i]))
    requires forall j | 0 <= j < i :: Blank(L[j])
    ensures DropLeading(L) == L[i..]
  {
    var r := DropLeading(L);
    var k := |L| - |r|;
    DropLeadingSpec(L);
    if k < i {
      assert false;
    } else if k > i {
      assert false;
    }
  }

  /** Dropping the trailing blanks of `L[i..m]` stops after the last
      non-blank node. */
  lemma {:induction false} TrailingFrom(L: seq<Node>, i: nat, j: nat, m: nat)
    requires i <= j <= m <= |L|
    requires forall k | j <= k < m :: Blank(L[k])
    requires j == i || !Blank(L[j - 1])
    ensures DropTrailing(L[i..m]) == L[i..j]
    decreases m - j
  {
    var M := L[i..m];
    if m > j {
      assert M[|M| - 1] == L[m - 1];
      assert Blank(M[|M| - 1]);
      assert M[..|M| - 1] == L[i..m - 1];
      TrailingFrom(L, i, j, m - 1);
    } else if j > i {
      assert M[|M| - 1] == L[j - 1];
    }
  }

  lemma TrimmedSize(L: seq<Node>)
    ensures SizeSeq(DropTrailing(DropLeading(L))) <= SizeSeq(L)
  {
    var a := DropLeading(L);
    var b := DropTrailing(a);
    SizeSeqSlice(L, |L| - |a|, |L|);
    assert L[|L| - |a|..|L|] == a;
    SizeSeqSlice(a, 0, |b|);
    assert a[0..|b|] == b;
  }

  // ---------------------------------------------------------------------
  // Edge stripping
  // ---------------------------------------------------------------------

  /** Apply `f` to the `.string` of node `i`, when that node has one. */
  function MapStringAt(c: seq<Node>, i: nat, f: string -> string): (r: seq<Node>)
    requires i < |c|
    ensures |r| == |c| && SizeSeq(r) == SizeSeq(c)
    ensures forall j | 0 <= j < |c| && j != i :: r[j] == c[j]
    ensures DotString(c[i]).Some? ==> DotString(r[i]) == Some(f(DotString(c[i]).value))
    ensures DotString(c[i]).None? ==> r == c
    ensures r[i].Elem? == c[i].Elem?
    ensures forall j | 0 <= j < |c| :: Size(r[j]) == Size(c[j])
  {
    if DotString(c[i]).Some? then
      var x := MapDotString(c[i], f);
      SizeSeqUpdate(c, i, x);
      c[i := x]
    else c
  }

  /** Strip the first node's `.string` on the left and then the last node's
      on the right, for text and element edges alike. */
  function StripEdges(c: seq<Node>): (r: seq<Node>)
    ensures |r| == |c| && SizeSeq(r) == SizeSeq(c)
    ensures forall i | 0 < i < |c| - 1 :: r[i] == c[i]
    ensures |c| >= 2 && DotString(c[0]).Some? ==> DotString(r[0]) == Some(LStrip(DotString(c[0]).value))
    ensures |c| >= 2 && DotString(c[0]).None? ==> r[0] == c[0]
    ensures |c| >= 2 && DotString(c[|c| - 1]).Some? ==>
      DotString(r[|c| - 1]) == Some(RStrip(DotString(c[|c| - 1]).value))
    ensures |c| >= 2 && DotString(c[|c| - 1]).None? ==> r[|c| - 1] == c[|c| - 1]
    ensures |c| == 1 && DotString(c[0]).Some? ==> DotString(r[0]) == Some(Strip(DotString(c[0]).value))
    ensures |c| == 1 && DotString(c[0]).None? ==> r == c
    ensures forall i | 0 <= i < |c| :: r[i].Elem? == c[i].Elem?
    ensures forall i | 0 <= i < |c| :: Size(r[i]) == Size(c[i])
  {
    if c == [] then []
    else MapStringAt(MapStringAt(c, 0, LStrip), |c| - 1, RStrip)
  }

  /** The semantic converter's edge code as written: `first.replace_with`
      and `last.replace_with` swap a bare text edge out of the tree, but the
      list of contents keeps the original object, so that edge comes back
      unstripped; and when the only node left is a bare text, the second
      `replace_with` acts on a node already out of the tree and fails. An
      element edge is stripped in place and stays stripped. */
  function StripEdgesAsWritten(c: seq<Node>): (r: Result<seq<Node>>)
    ensures r.Failure? <==> |c| == 1 && c[0].Text?
    ensures r.Success? ==> |r.value| == |c| && SizeSeq(r.value) == SizeSeq(c)
    ensures r.Success? ==> forall i | 0 <= i < |c| && c[i].Text? :: r.value[i] == c[i]
    ensures r.Success? ==> forall i | 0 <= i < |c| && c[i].Elem? :: r.value[i] == StripEdges(c)[i]
  {
    if |c| == 1 && c[0].Text? then
      Failure("replace_with on a detached node")
    else
      var s := StripEdges(c);
      var r := seq(|c|, i requires 0 <= i < |c| => if c[i].Elem? then s[i] else c[i]);
      SizeSeqPointwise(r, c);
      Success(r)
  }

  /** What goes between the brackets, for a matching element's children. */
  function Prepare(style: BracketStyle, k: seq<Node>): (r: Result<seq<Node>>)
    ensures r.Success? ==> SizeSeq(r.value) <= SizeSeq(k)
    ensures style.edges == Keep ==> r == Success(k)
    ensures style.edges == TrimAsWritten ==> r == StripEdgesAsWritten(DropTrailing(DropLeading(k)))
    ensures style.edges == TrimStripped ==> r == Success(StripEdges(DropTrailing(DropLeading(k))))
  {
    TrimmedSize(k);
    match style.edges
    case Keep => Success(k)
    case TrimAsWritten => StripEdgesAsWritten(DropTrailing(DropLeading(k)))
    case TrimStripped => Success(StripEdges(DropTrailing(DropLeading(k))))
  }

  // ---------------------------------------------------------------------
  // The pass
  // ---------------------------------------------------------------------

  /** The span that holds a matching element's contents between brackets. */
  function Wrapper(style: BracketStyle, mid: seq<Node>): Node
  {
    Elem("span", [], map[], [Text("[")] + mid + [Text(style.closing)])
  }

  /** `skipped` records whether some proper ancestor meets `skip`. */
  function BracketNode(style: BracketStyle, names: set<string>, skip: set<string>, skipped: bool, n: Node): (r: Result<Node>)
    ensures r.Success? && n.Text? ==> r.value == n
    ensures r.Success? && n.Elem? ==>
      r.value.Elem? && r.value.name == n.name && r.value.classes == n.classes && r.value.attrs == n.attrs
    ensures r.Success? && Meets(n, names) && !skipped ==>
      |r.value.kids| == 1 && r.value.kids[0].Elem? && r.value.kids[0].name == "span"
      && r.value.kids[0].classes == [] && r.value.kids[0].attrs == map[]
      && |r.value.kids[0].kids| >= 2
      && r.value.kids[0].kids[0] == Text("[")
      && r.value.kids[0].kids[|r.value.kids[0].kids| - 1] == Text(style.closing)
    ensures r.Success? && Meets(n, names) && !skipped ==>
      Prepare(style, n.kids).Success?
      && BracketSeq(style, names, skip, Meets(n, skip), Prepare(style, n.kids).value).Success?
      && r.value.kids[0].kids[1..|r.value.kids[0].kids| - 1]
         == BracketSeq(style, names, skip, Meets(n, skip), Prepare(style, n.kids).value).value
    ensures r.Success? && n.Elem? && !(Meets(n, names) && !skipped) ==>
      BracketSeq(style, names, skip, skipped || Meets(n, skip), n.kids) == Success(r.value.kids)
    decreases Size(n), 0
  {
    match n
    case Text(_) => Success(n)
    case Elem(nm, c, a, k) =>
      var below := skipped || Meets(n, skip);
      if Meets(n, names) && !skipped then
        match Prepare(style, k)
        case Failure(e) => Failure(e)
        case Success(mid) =>
          match BracketSeq(style, names, skip, below, mid)
          case Failure(e) => Failure(e)
          case Success(mid2) => Success(Elem(nm, c, a, [Wrapper(style, mid2)]))
      else
        match BracketSeq(style, names, skip, below, k)
        case Failure(e) => Failure(e)
        case Success(k2) => Success(Elem(nm, c, a, k2))
  }

  function BracketSeq(style: BracketStyle, names: set<string>, skip: set<string>, skipped: bool, L: seq<Node>): (r: Result<seq<Node>>)
    ensures r.Success? ==> |r.value| == |L|
    decreases SizeSeq(L), 1
  {
    if L == [] then Success([])
    else
      SizeSeqElem(L, 0);
      match BracketNode(style, names, skip, skipped, L[0])
      case Failure(e) => Failure(e)
      case Success(h) =>
        match BracketSeq(style, names, skip, skipped, L[1..])
        case Failure(e) => Failure(e)
        case Success(t) => Success([h] + t)
  }

  /** The pass treats each node of a forest on its own: it fails exactly
      when one of them fails, and otherwise gives each node's result in
      place. */
  lemma {:induction false} BracketSeqEach(style: BracketStyle, names: set<string>, skip: set<string>, skipped: bool, L: seq<Node>)
    ensures BracketSeq(style, names, skip, skipped, L).Success? <==>
      forall i | 0 <= i < |L| :: BracketNode(style, names, skip, skipped, L[i]).Success?
    ensures BracketSeq(style, names, skip, skipped, L).Success? ==>
      forall i | 0 <= i < |L| ::
        BracketSeq(style, names, skip, skipped, L).value[i] == BracketNode(style, names, skip, skipped, L[i]).value
  {
    if L != [] {
      BracketSeqEach(style, names, skip, skipped, L[1..]);
      assert forall i | 1 <= i < |L| :: L[i] == L[1..][i - 1];
    }
  }

  /** `wrap_class_text_with_brackets(soup, class_names, skip_parent_classes)`. */
  function WrapClassTextWithBrackets(style: BracketStyle, names: set<string>, skip: set<string>, doc: seq<Node>): Result<seq<Node>>
  {
    BracketSeq(style, names, skip, false, doc)
  }

  // ---------------------------------------------------------------------
  // Removing the brackets again
  // ---------------------------------------------------------------------

  /** The wrapper's shape: a class-less, attribute-less span between the
      two bracket texts. */
  predicate IsWrapper(style: BracketStyle, w: Node)
  {
    w.Elem? && w.name == "span" && w.classes == [] && w.attrs == map[]
    && |w.kids| >= 2 && w.kids[0] == Text("[") && w.kids[|w.kids| - 1] == Text(style.closing)
  }

  /** Inverse of the pass: every element the pass would wrap whose only
      child is a wrapper gets the wrapper's middle back as its children. */
  function UnbracketNode(style: BracketStyle, names: set<string>, skip: set<string>, skipped: bool, n: Node): Node
    decreases Size(n), 0
  {
    match n
    case Text(_) => n
    case Elem(nm, c, a, k) =>
      var below := skipped || Meets(n, skip);
      if Meets(n, names) && !skipped && |k| == 1 && IsWrapper(style, k[0]) then
        var w := k[0].kids;
        SizeSeqSlice(w, 1, |w| - 1);
        assert SizeSeq(k) == Size(k[0]) + SizeSeq(k[1..]);
        Elem(nm, c, a, UnbracketSeq(style, names, skip, below, w[1..|w| - 1]))
      else
        Elem(nm, c, a, UnbracketSeq(style, names, skip, below, k))
  }

  function UnbracketSeq(style: BracketStyle, names: set<string>, skip: set<string>, skipped: bool, L: seq<Node>): (r: seq<Node>)
    ensures |r| == |L|
    decreases SizeSeq(L), 1
  {
    if L == [] then []
    else
      SizeSeqElem(L, 0);
      [UnbracketNode(style, names, skip, skipped, L[0])] + UnbracketSeq(style, names, skip, skipped, L[1..])
  }

  /** Without edge treatment the pass never fails, and taking the brackets
      out again gives back exactly the input. */
  lemma {:induction false} BracketsRoundTrip(style: BracketStyle, names: set<string>, skip: set<string>, skipped: bool, L: seq<Node>)
    requires style.edges == Keep
    ensures BracketSeq(style, names, skip, skipped, L).Success?
    ensures UnbracketSeq(style, names, skip, skipped, BracketSeq(style, names, skip, skipped, L).value) == L
    decreases SizeSeq(L)
  {
    if L != [] {
      SizeSeqElem(L, 0);
      assert SizeSeq(L) == Size(L[0]) + SizeSeq(L[1..]);
      BracketsRoundTrip(style, names, skip, skipped, L[1..]);
      assert L == [L[0]] + L[1..];
      match L[0]
      case Text(_) =>
      case Elem(nm, c, a, k) =>
        var below := skipped || Meets(L[0], skip);
        BracketsRoundTrip(style, names, skip, below, k);
        var k2 := BracketSeq(style, names, skip, below, k).value;
        if Meets(L[0], names) && !skipped {
          var w := Wrapper(style, k2);
          assert w.kids[1..|w.kids| - 1] == k2;
        }
    }
  }

  /** A document without target classes comes through unchanged. */
  lemma {:induction false} BracketsIdentity(style: BracketStyle, names: set<string>, skip: set<string>, skipped: bool, L: seq<Node>)
    requires All(L, e => !Meets(e, names))
    ensures BracketSeq(style, names, skip, skipped, L) == Success(L)
    decreases SizeSeq(L)
  {
    if L != [] {
      SizeSeqElem(L, 0);
      assert SizeSeq(L) == Size(L[0]) + SizeSeq(L[1..]);
      BracketsIdentity(style, names, skip, skipped, L[1..]);
      assert L == [L[0]] + L[1..];
      match L[0]
      case Text(_) =>
      case Elem(nm, c, a, k) =>
        BracketsIdentity(style, names, skip, skipped || Meets(L[0], skip), k);
    }
  }

  /** Below an element with a skip class nothing is wrapped, whatever
      classes the descendants carry. */
  lemma {:induction false} SkippedLeftAlone(style: BracketStyle, names: set<string>, skip: set<string>, L: seq<Node>)
    ensures BracketSeq(style, names, skip, true, L) == Success(L)
    decreases SizeSeq(L)
  {
    if L != [] {
      SizeSeqElem(L, 0);
      assert SizeSeq(L) == Size(L[0]) + SizeSeq(L[1..]);
      SkippedLeftAlone(style, names, skip, L[1..]);
      assert L == [L[0]] + L[1..];
      if L[0].Elem? {
        SkippedLeftAlone(style, names, skip, L[0].kids);
      }
    }
  }

  /** What taking the brackets out should give back: the input with every
      element the pass wraps holding its prepared contents instead of its
      children. */
  function PreparedNode(style: BracketStyle, names: set<string>, skip: set<string>, skipped: bool, n: Node): Node
    decreases Size(n), 0
  {
    match n
    case Text(_) => n
    case Elem(nm, c, a, k) =>
      var below := skipped || Meets(n, skip);
      if Meets(n, names) && !skipped && Prepare(style, k).Success? then
        Elem(nm, c, a, PreparedSeq(style, names, skip, below, Prepare(style, k).value))
      else
        Elem(nm, c, a, PreparedSeq(style, names, skip, below, k))
  }

  function PreparedSeq(style: BracketStyle, names: set<string>, skip: set<string>, skipped: bool, L: seq<Node>): (r: seq<Node>)
    ensures |r| == |L|
    decreases SizeSeq(L), 1
  {
    if L == [] then []
    else
      SizeSeqElem(L, 0);
      [PreparedNode(style, names, skip, skipped, L[0])] + PreparedSeq(style, names, skip, skipped, L[1..])
  }

  /** Without edge treatment the prepared contents are the children
      themselves. */
  lemma {:induction false} PreparedKeep(style: BracketStyle, names: set<string>, skip: set<string>, skipped: bool, L: seq<Node>)
    requires style.edges == Keep
    ensures PreparedSeq(style, names, skip, skipped, L) == L
    decreases SizeSeq(L)
  {
    if L != [] {
      SizeSeqElem(L, 0);
      assert SizeSeq(L) == Size(L[0]) + SizeSeq(L[1..]);
      PreparedKeep(style, names, skip, skipped, L[1..]);
      assert L == [L[0]] + L[1..];
      if L[0].Elem? {
        PreparedKeep(style, names, skip, skipped || Meets(L[0], skip), L[0].kids);
      }
    }
  }

  /** In every edge mode, when the pass succeeds, taking the brackets out
      again gives back the input with each wrapped element's contents
      trimmed as the mode trims them, and nothing else changed. */
  lemma {:induction false} BracketsUnbracketed(style: BracketStyle, names: set<string>, skip: set<string>, skipped: bool, L: seq<Node>)
    ensures BracketSeq(style, names, skip, skipped, L).Success? ==>
      UnbracketSeq(style, names, skip, skipped, BracketSeq(style, names, skip, skipped, L).value)
      == PreparedSeq(style, names, skip, skipped, L)
    decreases SizeSeq(L)
  {
    if L != [] && BracketSeq(style, names, skip, skipped, L).Success? {
      SizeSeqElem(L, 0);
      assert SizeSeq(L) == Size(L[0]) + SizeSeq(L[1..]);
      var n := L[0];
      var h := BracketNode(style, names, skip, skipped, n).value;
      var t := BracketSeq(style, names, skip, skipped, L[1..]).value;
      BracketsUnbracketed(style, names, skip, skipped, L[1..]);
      assert BracketSeq(style, names, skip, skipped, L).value == [h] + t;
      match n
      case Text(_) =>
      case Elem(nm, c, a, k) =>
        var below := skipped || Meets(n, skip);
        if Meets(n, names) && !skipped {
          var mid := Prepare(style, k).value;
          BracketsUnbracketed(style, names, skip, below, mid);
          var w := Wrapper(style, BracketSeq(style, names, skip, below, mid).value);
          assert w.kids[1..|w.kids| - 1] == BracketSeq(style, names, skip, below, mid).value;
        } else {
          BracketsUnbracketed(style, names, skip, below, k);
        }
    }
  }

  // ---------------------------------------------------------------------
  // The edge defect
  // ---------------------------------------------------------------------

  const LONE_TEXT_DOC: seq<Node> := [Elem("span", ["lg"], map[], [Text("British")])]

  /** As written, an `lg` span holding one bare text fails the whole pass. */
  lemma AsWrittenFailsOnLoneText()
    ensures WrapClassTextWithBrackets(SEMANTIC_BRACKETS_AS_WRITTEN, {"lg"}, {"vg"}, LONE_TEXT_DOC).Failure?
  {
    var k := [Text("British")];
    assert !IsSpaceChar("British"[0]);
    assert !Blank(k[0]);
    assert DropLeading(k) == k;
    assert DropTrailing(k) == k;
    var n := LONE_TEXT_DOC[0];
    assert "lg" in ClassSet(n) * {"lg"};
    assert Prepare(SEMANTIC_BRACKETS_AS_WRITTEN, k).Failure?;
    assert BracketNode(SEMANTIC_BRACKETS_AS_WRITTEN, {"lg"}, {"vg"}, false, n).Failure?;
  }

  /** As written, a bare text edge keeps its whitespace inside the brackets. */
  lemma AsWrittenKeepsTextEdge()
    ensures var c := [Text(" a"), Elem("em", [], map[], [Text("b ")])];
      StripEdgesAsWritten(c) == Success([Text(" a"), Elem("em", [], map[], [Text("b")])])
  {
    var c := [Text(" a"), Elem("em", [], map[], [Text("b ")])];
    var e := Elem("em", [], map[], [Text("b")]);
    RStripSpace("b");
    assert "b" + " " == "b ";
    var s1 := MapStringAt(c, 0, LStrip);
    assert s1[1] == c[1];
    assert MapDotString(s1[1], RStrip) == e;
    assert StripEdges(c) == MapStringAt(s1, 1, RStrip) == s1[1 := e];
    var r := StripEdgesAsWritten(c).value;
    assert r[0] == c[0] && r[1] == e;
    assert r == [Text(" a"), e];
  }

  lemma RStripSpace(s: string)
    requires s != [] && !IsSpaceChar(s[|s| - 1])
    ensures RStrip(s + " ") == s
  {
    assert (s + " ")[..|s|] == s;
  }

  /** With every edge stripped the pass never fails. */
  lemma {:induction false} StrippedNeverFails(names: set<string>, skip: set<string>, skipped: bool, L: seq<Node>)
    ensures BracketSeq(SEMANTIC_BRACKETS, names, skip, skipped, L).Success?
    decreases SizeSeq(L)
  {
    if L != [] {
      SizeSeqElem(L, 0);
      assert SizeSeq(L) == Size(L[0]) + SizeSeq(L[1..]);
      StrippedNeverFails(names, skip, skipped, L[1..]);
      match L[0]
      case Text(_) =>
      case Elem(nm, c, a, k) =>
        var below := skipped || Meets(L[0], skip);
        StrippedNeverFails(names, skip, below, k);
        var mid := StripEdges(DropTrailing(DropLeading(k)));
        TrimmedSize(k);
        StrippedNeverFails(names, skip, below, mid);
    }
  }

  /** With every edge stripped, an element holding only text gets that text
      stripped between the brackets. */
  lemma StrippedLoneText(s: string)
    requires !IsSpaceStr(s)
    ensures StripEdges(DropTrailing(DropLeading([Text(s)]))) == [Text(Strip(s))]
  {
    LoneTextKept(s);
    LoneTextStripped(s);
  }

  lemma LoneTextKept(s: string)
    requires !IsSpaceStr(s)
    ensures DropTrailing(DropLeading([Text(s)])) == [Text(s)]
  {
    var L := [Text(s)];
    assert !Blank(L[0]);
    TrimmedAt(L, 0, 1);
    assert L[0..1] == L;
  }

  lemma LoneTextStripped(s: string)
    ensures StripEdges([Text(s)]) == [Text(Strip(s))]
  {
    var r := StripEdges([Text(s)]);
    assert DotString(r[0]) == Some(Strip(s));
    assert r[0].Text?;
  }
}

=== FILE: class_check.dfy ===
/** The class audit: which classes of a converted page the converter neither
    rewrites nor deliberately keeps. The file itself is read and parsed
    elsewhere; here a page is its file name and its parsed forest. */
module ClassCheck {
  import opened Tree
  import opened Matchers
  import SpanStyles
  import Cleanup

  /** The classes of the composite table, as one set. */
  function CompositeClasses(comp: seq<(set<string>, SpanStyles.Style)>): (r: set<string>)
    ensures forall c :: c in r <==> exists i | 0 <= i < |comp| :: c in comp[i].0
  {
    set i, c | 0 <= i < |comp| && c in comp[i].0 :: c
  }

  const CLASS_KEYS: seq<ClassKey> := [TCore, TSubsense, Se2, TFirst, SubsenseInSe2, SkipLabel]

  /** The table lists every key. */
  lemma KeysListed()
    ensures forall k: ClassKey :: k in CLASS_KEYS
  {
    forall k: ClassKey
      ensures k in CLASS_KEYS
    {
      match k
      case TCore => assert CLASS_KEYS[0] == k;
      case TSubsense => assert CLASS_KEYS[1] == k;
      case Se2 => assert CLASS_KEYS[2] == k;
      case TFirst => assert CLASS_KEYS[3] == k;
      case SubsenseInSe2 => assert CLASS_KEYS[4] == k;
      case SkipLabel => assert CLASS_KEYS[5] == k;
    }
  }

  /** `known_classes`: every class some pass looks for — the style tables'
      keys, the members of the composite keys and of every `CLASS_SETS`
      entry. */
  function KnownClasses(): (r: set<string>)
    ensures forall c :: c in r <==>
      || c in SpanStyles.STYLE_MAP || c in SpanStyles.APPLE_STYLE_MAP
      || (exists i | 0 <= i < |SpanStyles.COMPOSITE_STYLE_MAP| :: c in SpanStyles.COMPOSITE_STYLE_MAP[i].0)
      || (exists k: ClassKey :: c in ClassSets(k))
  {
    var sets := set k, c | k in CLASS_KEYS && c in ClassSets(k) :: c;
    KeysListed();
    SpanStyles.STYLE_MAP.Keys + SpanStyles.APPLE_STYLE_MAP.Keys
      + CompositeClasses(SpanStyles.COMPOSITE_STYLE_MAP) + sets
  }

  /** `excluded_classes`: classes known to be harmless in the output. */
  const EXCLUDED_CLASSES: set<string> := {
    "phrases_block", "phrases_title", "phrasalverbs_block", "phrasalverbs_title",
    "origin_block", "origin_title", "derivatives_block", "derivatives_title",
    "usage_block", "usage_title", "note_block", "note", "la", "date", "df",
    "tg_df", "dg", "x_xoLblBlk", "etym", "t_derivatives", "t_phrasalVerbs",
    "t_phrases", "eg", "frac", "fg", "ge", "reg", "hg", "x_xh0", "hw", "pr",
    "prx", "t_IPA", "ph", "tg_ph", "infg", "lbl", "subEntryBlock",
    "tg_subEntryBlock", "subEntry", "posg", "pos", "tg_pos", "q", "tg_q", "gp",
    "sg", "x_blk", "se1", "x_xd0", "x_xdt", "tg_msDict", "sj", "tg_eg",
    "tg_etym", "tx", "vg", "tg_vg", "tg_fg", "tg_infg", "trans", "tg_gg"}

  /** Class `c` of element `e` is reported: `e` carries it, shows some
      non-blank text, and `c` is neither known nor excluded. */
  predicate Reported(e: Node, c: string, known: set<string>, excluded: set<string>)
  {
    e.Elem? && c in e.classes && Strip(TextOf(e)) != "" && c !in known && c !in excluded
  }

  /** The reported classes of a forest, collected element by element. */
  function UnknownIn(L: seq<Node>, known: set<string>, excluded: set<string>): set<string>
  {
    if L == [] then {}
    else
      (match L[0]
       case Text(_) => {}
       case Elem(_, cs, _, k) =>
         (if Strip(TextOf(L[0])) != "" then set c | c in cs && c !in known && c !in excluded else {})
         + UnknownIn(k, known, excluded))
      + UnknownIn(L[1..], known, excluded)
  }

  /** A class is collected exactly when some element of the document-order
      snapshot reports it. */
  lemma {:induction false} UnknownInSpec(L: seq<Node>, known: set<string>, excluded: set<string>, c: string)
    ensures c in UnknownIn(L, known, excluded) <==>
      exists e | e in Elements(L) :: Reported(e, c, known, excluded)
  {
    if L != [] {
      UnknownInSpec(L[1..], known, excluded, c);
      match L[0]
      case Text(_) =>
        assert Elements(L) == Elements(L[1..]);
      case Elem(_, cs, _, k) =>
        UnknownInSpec(k, known, excluded, c);
        assert Elements(L) == [L[0]] + Elements(k) + Elements(L[1..]);
        if c in UnknownIn(L, known, excluded) {
          if Reported(L[0], c, known, excluded) {
            assert L[0] in Elements(L);
          } else if c in UnknownIn(k, known, excluded) {
            var e :| e in Elements(k) && Reported(e, c, known, excluded);
            assert e in Elements(L);
          } else {
            var e :| e in Elements(L[1..]) && Reported(e, c, known, excluded);
            assert e in Elements(L);
          }
        }
    }
  }

  lemma UnknownInAll(L: seq<Node>, known: set<string>, excluded: set<string>)
    ensures forall c :: c in UnknownIn(L, known, excluded) <==>
      exists e | e in Elements(L) :: Reported(e, c, known, excluded)
  {
    forall c
      ensures c in UnknownIn(L, known, excluded) <==>
        exists e | e in Elements(L) :: Reported(e, c, known, excluded)
    {
      UnknownInSpec(L, known, excluded, c);
    }
  }

  /** `find_unknown_classes_in_file`: every reported class, mapped to the
      set holding the one file name. */
  function FindUnknownClassesInFile(file: string, doc: seq<Node>, known: set<string>, excluded: set<string>): (r: map<string, set<string>>)
    ensures forall c :: c in r <==> exists e | e in Elements(doc) :: Reported(e, c, known, excluded)
    ensures forall c | c in r :: r[c] == {file}
  {
    UnknownInAll(doc, known, excluded);
    map c | c in UnknownIn(doc, known, excluded) :: {file}
  }

  /** The classes the cleanup keeps are all excluded from the audit. */
  lemma KeptClassesExcluded()
    ensures Cleanup.EXCLUDE_CLASSES <= EXCLUDED_CLASSES
  {
  }

  /** A finished page is never reported on: every class it still carries is
      excluded. */
  lemma TidyNotReported(L: seq<Node>, known: set<string>)
    requires All(L, Cleanup.Tidy)
    ensures UnknownIn(L, known, EXCLUDED_CLASSES) == {}
  {
    KeptClassesExcluded();
    KeptNotReported(L, known, EXCLUDED_CLASSES);
  }

  /** The same, for any exclusion set that contains the kept classes. */
  lemma {:induction false} KeptNotReported(L: seq<Node>, known: set<string>, excluded: set<string>)
    requires All(L, Cleanup.Tidy)
    requires Cleanup.EXCLUDE_CLASSES <= excluded
    ensures UnknownIn(L, known, excluded) == {}
  {
    if L != [] {
      assert L == [L[0]] + L[1..];
      AllAppend([L[0]], L[1..], Cleanup.Tidy);
      KeptNotReported(L[1..], known, excluded);
      match L[0]
      case Text(_) =>
      case Elem(_, cs, _, k) =>
        AllOne(L[0], Cleanup.Tidy);
        KeptNotReported(k, known, excluded);
        assert forall c | c in cs :: c in excluded;
    }
  }
}

=== FILE: cleanup.dfy ===
/** The post-processing passes that run after the sense lists are built:
    bullet removal, the renaming of the origin, derivatives, usage,
    phrasal-verb and phrase blocks, the headword line-break marker, empty-tag
    pruning, heading spans, span unwrapping, attribute cleaning, spacing after
    inline emphasis and title stripping.

    The semantic variant works on `section` blocks; the plain-HTML variant
    runs the same passes on `div` blocks and writes a title's attributes
    wholesale. Both are instances of one parameterised pass. */
module Cleanup {
  import opened Wrappers
  import opened Tree

  /** `y` is `x` with (possibly) different children: a text stays as it is,
      an element keeps its tag name, classes and attributes. */
  predicate SameShell(x: Node, y: Node)
  {
    if x.Text? then y == x
    else y.Elem? && y.name == x.name && y.classes == x.classes && y.attrs == x.attrs
  }

  /** Elements whose tag name is not in `N` (texts have no name). */
  function NameOutside(N: set<string>): Node -> bool
  {
    (n: Node) => !(n.Elem? && n.name in N)
  }

  // ---------------------------------------------------------------------
  // Bullet spans
  // ---------------------------------------------------------------------

  const BULLET_CLASSES: set<string> := {"gp", "sn", "tg_msDict"}

  /** A bullet span: it carries all the bullet classes, and its `.string`
      exists, is non-empty and strips to a bullet. */
  predicate IsBullet(n: Node)
  {
    && n.Elem? && n.name == "span" && BULLET_CLASSES <= ClassSet(n)
    && DotString(n).Some? && DotString(n).value != ""
    && Strip(DotString(n).value) == "•"
  }

  predicate NotBullet(n: Node)
  {
    !IsBullet(n)
  }

  /** Every bullet span is removed with its content. Whether a span is a
      bullet is decided on the tree as it was before the pass: the document
      snapshot visits a span before anything inside it, and nothing after
      it changes its subtree. */
  function RemoveBulletSpans(L: seq<Node>): (r: seq<Node>)
    ensures |r| == |Keep(L, NotBullet)|
    ensures forall i | 0 <= i < |r| :: SameShell(Keep(L, NotBullet)[i], r[i])
  {
    if L == [] then []
    else
      (if IsBullet(L[0]) then [] else [BulletNode(L[0])]) + RemoveBulletSpans(L[1..])
  }

  function BulletNode(n: Node): (r: Node)
    ensures SameShell(n, r)
    ensures n.Elem? ==> r.kids == RemoveBulletSpans(n.kids)
  {
    match n
    case Text(_) => n
    case Elem(nm, c, a, k) => Elem(nm, c, a, RemoveBulletSpans(k))
  }

  /** A document without bullet spans is left as it is. */
  lemma {:induction false} BulletIdentity(L: seq<Node>)
    requires All(L, NotBullet)
    ensures RemoveBulletSpans(L) == L
  {
    if L != [] {
      assert L == [L[0]] + L[1..];
      BulletIdentity(L[1..]);
      match L[0]
      case Text(_) =>
      case Elem(_, _, _, k) =>
        BulletIdentity(k);
    }
  }

  /** The survivors are the input's non-bullet nodes, in order, each with
      its own children cleaned the same way. */
  lemma {:induction false} BulletSpansEach(L: seq<Node>)
    ensures forall i | 0 <= i < |RemoveBulletSpans(L)| ::
      RemoveBulletSpans(L)[i] == BulletNode(Keep(L, NotBullet)[i])
  {
    if L != [] {
      BulletSpansEach(L[1..]);
      if !IsBullet(L[0]) {
        var r, t := RemoveBulletSpans(L), RemoveBulletSpans(L[1..]);
        var q, u := Keep(L, NotBullet), Keep(L[1..], NotBullet);
        assert r == [BulletNode(L[0])] + t;
        assert q == [L[0]] + u;
        forall i | 0 <= i < |r|
          ensures r[i] == BulletNode(q[i])
        {
          if i > 0 {
            assert r[i] == t[i - 1] && q[i] == u[i - 1];
          }
        }
      } else {
        assert RemoveBulletSpans(L) == RemoveBulletSpans(L[1..]);
        assert Keep(L, NotBullet) == Keep(L[1..], NotBullet);
      }
    }
  }

  // ---------------------------------------------------------------------
  // Origin, derivatives, usage, phrasal-verb and phrase blocks
  // ---------------------------------------------------------------------

  /** How a retitled span's other attributes are treated: the semantic
      variant only replaces the class list, the plain-HTML variant replaces
      the whole attribute dictionary. */
  datatype TitleAttrs = KeepOthers | ClassOnly

  /** One block rule: a `container` element carrying all of `marker` becomes
      a `block`; inside it, a span carrying `bare` becomes a bare `p` and a
      span carrying all of `label` becomes a `p` titled `title`. When a span
      has both, `bareFirst` says which wins. */
  datatype BlockRule = BlockRule(
    container: string,
    marker: set<string>,
    block: string,
    bare: Option<string>,
    bareFirst: bool,
    labels: set<string>,
    title: string,
    titleAttrs: TitleAttrs)

  const ETYM_LABEL: set<string> := {"gp", "x_xoLblBlk", "ty_label", "tg_etym"}
  const SUBENTRY_LABEL: set<string> := {"gp", "x_xoLblBlk", "ty_label", "tg_subEntryBlock"}

  function OriginRule(container: string, t: TitleAttrs): BlockRule
  {
    BlockRule(container, {"etym", "x_xo0"}, "origin_block", Some("x_xo1"), true,
              ETYM_LABEL, "origin_title", t)
  }

  function DerivativesRule(container: string, t: TitleAttrs): BlockRule
  {
    BlockRule(container, {"subEntryBlock", "x_xo0", "t_derivatives"}, "derivatives_block",
              Some("x_xoh"), false, SUBENTRY_LABEL, "derivatives_title", t)
  }

  function UsageRule(container: string, t: TitleAttrs): BlockRule
  {
    BlockRule(container, {"note", "x_xo0"}, "usage_block", None, false,
              {"lbl", "x_blk"}, "usage_title", t)
  }

  function PhrasalVerbsRule(container: string, t: TitleAttrs): BlockRule
  {
    BlockRule(container, {"subEntryBlock", "x_xo0", "t_phrasalVerbs"}, "phrasalverbs_block",
              None, false, SUBENTRY_LABEL, "phrasalverbs_title", t)
  }

  function PhrasesRule(container: string, t: TitleAttrs): BlockRule
  {
    BlockRule(container, {"subEntryBlock", "x_xo0", "t_phrases"}, "phrases_block",
              None, false, SUBENTRY_LABEL, "phrases_title", t)
  }

  /** The rules of the semantic variant (sections, class list replaced). */
  const SEMANTIC_RULES: seq<BlockRule> := [
    OriginRule("section", KeepOthers), DerivativesRule("section", KeepOthers),
    UsageRule("section", KeepOthers), PhrasalVerbsRule("section", KeepOthers),
    PhrasesRule("section", KeepOthers)]

  /** The rules of the plain-HTML variant (divs, attributes replaced). */
  const HTML_RULES: seq<BlockRule> := [
    OriginRule("div", ClassOnly), DerivativesRule("div", ClassOnly),
    UsageRule("div", ClassOnly)]

  /** A rule whose output can never match it again. */
  predicate RuleWellFormed(rule: BlockRule)
  {
    rule.container != "p" && rule.container != "span" && !(rule.marker <= {rule.block})
  }

  lemma RulesWellFormed()
    ensures forall i | 0 <= i < |SEMANTIC_RULES| :: RuleWellFormed(SEMANTIC_RULES[i])
    ensures forall i | 0 <= i < |HTML_RULES| :: RuleWellFormed(HTML_RULES[i])
  {
    assert "x_xo0" in OriginRule("section", KeepOthers).marker;
  }

  predicate IsBlock(rule: BlockRule, n: Node)
  {
    n.Elem? && n.name == rule.container && rule.marker <= ClassSet(n)
  }

  function NotBlock(rule: BlockRule): Node -> bool
  {
    (n: Node) => !IsBlock(rule, n)
  }

  /** A span inside a block that the rule retitles. */
  predicate IsTitleSpan(rule: BlockRule, n: Node)
  {
    && n.Elem? && n.name == "span"
    && ((rule.bare.Some? && rule.bare.value in ClassSet(n)) || rule.labels <= ClassSet(n))
  }

  function NotTitleSpan(rule: BlockRule): Node -> bool
  {
    (n: Node) => !IsTitleSpan(rule, n)
  }

  /** The retitling of one span found inside a block. */
  function Retitle(rule: BlockRule, n: Node): (r: Node)
    requires n.Elem?
    ensures r.Elem? && r.kids == n.kids
    ensures !IsTitleSpan(rule, n) ==> r == n
    ensures IsTitleSpan(rule, n) ==> r.name == "p"
    ensures IsTitleSpan(rule, n) && r.classes != [] ==>
      && rule.labels <= ClassSet(n) && r.classes == [rule.title]
      && (rule.titleAttrs == KeepOthers ==> r.attrs == n.attrs)
      && (rule.titleAttrs == ClassOnly ==> r.attrs == map[])
    ensures IsTitleSpan(rule, n) && r.classes == [] ==> r.attrs == map[] && rule.bare.Some?
    ensures IsTitleSpan(rule, n) ==>
      (r.classes == [] <==>
        rule.bare.Some? && rule.bare.value in ClassSet(n) && (rule.bareFirst || !(rule.labels <= ClassSet(n))))
  {
    var cs := ClassSet(n);
    var bare := rule.bare.Some? && rule.bare.value in cs;
    var titled := rule.labels <= cs;
    if n.name == "span" && bare && (rule.bareFirst || !titled) then
      Elem("p", [], map[], n.kids)
    else if n.name == "span" && titled then
      Elem("p", [rule.title], if rule.titleAttrs == KeepOthers then n.attrs else map[], n.kids)
    else n
  }

  /** The pass: `inside` says whether an enclosing block matched. A matching
      container gets the block class alone (its other attributes stay);
      every span below it is retitled, nested blocks included. */
  function BlockNode(rule: BlockRule, inside: bool, n: Node): (r: Node)
    ensures r.Text? <==> n.Text?
    ensures n.Text? ==> r == n
    ensures IsBlock(rule, n) ==>
      r.name == n.name && r.classes == [rule.block] && r.attrs == n.attrs
      && r.kids == BlockSeq(rule, true, n.kids)
    ensures n.Elem? && !IsBlock(rule, n) && inside && n.name == "span" ==>
      r.name == Retitle(rule, n).name && r.classes == Retitle(rule, n).classes
      && r.attrs == Retitle(rule, n).attrs && r.kids == BlockSeq(rule, true, n.kids)
    ensures n.Elem? && !IsBlock(rule, n) && !(inside && n.name == "span") ==>
      r.name == n.name && r.classes == n.classes && r.attrs == n.attrs
      && r.kids == BlockSeq(rule, inside, n.kids)
    decreases n
  {
    match n
    case Text(_) => n
    case Elem(nm, c, a, k) =>
      if IsBlock(rule, n) then Elem(nm, [rule.block], a, BlockSeq(rule, true, k))
      else if inside && nm == "span" then
        var s := Retitle(rule, n);
        Elem(s.name, s.classes, s.attrs, BlockSeq(rule, true, k))
      else Elem(nm, c, a, BlockSeq(rule, inside, k))
  }

  function BlockSeq(rule: BlockRule, inside: bool, L: seq<Node>): (r: seq<Node>)
    ensures |r| == |L|
    ensures forall i | 0 <= i < |L| :: r[i] == BlockNode(rule, inside, L[i])
    decreases L
  {
    if L == [] then [] else [BlockNode(rule, inside, L[0])] + BlockSeq(rule, inside, L[1..])
  }

  /** One block pass over a document: the visible text is kept, no matching
      container is left, and a document without one is left as it is. */
  function ConvertBlocks(rule: BlockRule, doc: seq<Node>): (r: seq<Node>)
    ensures TextSeq(r) == TextSeq(doc)
    ensures RuleWellFormed(rule) ==> All(r, NotBlock(rule))
    ensures All(doc, NotBlock(rule)) ==> r == doc
  {
    BlockKeepsText(rule, false, doc);
    var r := BlockSeq(rule, false, doc);
    if All(doc, NotBlock(rule)) then
      BlockIdentity(rule, doc);
      r
    else if RuleWellFormed(rule) then
      NoBlockLeft(rule, false, doc);
      r
    else r
  }

  /** Outside any block, and with no block below, nothing changes. */
  lemma {:induction false} BlockIdentity(rule: BlockRule, L: seq<Node>)
    requires All(L, NotBlock(rule))
    ensures BlockSeq(rule, false, L) == L
  {
    if L != [] {
      assert L == [L[0]] + L[1..];
      BlockIdentity(rule, L[1..]);
      match L[0]
      case Text(_) =>
      case Elem(_, _, _, k) =>
        BlockIdentity(rule, k);
    }
  }

  /** Renaming never touches the text. */
  lemma {:induction false} BlockKeepsText(rule: BlockRule, inside: bool, L: seq<Node>)
    ensures TextSeq(BlockSeq(rule, inside, L)) == TextSeq(L)
    decreases L
  {
    if L != [] {
      BlockKeepsText(rule, inside, L[1..]);
      match L[0]
      case Text(_) =>
      case Elem(nm, c, a, k) =>
        BlockKeepsText(rule, true, k);
        BlockKeepsText(rule, inside, k);
    }
  }

  /** After the pass no container matches the rule any more. */
  lemma {:induction false} NoBlockLeft(rule: BlockRule, inside: bool, L: seq<Node>)
    requires RuleWellFormed(rule)
    ensures All(BlockSeq(rule, inside, L), NotBlock(rule))
    decreases L
  {
    if L != [] {
      NoBlockLeft(rule, inside, L[1..]);
      var x := BlockNode(rule, inside, L[0]);
      match L[0]
      case Text(_) =>
      case Elem(nm, c, a, k) =>
        NoBlockLeft(rule, true, k);
        NoBlockLeft(rule, inside, k);
        if IsBlock(rule, L[0]) {
          assert ClassSet(x) == {rule.block};
        }
      AllOne(x, NotBlock(rule));
      AllAppend([x], BlockSeq(rule, inside, L[1..]), NotBlock(rule));
    }
  }

  /** Inside a block no span the rule would retitle is left. */
  lemma {:induction false} NoTitleSpanLeft(rule: BlockRule, L: seq<Node>)
    requires RuleWellFormed(rule)
    ensures All(BlockSeq(rule, true, L), NotTitleSpan(rule))
  {
    if L != [] {
      NoTitleSpanLeft(rule, L[1..]);
      var x := BlockNode(rule, true, L[0]);
      match L[0]
      case Text(_) =>
      case Elem(nm, c, a, k) =>
        NoTitleSpanLeft(rule, k);
      AllOne(x, NotTitleSpan(rule));
      AllAppend([x], BlockSeq(rule, true, L[1..]), NotTitleSpan(rule));
    }
  }

  /** Running a block pass twice is running it once. */
  lemma BlockIdempotent(rule: BlockRule, doc: seq<Node>)
    requires RuleWellFormed(rule)
    ensures ConvertBlocks(rule, ConvertBlocks(rule, doc)) == ConvertBlocks(rule, doc)
  {
    NoBlockLeft(rule, false, doc);
    BlockIdentity(rule, BlockSeq(rule, false, doc));
  }

  // ---------------------------------------------------------------------
  // Headword line breaks
  // ---------------------------------------------------------------------

  /** A `linebreaks` value worth showing: non-empty, with both a bar and a
      broken bar. */
  predicate ValidLinebreaks(v: string)
  {
    v != "" && '|' in v && '¦' in v
  }

  /** A headword span with a valid `linebreaks` attribute. */
  predicate IsBreakableHw(n: Node)
  {
    && n.Elem? && n.name == "span" && "hw" in n.classes
    && "linebreaks" in n.attrs && ValidLinebreaks(n.attrs["linebreaks"])
  }

  predicate NotBreakableHw(n: Node)
  {
    !IsBreakableHw(n)
  }

  /** A direct text child with something other than whitespace. */
  predicate IsWordText(n: Node)
  {
    n.Text? && exists i | 0 <= i < |n.s| :: !IsSpaceChar(n.s[i])
  }

  /** That is, a text that does not strip to nothing. */
  lemma WordTextStrips(n: Node)
    requires n.Text?
    ensures IsWordText(n) <==> Strip(n.s) != ""
  {
    StripEmptyIffBlank(n.s);
  }

  /** The first direct child that is a non-blank text. */
  function FirstWord(k: seq<Node>): (r: Option<nat>)
    ensures r.Some? ==> r.value < |k| && IsWordText(k[r.value])
    ensures r.Some? ==> forall j | 0 <= j < r.value :: !IsWordText(k[j])
    ensures r.None? ==> forall j | 0 <= j < |k| :: !IsWordText(k[j])
  {
    if k == [] then None
    else if IsWordText(k[0]) then Some(0)
    else match FirstWord(k[1..])
      case None => None
      case Some(i) => Some(i + 1)
  }

  function BreakMark(v: string): string
  {
    " [" + v + "]"
  }

  /** The marker text goes right after the first non-blank text child;
      taking it out again gives back the children as they were. */
  function InsertMark(v: string, k: seq<Node>): (r: seq<Node>)
    ensures FirstWord(k).None? ==> r == k
    ensures FirstWord(k).Some? ==>
      var i := FirstWord(k).value;
      && |r| == |k| + 1 && r[i + 1] == Text(BreakMark(v))
      && r[..i + 1] + r[i + 2..] == k
  {
    match FirstWord(k)
    case None => k
    case Some(i) =>
      var r := k[..i + 1] + [Text(BreakMark(v))] + k[i + 1..];
      assert r[..i + 1] == k[..i + 1] && r[i + 2..] == k[i + 1..];
      r
  }

  function HwNode(n: Node): (r: Node)
    ensures r.Text? <==> n.Text?
    ensures n.Text? ==> r == n
  {
    match n
    case Text(_) => n
    case Elem(nm, c, a, k) =>
      if IsBreakableHw(n) then Elem(nm, c, a, InsertMark(a["linebreaks"], InjectHwLinebreaks(k)))
      else Elem(nm, c, a, InjectHwLinebreaks(k))
  }

  function InjectHwLinebreaks(L: seq<Node>): (r: seq<Node>)
    ensures |r| == |L|
    ensures forall i | 0 <= i < |L| :: SameShell(L[i], r[i])
  {
    if L == [] then [] else [HwNode(L[0])] + InjectHwLinebreaks(L[1..])
  }

  /** Without a headword span carrying valid line breaks, nothing changes. */
  lemma {:induction false} HwIdentity(L: seq<Node>)
    requires All(L, NotBreakableHw)
    ensures InjectHwLinebreaks(L) == L
  {
    if L != [] {
      assert L == [L[0]] + L[1..];
      HwIdentity(L[1..]);
      match L[0]
      case Text(_) =>
      case Elem(_, _, _, k) =>
        HwIdentity(k);
    }
  }

  /** In a headword span the mark lands right after the first non-blank
      text, which the walk below it leaves where it was. */
  lemma HwMarksHeadword(n: Node)
    requires IsBreakableHw(n) && FirstWord(n.kids).Some?
    ensures var i := FirstWord(n.kids).value;
      && HwNode(n).kids[i] == n.kids[i]
      && HwNode(n).kids[i + 1] == Text(BreakMark(n.attrs["linebreaks"]))
  {
    var k := InjectHwLinebreaks(n.kids);
    HwSeqFirstWord(n.kids);
  }

  lemma HwSeqFirstWord(L: seq<Node>)
    ensures FirstWord(InjectHwLinebreaks(L)) == FirstWord(L)
    ensures FirstWord(L).Some? ==> InjectHwLinebreaks(L)[FirstWord(L).value] == L[FirstWord(L).value]
  {
    var r := InjectHwLinebreaks(L);
    assert forall j | 0 <= j < |L| :: IsWordText(r[j]) == IsWordText(L[j]);
    FirstWordAgree(L, r);
  }

  lemma {:induction false} FirstWordAgree(a: seq<Node>, b: seq<Node>)
    requires |a| == |b|
    requires forall j | 0 <= j < |a| :: IsWordText(a[j]) == IsWordText(b[j])
    ensures FirstWord(a) == FirstWord(b)
  {
    if a != [] {
      FirstWordAgree(a[1..], b[1..]);
    }
  }

  // ---------------------------------------------------------------------
  // Empty tags
  // ---------------------------------------------------------------------

  /** An element other than `d:index` with no child element and only
      whitespace text. */
  predicate IsEmptyTag(n: Node)
  {
    && n.Elem? && n.name != "d:index"
    && (forall i | 0 <= i < |n.kids| :: n.kids[i].Text?)
    && StrippedTextSeq(n.kids) == ""
  }

  predicate NotEmptyTag(n: Node)
  {
    !IsEmptyTag(n)
  }

  /** Every tag that is empty in the input is removed. A parent visited
      before its empty children still has them at that point, so it stays,
      even if the pass leaves it empty. */
  function RemoveEmptyTags(L: seq<Node>): (r: seq<Node>)
    ensures |r| == |Keep(L, NotEmptyTag)|
    ensures forall i | 0 <= i < |r| :: SameShell(Keep(L, NotEmptyTag)[i], r[i])
  {
    if L == [] then []
    else (if IsEmptyTag(L[0]) then [] else [PruneNode(L[0])]) + RemoveEmptyTags(L[1..])
  }

  function PruneNode(n: Node): (r: Node)
    ensures SameShell(n, r)
    ensures n.Elem? ==> r.kids == RemoveEmptyTags(n.kids)
  {
    match n
    case Text(_) => n
    case Elem(nm, c, a, k) => Elem(nm, c, a, RemoveEmptyTags(k))
  }

  /** The survivors are the input's non-empty nodes, in order, each with
      its own children pruned the same way. */
  lemma {:induction false} EmptyTagsEach(L: seq<Node>)
    ensures forall i | 0 <= i < |RemoveEmptyTags(L)| ::
      RemoveEmptyTags(L)[i] == PruneNode(Keep(L, NotEmptyTag)[i])
  {
    if L != [] {
      EmptyTagsEach(L[1..]);
      if !IsEmptyTag(L[0]) {
        var r, t := RemoveEmptyTags(L), RemoveEmptyTags(L[1..]);
        var q, u := Keep(L, NotEmptyTag), Keep(L[1..], NotEmptyTag);
        assert r == [PruneNode(L[0])] + t;
        assert q == [L[0]] + u;
        forall i | 0 <= i < |r|
          ensures r[i] == PruneNode(q[i])
        {
          if i > 0 {
            assert r[i] == t[i - 1] && q[i] == u[i - 1];
          }
        }
      } else {
        assert RemoveEmptyTags(L) == RemoveEmptyTags(L[1..]);
        assert Keep(L, NotEmptyTag) == Keep(L[1..], NotEmptyTag);
      }
    }
  }

  /** Pruning drops no visible text: the stripped text is unchanged. */
  lemma {:induction false} PruneKeepsText(L: seq<Node>)
    ensures StrippedTextSeq(RemoveEmptyTags(L)) == StrippedTextSeq(L)
  {
    if L != [] {
      PruneKeepsText(L[1..]);
      var t := RemoveEmptyTags(L[1..]);
      if IsEmptyTag(L[0]) {
        assert RemoveEmptyTags(L) == t;
      } else {
        var x := PruneNode(L[0]);
        assert RemoveEmptyTags(L) == [x] + t;
        if L[0].Elem? {
          PruneKeepsText(L[0].kids);
        }
        assert StrippedTextOf(x) == StrippedTextOf(L[0]);
        assert ([x] + t)[0] == x && ([x] + t)[1..] == t;
      }
    }
  }

  /** Without an empty tag, nothing changes. */
  lemma {:induction false} PruneIdentity(L: seq<Node>)
    requires All(L, NotEmptyTag)
    ensures RemoveEmptyTags(L) == L
  {
    if L != [] {
      assert L == [L[0]] + L[1..];
      PruneIdentity(L[1..]);
      match L[0]
      case Text(_) =>
      case Elem(_, _, _, k) =>
        PruneIdentity(k);
    }
  }

  /** Only one level goes: a tag holding nothing but an empty tag survives
      the pass, empty, and only a second pass removes it. */
  lemma PruneOneLevel()
    ensures var doc := [Elem("b", [], map[], [Elem("i", [], map[], [])])];
      && RemoveEmptyTags(doc) == [Elem("b", [], map[], [])]
      && RemoveEmptyTags(RemoveEmptyTags(doc)) == []
  {
    var i := Elem("i", [], map[], []);
    var b := Elem("b", [], map[], [i]);
    assert !IsEmptyTag(b) by { assert !b.kids[0].Text?; }
    assert IsEmptyTag(i);
    assert RemoveEmptyTags(b.kids) == [];
    assert IsEmptyTag(Elem("b", [], map[], []));
  }

  // ---------------------------------------------------------------------
  // Heading spans
  // ---------------------------------------------------------------------

  predicate IsHeading(n: Node)
  {
    n.Elem? && n.name == "span" && "hg" in n.classes && "x_xh0" in n.classes
  }

  predicate NotHeading(n: Node)
  {
    !IsHeading(n)
  }

  /** A heading span becomes a bare `p` with the same children. */
  function HeadNode(n: Node): (r: Node)
    ensures r.Text? <==> n.Text?
    ensures n.Text? ==> r == n
    ensures IsHeading(n) ==> r.name == "p" && r.classes == [] && r.attrs == map[]
    ensures n.Elem? && !IsHeading(n) ==> SameShell(n, r)
    ensures n.Elem? ==> r.kids == ConvertHeadingSpansToP(n.kids)
  {
    match n
    case Text(_) => n
    case Elem(nm, c, a, k) =>
      if IsHeading(n) then Elem("p", [], map[], ConvertHeadingSpansToP(k)) else Elem(nm, c, a, ConvertHeadingSpansToP(k))
  }

  function ConvertHeadingSpansToP(L: seq<Node>): (r: seq<Node>)
    ensures |r| == |L|
    ensures forall i | 0 <= i < |L| :: r[i] == HeadNode(L[i])
  {
    if L == [] then [] else [HeadNode(L[0])] + ConvertHeadingSpansToP(L[1..])
  }

  lemma {:induction false} NoHeadingLeft(L: seq<Node>)
    ensures All(ConvertHeadingSpansToP(L), NotHeading)
  {
    if L != [] {
      NoHeadingLeft(L[1..]);
      var x := HeadNode(L[0]);
      match L[0]
      case Text(_) =>
      case Elem(_, _, _, k) =>
        NoHeadingLeft(k);
      AllOne(x, NotHeading);
      AllAppend([x], ConvertHeadingSpansToP(L[1..]), NotHeading);
    }
  }

  lemma {:induction false} HeadingIdentity(L: seq<Node>)
    requires All(L, NotHeading)
    ensures ConvertHeadingSpansToP(L) == L
  {
    if L != [] {
      assert L == [L[0]] + L[1..];
      HeadingIdentity(L[1..]);
      match L[0]
      case Text(_) =>
      case Elem(_, _, _, k) =>
        HeadingIdentity(k);
    }
  }

  lemma {:induction false} HeadingKeepsText(L: seq<Node>)
    ensures TextSeq(ConvertHeadingSpansToP(L)) == TextSeq(L)
  {
    if L != [] {
      HeadingKeepsText(L[1..]);
      match L[0]
      case Text(_) =>
      case Elem(_, _, _, k) =>
        HeadingKeepsText(k);
    }
  }

  lemma HeadingIdempotent(doc: seq<Node>)
    ensures ConvertHeadingSpansToP(ConvertHeadingSpansToP(doc)) == ConvertHeadingSpansToP(doc)
  {
    NoHeadingLeft(doc);
    HeadingIdentity(ConvertHeadingSpansToP(doc));
  }

  // ---------------------------------------------------------------------
  // Unwrapping leftover spans and entries, dropping leftover metadata
  // ---------------------------------------------------------------------

  /** Every element named `t` is replaced, in place, by its children (which
      are themselves unwrapped). */
  function UnwrapSeq(L: seq<Node>, t: string): seq<Node>
  {
    if L == [] then []
    else
      (match L[0]
       case Text(_) => [L[0]]
       case Elem(nm, c, a, k) =>
         if nm == t then UnwrapSeq(k, t) else [Elem(nm, c, a, UnwrapSeq(k, t))])
      + UnwrapSeq(L[1..], t)
  }

  /** The text of a forest that lies outside every element named in `D`. */
  function TextOutside(L: seq<Node>, D: set<string>): string
  {
    if L == [] then ""
    else
      (match L[0]
       case Text(s) => s
       case Elem(nm, _, _, k) => if nm in D then "" else TextOutside(k, D))
      + TextOutside(L[1..], D)
  }

  lemma {:induction false} TextOutsideAppend(a: seq<Node>, b: seq<Node>, D: set<string>)
    ensures TextOutside(a + b, D) == TextOutside(a, D) + TextOutside(b, D)
  {
    if a == [] {
      assert a + b == b;
    } else {
      assert (a + b)[0] == a[0];
      assert (a + b)[1..] == a[1..] + b;
      TextOutsideAppend(a[1..], b, D);
    }
  }

  /** Every element whose name is in `D` is removed with its content: what
      is left reads as the text outside those elements. */
  function DropSeq(L: seq<Node>, D: set<string>): (r: seq<Node>)
    ensures TextSeq(r) == TextOutside(L, D)
  {
    if L == [] then []
    else
      var h := match L[0]
        case Text(_) => [L[0]]
        case Elem(nm, c, a, k) =>
          if nm in D then [] else [Elem(nm, c, a, DropSeq(k, D))];
      var t := DropSeq(L[1..], D);
      TextSeqAppend(h, t);
      assert h != [] ==> h[1..] == [];
      h + t
  }

  /** A forest with no element named in `D` is left as it is. */
  lemma {:induction false} DropIdentity(L: seq<Node>, D: set<string>)
    requires All(L, NameOutside(D))
    ensures DropSeq(L, D) == L
  {
    if L != [] {
      assert L == [L[0]] + L[1..];
      DropIdentity(L[1..], D);
      match L[0]
      case Text(_) =>
      case Elem(_, _, _, k) =>
        DropIdentity(k, D);
    }
  }

  /** Unwrapping an element whose name is not dropped moves the text
      outside the dropped elements without changing it. */
  lemma {:induction false} UnwrapTextOutside(L: seq<Node>, t: string, D: set<string>)
    requires t !in D
    ensures TextOutside(UnwrapSeq(L, t), D) == TextOutside(L, D)
  {
    if L != [] {
      UnwrapTextOutside(L[1..], t, D);
      match L[0]
      case Text(_) =>
        TextOutsideAppend([L[0]], UnwrapSeq(L[1..], t), D);
      case Elem(nm, c, a, k) =>
        UnwrapTextOutside(k, t, D);
        if nm == t {
          TextOutsideAppend(UnwrapSeq(k, t), UnwrapSeq(L[1..], t), D);
        } else {
          var e := Elem(nm, c, a, UnwrapSeq(k, t));
          TextOutsideAppend([e], UnwrapSeq(L[1..], t), D);
          assert [e][1..] == [];
        }
    }
  }

  const DROPPED_TAGS: set<string> := {"d:prn", "d:def", "d:pos"}

  /** All spans unwrapped, pronunciation, definition and part-of-speech
      metadata dropped, then entry wrappers unwrapped. */
  function UnwrapSpan(doc: seq<Node>): (r: seq<Node>)
    ensures All(r, NameOutside({"span", "d:entry"} + DROPPED_TAGS))
    ensures TextSeq(r) == TextOutside(doc, DROPPED_TAGS)
  {
    var a := UnwrapSeq(doc, "span");
    var b := DropSeq(a, DROPPED_TAGS);
    var c := UnwrapSeq(b, "d:entry");
    UnwrapSpanText(doc);
    OutsideNothing(doc);
    UnwrapOutside(doc, "span", {});
    DropOutside(a, DROPPED_TAGS, {} + {"span"});
    UnwrapOutside(b, "d:entry", {} + {"span"} + DROPPED_TAGS);
    assert {} + {"span"} + DROPPED_TAGS + {"d:entry"} == {"span", "d:entry"} + DROPPED_TAGS;
    c
  }

  lemma UnwrapSpanText(doc: seq<Node>)
    ensures TextSeq(UnwrapSeq(DropSeq(UnwrapSeq(doc, "span"), DROPPED_TAGS), "d:entry"))
      == TextOutside(doc, DROPPED_TAGS)
  {
    var b := DropSeq(UnwrapSeq(doc, "span"), DROPPED_TAGS);
    assert "span" !in DROPPED_TAGS;
    UnwrapTextOutside(doc, "span", DROPPED_TAGS);
    UnwrapKeepsText(b, "d:entry");
  }

  lemma {:induction false} OutsideNothing(L: seq<Node>)
    ensures All(L, NameOutside({}))
  {
    if L != [] {
      OutsideNothing(L[1..]);
      match L[0]
      case Text(_) =>
      case Elem(_, _, _, k) =>
        OutsideNothing(k);
    }
  }

  /** Unwrapping `t` leaves no `t`, and brings in no other name. */
  lemma {:induction false} UnwrapOutside(L: seq<Node>, t: string, N: set<string>)
    requires All(L, NameOutside(N))
    ensures All(UnwrapSeq(L, t), NameOutside(N + {t}))
  {
    if L != [] {
      UnwrapOutside(L[1..], t, N);
      var h := match L[0]
        case Text(_) => [L[0]]
        case Elem(nm, c, a, k) =>
          if nm == t then UnwrapSeq(k, t) else [Elem(nm, c, a, UnwrapSeq(k, t))];
      match L[0]
      case Text(_) =>
        AllOne(L[0], NameOutside(N + {t}));
      case Elem(nm, c, a, k) =>
        UnwrapOutside(k, t, N);
        AllOne(Elem(nm, c, a, UnwrapSeq(k, t)), NameOutside(N + {t}));
      AllAppend(h, UnwrapSeq(L[1..], t), NameOutside(N + {t}));
    }
  }

  /** Dropping `D` leaves no element named in `D`, and brings in no other name. */
  lemma {:induction false} DropOutside(L: seq<Node>, D: set<string>, N: set<string>)
    requires All(L, NameOutside(N))
    ensures All(DropSeq(L, D), NameOutside(N + D))
  {
    if L != [] {
      DropOutside(L[1..], D, N);
      var h := match L[0]
        case Text(_) => [L[0]]
        case Elem(nm, c, a, k) => if nm in D then [] else [Elem(nm, c, a, DropSeq(k, D))];
      match L[0]
      case Text(_) =>
        AllOne(L[0], NameOutside(N + D));
      case Elem(nm, c, a, k) =>
        DropOutside(k, D, N);
        AllOne(Elem(nm, c, a, DropSeq(k, D)), NameOutside(N + D));
      AllAppend(h, DropSeq(L[1..], D), NameOutside(N + D));
    }
  }

  /** Unwrapping moves text around without losing or adding any. */
  lemma {:induction false} UnwrapKeepsText(L: seq<Node>, t: string)
    ensures TextSeq(UnwrapSeq(L, t)) == TextSeq(L)
  {
    if L != [] {
      UnwrapKeepsText(L[1..], t);
      match L[0]
      case Text(_) =>
        TextSeqAppend([L[0]], UnwrapSeq(L[1..], t));
      case Elem(nm, c, a, k) =>
        UnwrapKeepsText(k, t);
        if nm == t {
          TextSeqAppend(UnwrapSeq(k, t), UnwrapSeq(L[1..], t));
        } else {
          TextSeqAppend([Elem(nm, c, a, UnwrapSeq(k, t))], UnwrapSeq(L[1..], t));
        }
    }
  }

  /** A forest with no `t` element is left as it is by unwrapping `t`. */
  lemma {:induction false} UnwrapIdentity(L: seq<Node>, t: string)
    requires All(L, NameOutside({t}))
    ensures UnwrapSeq(L, t) == L
  {
    if L != [] {
      assert L == [L[0]] + L[1..];
      UnwrapIdentity(L[1..], t);
      match L[0]
      case Text(_) =>
      case Elem(_, _, _, k) =>
        UnwrapIdentity(k, t);
    }
  }

  // ---------------------------------------------------------------------
  // Attributes
  // ---------------------------------------------------------------------

  /** The classes the final output keeps. */
  const EXCLUDE_CLASSES: set<string> := {
    "phrases_block", "phrases_title", "phrasalverbs_block", "phrasalverbs_title",
    "origin_block", "origin_title", "derivatives_block", "derivatives_title",
    "usage_block", "usage_title"}

  const ATTRS_TO_REMOVE: set<string> := {"id", "linebreaks"}

  /** The kept classes, in their original order; an empty result stands for
      the class attribute being deleted. */
  function KeptClasses(cs: seq<string>): (r: seq<string>)
    ensures forall i | 0 <= i < |r| :: r[i] in EXCLUDE_CLASSES
    ensures forall c :: c in r <==> c in cs && c in EXCLUDE_CLASSES
  {
    if cs == [] then []
    else (if cs[0] in EXCLUDE_CLASSES then [cs[0]] else []) + KeptClasses(cs[1..])
  }

  /** Classes that are all kept already are kept as they are. */
  lemma {:induction false} KeptClassesIdentity(cs: seq<string>)
    requires forall i | 0 <= i < |cs| :: cs[i] in EXCLUDE_CLASSES
    ensures KeptClasses(cs) == cs
  {
    if cs != [] {
      KeptClassesIdentity(cs[1..]);
    }
  }

  /** Every element keeps only the output classes and loses `id` and
      `linebreaks`; its other attributes stay. */
  function CleanNode(n: Node): (r: Node)
    ensures r.Text? <==> n.Text?
    ensures n.Text? ==> r == n
    ensures n.Elem? ==>
      && r.name == n.name && r.classes == KeptClasses(n.classes)
      && r.attrs == n.attrs - ATTRS_TO_REMOVE
    ensures n.Elem? ==> r.kids == CleanAttributes(n.kids)
  {
    match n
    case Text(_) => n
    case Elem(nm, c, a, k) => Elem(nm, KeptClasses(c), a - ATTRS_TO_REMOVE, CleanAttributes(k))
  }

  function CleanAttributes(L: seq<Node>): (r: seq<Node>)
    ensures |r| == |L|
    ensures forall i | 0 <= i < |L| :: r[i] == CleanNode(L[i])
  {
    if L == [] then [] else [CleanNode(L[0])] + CleanAttributes(L[1..])
  }

  /** Cleaning twice is cleaning once. */
  lemma {:induction false} CleanIdempotent(L: seq<Node>)
    ensures CleanAttributes(CleanAttributes(L)) == CleanAttributes(L)
  {
    if L != [] {
      CleanIdempotent(L[1..]);
      match L[0]
      case Text(_) =>
      case Elem(nm, c, a, k) =>
        CleanIdempotent(k);
        KeptClassesIdentity(KeptClasses(c));
        assert a - ATTRS_TO_REMOVE - ATTRS_TO_REMOVE == a - ATTRS_TO_REMOVE;
    }
  }

  /** An element of the finished output: no leftover wrapper or metadata
      tag, only output classes, no `id` or `linebreaks`. */
  predicate Tidy(n: Node)
  {
    n.Elem? ==>
      && n.name !in {"span", "d:entry"} + DROPPED_TAGS
      && (forall i | 0 <= i < |n.classes| :: n.classes[i] in EXCLUDE_CLASSES)
      && "id" !in n.attrs && "linebreaks" !in n.attrs
  }

  lemma {:induction false} CleanTidies(L: seq<Node>)
    requires All(L, NameOutside({"span", "d:entry"} + DROPPED_TAGS))
    ensures All(CleanAttributes(L), Tidy)
  {
    if L != [] {
      CleanTidies(L[1..]);
      var x := CleanNode(L[0]);
      match L[0]
      case Text(_) =>
      case Elem(_, _, _, k) =>
        CleanTidies(k);
      AllOne(x, Tidy);
      AllAppend([x], CleanAttributes(L[1..]), Tidy);
    }
  }

  // ---------------------------------------------------------------------
  // A space after inline emphasis
  // ---------------------------------------------------------------------

  const SPACED_TAGS: set<string> := {"strong", "em"}

  /** A text that starts with a letter (`alpha` stands for Python's
      `str.isalpha` on one character) rather than with a space. */
  predicate NeedsSpace(s: string, alpha: char -> bool)
  {
    |s| > 0 && s[0] != ' ' && alpha(s[0])
  }

  /** Whether the sibling before position `i` is a `strong` or `em`; for
      the first child, `prev` stands in for it. */
  predicate AfterSpaced(L: seq<Node>, prev: bool, i: nat)
    requires i < |L|
  {
    if i == 0 then prev else L[i - 1].Elem? && L[i - 1].name in SPACED_TAGS
  }

  /** A text right after a `strong` or `em` sibling that starts with a letter
      gets a leading space. `prev` says whether the previous sibling is one
      of those. Each text has at most one previous sibling, so handling
      `strong` and `em` in one walk is the same as one walk per tag name. */
  function SpaceSeq(L: seq<Node>, alpha: char -> bool, prev: bool): (r: seq<Node>)
    ensures |r| == |L|
    ensures forall i | 0 <= i < |L| :: L[i].Elem? ==> SameShell(L[i], r[i])
    ensures forall i | 0 <= i < |L| :: L[i].Text? ==>
      r[i] == L[i] || (r[i] == Text(" " + L[i].s) && NeedsSpace(L[i].s, alpha))
    ensures forall i | 0 <= i < |L| :: L[i].Text? ==>
      (r[i] == Text(" " + L[i].s) <==> AfterSpaced(L, prev, i) && NeedsSpace(L[i].s, alpha))
    ensures forall i | 0 <= i < |L| :: L[i].Text? && !(AfterSpaced(L, prev, i) && NeedsSpace(L[i].s, alpha)) ==>
      r[i] == L[i]
    ensures forall i | 0 <= i < |L| :: L[i].Elem? ==> r[i] == SpaceNode(L[i], alpha)
  {
    if L == [] then []
    else
      var x := L[0];
      var y := if prev && x.Text? && NeedsSpace(x.s, alpha) then Text(" " + x.s) else SpaceNode(x, alpha);
      var p := x.Elem? && x.name in SPACED_TAGS;
      var t := SpaceSeq(L[1..], alpha, p);
      SpaceCons(L, alpha, prev, y, t);
      [y] + t
  }

  /** The per-position facts `SpaceSeq` promises of its result `r`. */
  predicate Spaced(L: seq<Node>, alpha: char -> bool, prev: bool, r: seq<Node>)
  {
    && |r| == |L|
    && (forall i | 0 <= i < |L| :: L[i].Elem? ==> SameShell(L[i], r[i]))
    && (forall i | 0 <= i < |L| :: L[i].Text? ==>
         r[i] == L[i] || (r[i] == Text(" " + L[i].s) && NeedsSpace(L[i].s, alpha)))
    && (forall i | 0 <= i < |L| :: L[i].Text? ==>
         (r[i] == Text(" " + L[i].s) <==> AfterSpaced(L, prev, i) && NeedsSpace(L[i].s, alpha)))
    && (forall i | 0 <= i < |L| :: L[i].Text? && !(AfterSpaced(L, prev, i) && NeedsSpace(L[i].s, alpha)) ==>
         r[i] == L[i])
  }

  /** The facts extend from the tail to the whole list. */
  lemma SpaceCons(L: seq<Node>, alpha: char -> bool, prev: bool, y: Node, t: seq<Node>)
    requires L != []
    requires y == if prev && L[0].Text? && NeedsSpace(L[0].s, alpha) then Text(" " + L[0].s) else SpaceNode(L[0], alpha)
    requires Spaced(L[1..], alpha, L[0].Elem? && L[0].name in SPACED_TAGS, t)
    requires forall i | 0 <= i < |t| :: L[1..][i].Elem? ==> t[i] == SpaceNode(L[1..][i], alpha)
    ensures Spaced(L, alpha, prev, [y] + t)
    ensures forall i | 0 <= i < |L| :: L[i].Elem? ==> ([y] + t)[i] == SpaceNode(L[i], alpha)
  {
    var p := L[0].Elem? && L[0].name in SPACED_TAGS;
    var r := [y] + t;
    forall i | 0 <= i < |L|
      ensures L[i].Elem? ==> SameShell(L[i], r[i]) && r[i] == SpaceNode(L[i], alpha)
      ensures L[i].Text? ==> r[i] == L[i] || (r[i] == Text(" " + L[i].s) && NeedsSpace(L[i].s, alpha))
      ensures L[i].Text? ==>
        (r[i] == Text(" " + L[i].s) <==> AfterSpaced(L, prev, i) && NeedsSpace(L[i].s, alpha))
      ensures L[i].Text? && !(AfterSpaced(L, prev, i) && NeedsSpace(L[i].s, alpha)) ==> r[i] == L[i]
    {
      if i == 0 {
        assert r[0] == y;
      } else {
        assert L[i] == L[1..][i - 1] && r[i] == t[i - 1];
        assert AfterSpaced(L, prev, i) == AfterSpaced(L[1..], p, i - 1);
      }
    }
  }

  function SpaceNode(n: Node, alpha: char -> bool): (r: Node)
    ensures SameShell(n, r)
    ensures n.Elem? ==> r.kids == SpaceSeq(n.kids, alpha, false)
  {
    match n
    case Text(_) => n
    case Elem(nm, c, a, k) => Elem(nm, c, a, SpaceSeq(k, alpha, false))
  }

  /** `ensure_space_after_tags(soup, ["strong", "em"])`: element shells are
      kept, a text gets a leading space exactly when it follows a `strong`
      or `em` sibling and starts with a letter, and since a space is not a
      letter, running the pass again changes nothing. */
  function EnsureSpaceAfterTags(doc: seq<Node>, alpha: char -> bool): (r: seq<Node>)
    ensures |r| == |doc|
    ensures forall i | 0 <= i < |doc| :: doc[i].Elem? ==> SameShell(doc[i], r[i])
    ensures forall i | 0 <= i < |doc| :: doc[i].Text? ==>
      r[i] == (if AfterSpaced(doc, false, i) && NeedsSpace(doc[i].s, alpha) then Text(" " + doc[i].s) else doc[i])
    ensures !alpha(' ') ==> SpaceSeq(r, alpha, false) == r
  {
    if !alpha(' ') then
      SpaceIdempotent(doc, alpha, false);
      SpaceSeq(doc, alpha, false)
    else SpaceSeq(doc, alpha, false)
  }

  /** Since a space is not a letter, spacing twice is spacing once. */
  lemma {:induction false} SpaceIdempotent(L: seq<Node>, alpha: char -> bool, prev: bool)
    requires !alpha(' ')
    ensures SpaceSeq(SpaceSeq(L, alpha, prev), alpha, prev) == SpaceSeq(L, alpha, prev)
  {
    if L != [] {
      var x := L[0];
      var r := SpaceSeq(L, alpha, prev);
      SpaceIdempotent(L[1..], alpha, x.Elem? && x.name in SPACED_TAGS);
      match x
      case Text(s) =>
        if prev && NeedsSpace(s, alpha) {
          assert r[0] == Text(" " + s);
          assert !NeedsSpace(" " + s, alpha);
        } else {
          assert r[0] == x;
        }
      case Elem(_, _, _, k) =>
        SpaceIdempotent(k, alpha, false);
      assert r[1..] == SpaceSeq(L[1..], alpha, x.Elem? && x.name in SPACED_TAGS);
    }
  }

  /** Spacing changes no element, so a tidy forest stays tidy. */
  lemma {:induction false} SpaceKeepsTidy(L: seq<Node>, alpha: char -> bool, prev: bool)
    requires All(L, Tidy)
    ensures All(SpaceSeq(L, alpha, prev), Tidy)
  {
    if L != [] {
      var r := SpaceSeq(L, alpha, prev);
      SpaceKeepsTidy(L[1..], alpha, L[0].Elem? && L[0].name in SPACED_TAGS);
      match L[0]
      case Text(_) =>
      case Elem(_, _, _, k) =>
        SpaceKeepsTidy(k, alpha, false);
      AllOne(r[0], Tidy);
      assert r == [r[0]] + r[1..];
      AllAppend([r[0]], r[1..], Tidy);
    }
  }

  // ---------------------------------------------------------------------
  // Titles
  // ---------------------------------------------------------------------

  const TITLE_CLASSES: set<string> := {
    "usage_title", "origin_title", "derivatives_title", "phrases_title", "phrasalverbs_title"}

  predicate IsTitle(n: Node)
  {
    n.Elem? && ClassSet(n) * TITLE_CLASSES != {}
  }

  /** A title whose only child is a text has that text stripped. */
  function TitleNode(n: Node): (r: Node)
    ensures SameShell(n, r)
    ensures IsTitle(n) && |n.kids| == 1 && n.kids[0].Text? ==> r.kids == [Text(Strip(n.kids[0].s))]
    ensures n.Elem? && !(IsTitle(n) && |n.kids| == 1 && n.kids[0].Text?) ==> r.kids == StripTitleWhitespace(n.kids)
  {
    match n
    case Text(_) => n
    case Elem(nm, c, a, k) =>
      if IsTitle(n) && |k| == 1 && k[0].Text? then Elem(nm, c, a, [Text(Strip(k[0].s))])
      else Elem(nm, c, a, StripTitleWhitespace(k))
  }

  function StripTitleWhitespace(L: seq<Node>): (r: seq<Node>)
    ensures |r| == |L|
    ensures forall i | 0 <= i < |L| :: SameShell(L[i], r[i]) && r[i] == TitleNode(L[i])
  {
    if L == [] then [] else [TitleNode(L[0])] + StripTitleWhitespace(L[1..])
  }

  /** Stripping titles twice is stripping them once. */
  lemma {:induction false} TitleIdempotent(L: seq<Node>)
    ensures StripTitleWhitespace(StripTitleWhitespace(L)) == StripTitleWhitespace(L)
  {
    if L != [] {
      TitleIdempotent(L[1..]);
      TitleNodeIdempotent(L[0]);
      var r := StripTitleWhitespace(L);
      assert r == [TitleNode(L[0])] + StripTitleWhitespace(L[1..]);
      assert r[0] == TitleNode(L[0]) && r[1..] == StripTitleWhitespace(L[1..]);
    }
  }

  lemma {:induction false} TitleNodeIdempotent(n: Node)
    ensures TitleNode(TitleNode(n)) == TitleNode(n)
  {
    match n
    case Text(_) =>
    case Elem(nm, c, a, k) =>
      if IsTitle(n) && |k| == 1 && k[0].Text? {
        StripIdempotent(k[0].s);
      } else {
        TitleIdempotent(k);
        var k2 := StripTitleWhitespace(k);
        assert |k2| == 1 ==> SameShell(k[0], k2[0]);
      }
  }

  lemma {:induction false} TitleKeepsTidy(L: seq<Node>)
    requires All(L, Tidy)
    ensures All(StripTitleWhitespace(L), Tidy)
  {
    if L != [] {
      var x := TitleNode(L[0]);
      TitleKeepsTidy(L[1..]);
      match L[0]
      case Text(_) =>
      case Elem(nm, c, a, k) =>
        TitleKeepsTidy(k);
        AllOne(x, Tidy);
      AllAppend([x], StripTitleWhitespace(L[1..]), Tidy);
    }
  }

  // ---------------------------------------------------------------------
  // The whole post-processing
  // ---------------------------------------------------------------------

  /** The semantic post-processing, in its fixed order. The finished
      document has no span, entry wrapper or metadata tag left, keeps only
      output classes and carries no `id` or `linebreaks` attribute. */
  function CleanupStuff(doc: seq<Node>, alpha: char -> bool): (r: seq<Node>)
    ensures All(r, Tidy)
  {
    var a := RemoveBulletSpans(doc);
    var b := ConvertBlocks(SEMANTIC_RULES[0], a);
    var c := ConvertBlocks(SEMANTIC_RULES[1], b);
    var d := ConvertBlocks(SEMANTIC_RULES[2], c);
    var e := InjectHwLinebreaks(d);
    var f := RemoveEmptyTags(e);
    var g := ConvertHeadingSpansToP(f);
    var h := ConvertBlocks(SEMANTIC_RULES[3], g);
    var i := ConvertBlocks(SEMANTIC_RULES[4], h);
    var j := UnwrapSpan(i);
    var k := CleanAttributes(j);
    var l := EnsureSpaceAfterTags(k, alpha);
    CleanTidies(j);
    SpaceKeepsTidy(k, alpha, false);
    TitleKeepsTidy(l);
    StripTitleWhitespace(l)
  }
}

=== FILE: definition_phrases.dfy ===
/** The phrase and phrasal-verb blocks: grouping of `x_xo0` headings with the
    siblings that follow them, `x_xo1` sub-entries turned into lists, and
    second-level subsenses gathered into a list. */
module DefinitionPhrases {
  import opened Wrappers
  import opened Tree
  import opened Matchers

  // ---------------------------------------------------------------------
  // group_xo0_blocks
  // ---------------------------------------------------------------------

  /** A sibling that ends a group: any element with class `x_xo0`. */
  predicate IsGroupMarker(n: Node)
  {
    IsClass(n, "x_xo0")
  }

  /** A group head the pass rewrites: a span with class `x_xo0`. */
  predicate IsGroupHead(n: Node)
  {
    n.Elem? && n.name == "span" && "x_xo0" in n.classes
  }

  /** `group_xo0_blocks` over a forest: each head becomes a `div` keeping its
      classes and attributes, with its taken siblings appended to its
      children; a nested head then groups among those combined children. */
  function GroupSeq(L: seq<Node>): (r: seq<Node>)
    ensures SizeSeq(r) == SizeSeq(L)
    decreases SizeSeq(L)
  {
    if L == [] then []
    else
      var n := L[0];
      assert SizeSeq(L) == Size(n) + SizeSeq(L[1..]);
      var rest := GroupSeq(L[1..]);
      match n
      case Text(_) =>
        SizeSeqAppend([n], rest);
        [n] + rest
      case Elem(nm, c, a, k) =>
        if IsGroupHead(n) then
          var sp := SplitRun(L[1..], IsGroupMarker, IsElem);
          SizeSeqAppend(k, sp.0);
          var head := Elem("div", c, a, GroupSeq(k + sp.0));
          var tail := GroupSeq(sp.1);
          SizeSeqAppend([head], tail);
          [head] + tail
        else
          var e := Elem(nm, c, a, GroupSeq(k));
          SizeSeqAppend([e], rest);
          [e] + rest
  }

  /** A head takes the element siblings that follow it, up to the next
      `x_xo0` element, and appends them after its own children; the text
      siblings in that run stay where they were, and grouping goes on
      from there. */
  lemma GroupTakesItsSiblings(head: Node, rest: seq<Node>)
    requires IsGroupHead(head)
    ensures var run := RunBefore(rest, IsGroupMarker);
      var left := Keep(run, IsText) + rest[|run|..];
      GroupSeq([head] + rest)
        == [Elem("div", head.classes, head.attrs, GroupSeq(head.kids + Keep(run, IsElem)))] + GroupSeq(left)
  {
    var L := [head] + rest;
    assert L[0] == head && L[1..] == rest;
    SplitRunSpec(rest, IsGroupMarker, IsElem, IsText);
  }

  /** Any other node at the front is rewritten on its own, its children
      grouped among themselves, and grouping goes on with its siblings. */
  lemma GroupStepsOver(e: Node, rest: seq<Node>)
    requires !IsGroupHead(e)
    ensures GroupSeq([e] + rest)
      == (if e.Text? then [e] else [Elem(e.name, e.classes, e.attrs, GroupSeq(e.kids))]) + GroupSeq(rest)
  {
    var L := [e] + rest;
    assert L[0] == e && L[1..] == rest;
  }

  /** `group_xo0_blocks(soup)`. */
  function GroupXo0Blocks(doc: seq<Node>): seq<Node>
  {
    GroupSeq(doc)
  }

  /** The text nodes directly in a forest, in order. */
  function DirectTexts(L: seq<Node>): seq<Node>
  {
    Keep(L, IsText)
  }

  /** Grouping moves elements only: the texts directly in a forest stay
      there, in their order. */
  lemma {:induction false} GroupKeepsDirectTexts(L: seq<Node>)
    ensures DirectTexts(GroupSeq(L)) == DirectTexts(L)
    decreases SizeSeq(L)
  {
    if L != [] {
      var n := L[0];
      assert SizeSeq(L) == Size(n) + SizeSeq(L[1..]);
      assert L == [n] + L[1..];
      KeepAppend([n], L[1..], IsText);
      GroupKeepsDirectTexts(L[1..]);
      if IsGroupHead(n) {
        var sp := SplitRun(L[1..], IsGroupMarker, IsElem);
        var head := Elem("div", n.classes, n.attrs, GroupSeq(n.kids + sp.0));
        KeepAppend([head], GroupSeq(sp.1), IsText);
        GroupKeepsDirectTexts(sp.1);
        SplitRunKeeps(L[1..], IsGroupMarker, IsElem, IsText);
      } else {
        KeepAppend([GroupSeq(L)[0]], GroupSeq(L[1..]), IsText);
      }
    }
  }

  /** After grouping no `x_xo0` span is left: every head became a `div`. */
  lemma {:induction false} NoGroupHeadLeft(L: seq<Node>)
    ensures All(GroupSeq(L), e => !IsGroupHead(e))
    decreases SizeSeq(L)
  {
    if L != [] {
      var n := L[0];
      assert SizeSeq(L) == Size(n) + SizeSeq(L[1..]);
      NoGroupHeadLeft(L[1..]);
      var r := GroupSeq(L);
      if n.Elem? {
        if IsGroupHead(n) {
          var sp := SplitRun(L[1..], IsGroupMarker, IsElem);
          SizeSeqAppend(n.kids, sp.0);
          NoGroupHeadLeft(n.kids + sp.0);
          NoGroupHeadLeft(sp.1);
          AllAppend([r[0]], GroupSeq(sp.1), e => !IsGroupHead(e));
          assert [r[0]] + GroupSeq(sp.1) == r;
        } else {
          NoGroupHeadLeft(n.kids);
          AllAppend([r[0]], GroupSeq(L[1..]), e => !IsGroupHead(e));
          assert [r[0]] + GroupSeq(L[1..]) == r;
        }
      } else {
        assert r == [n] + GroupSeq(L[1..]);
        AllAppend([n], GroupSeq(L[1..]), e => !IsGroupHead(e));
      }
    }
  }

  /** A forest without `x_xo0` spans is left as it is. */
  lemma {:induction false} GroupIdentity(L: seq<Node>)
    requires All(L, e => !IsGroupHead(e))
    ensures GroupSeq(L) == L
    decreases SizeSeq(L)
  {
    if L != [] {
      var n := L[0];
      assert SizeSeq(L) == Size(n) + SizeSeq(L[1..]);
      GroupIdentity(L[1..]);
      assert L == [n] + L[1..];
      if n.Elem? {
        GroupIdentity(n.kids);
      }
    }
  }

  /** Grouping twice is grouping once. */
  lemma GroupIdempotent(L: seq<Node>)
    ensures GroupSeq(GroupSeq(L)) == GroupSeq(L)
  {
    NoGroupHeadLeft(L);
    GroupIdentity(GroupSeq(L));
  }

  // ---------------------------------------------------------------------
  // convert_xo1_to_list
  // ---------------------------------------------------------------------

  predicate IsXo1(n: Node)
  {
    n.Elem? && n.name == "span" && "x_xo1" in n.classes
  }

  predicate IsXo2(n: Node)
  {
    n.Elem? && n.name == "span" && "x_xo2" in n.classes
  }

  /** An `x_xo2` with no visible text and no element inside it. */
  predicate EmptyXo2(n: Node)
  {
    n.Elem? && StrippedTextOf(n) == "" && forall i | 0 <= i < |n.kids| :: n.kids[i].Text?
  }

  /** The semantic converter decomposes empty `x_xo2` spans; the prototype
      script lists them all. */
  datatype Xo1Variant = Xo1Variant(dropEmpty: bool)

  const SEMANTIC_XO1 := Xo1Variant(true)
  const PROTOTYPE_XO1 := Xo1Variant(false)

  const LABEL_XOH := Pattern(Some("span"), {"x_xoh"})
  const LABEL_L := Pattern(Some("span"), {"l"})

  /** The label of a sub-entry and the children left behind: the first
      `x_xoh` span in document order, else the first `l` span, each taken
      out with its subtree; failing both, the whole stripped text as a new
      text node, the children untouched. */
  function Label(k: seq<Node>): (r: (Node, seq<Node>))
    ensures FirstIn(Elements(k), LABEL_XOH).Some? ==>
      r.0 == FirstIn(Elements(k), LABEL_XOH).value && SizeSeq(k) == Size(r.0) + SizeSeq(r.1)
    ensures FirstIn(Elements(k), LABEL_XOH).None? && FirstIn(Elements(k), LABEL_L).Some? ==>
      r.0 == FirstIn(Elements(k), LABEL_L).value && SizeSeq(k) == Size(r.0) + SizeSeq(r.1)
    ensures FirstIn(Elements(k), LABEL_XOH).None? && FirstIn(Elements(k), LABEL_L).None? ==>
      r == (Text(StrippedTextSeq(k)), k)
    ensures r.0.Elem? ==> Size(r.0) + SizeSeq(r.1) == SizeSeq(k)
    ensures r.0.Text? ==> r.1 == k
    ensures FirstIn(Elements(k), LABEL_XOH).Some? ==> PutBack(r.1, ExtractPath(k, LABEL_XOH), r.0) == Some(k)
    ensures FirstIn(Elements(k), LABEL_XOH).None? && FirstIn(Elements(k), LABEL_L).Some? ==>
      PutBack(r.1, ExtractPath(k, LABEL_L), r.0) == Some(k)
  {
    match ExtractFirst(k, LABEL_XOH)
    case Some(p) =>
      ExtractPutBack(k, LABEL_XOH);
      p
    case None =>
      match ExtractFirst(k, LABEL_L)
      case Some(p) =>
        ExtractPutBack(k, LABEL_L);
        p
      case None => (Text(StrippedTextSeq(k)), k)
  }

  /** A child `x_xo2` with some visible content. */
  predicate IsListedXo2(n: Node)
  {
    IsXo2(n) && !EmptyXo2(n)
  }

  /** The `x_xo2` children a sub-entry lists. */
  function ListedXo2(v: Xo1Variant, rest: seq<Node>): (r: seq<Node>)
    ensures forall i | 0 <= i < |r| :: IsXo2(r[i]) && (v.dropEmpty ==> !EmptyXo2(r[i]))
    ensures !v.dropEmpty ==> r == Keep(rest, IsXo2)
    ensures SizeSeq(r) <= SizeSeq(rest)
  {
    var P := if v.dropEmpty then IsListedXo2 else IsXo2;
    KeepSize(rest, P);
    Keep(rest, P)
  }

  function Li(n: Node): Node
  {
    Elem("li", [], map[], [n])
  }

  function LiEach(L: seq<Node>): (r: seq<Node>)
    ensures |r| == |L| && forall i | 0 <= i < |L| :: r[i] == Li(L[i])
  {
    if L == [] then [] else [Li(L[0])] + LiEach(L[1..])
  }

  /** The class-less `div` a sub-entry becomes: the label, then (when any
      `x_xo2` is listed) a `ul` of one `li` per listed `x_xo2`. The label
      and the listed spans are themselves rewritten, being inside a
      `subEntryBlock` too. */
  function Xo1Div(v: Xo1Variant, n: Node): (r: Node)
    requires IsXo1(n)
    ensures r.Elem? && r.name == "div" && r.classes == [] && r.attrs == map[]
    ensures 1 <= |r.kids| <= 2
    ensures |r.kids| == 2 ==> r.kids[1].Elem? && r.kids[1].name == "ul" && |r.kids[1].kids| > 0
    ensures |r.kids| == 2 <==> ListedXo2(v, Label(n.kids).1) != []
    ensures |r.kids| == 2 ==> |r.kids[1].kids| == |ListedXo2(v, Label(n.kids).1)|
    ensures |r.kids| == 2 ==> forall i | 0 <= i < |r.kids[1].kids| ::
      r.kids[1].kids[i].Elem? && r.kids[1].kids[i].name == "li" && |r.kids[1].kids[i].kids| == 1
    ensures r.kids[0] == if Label(n.kids).0.Elem? then XoNode(v, true, Label(n.kids).0) else Label(n.kids).0
    ensures |r.kids| == 2 ==> forall i | 0 <= i < |r.kids[1].kids| ::
      r.kids[1].kids[i].kids == [XoSeq(v, true, ListedXo2(v, Label(n.kids).1))[i]]
    decreases Size(n), 0
  {
    var lab := Label(n.kids);
    var listed := ListedXo2(v, lab.1);
    assert SizeSeq(lab.1) <= SizeSeq(n.kids);
    var lab2 := if lab.0.Elem? then XoNode(v, true, lab.0) else lab.0;
    var items := XoSeq(v, true, listed);
    if items == [] then Elem("div", [], map[], [lab2])
    else Elem("div", [], map[], [lab2, Elem("ul", [], map[], LiEach(items))])
  }

  /** `flag` records whether some ancestor has class `subEntryBlock`. */
  function XoNode(v: Xo1Variant, flag: bool, n: Node): (r: Node)
    ensures n.Text? ==> r == n
    ensures IsXo1(n) && flag ==> r.Elem? && r.name == "div" && r.classes == [] && r.attrs == map[]
    ensures n.Elem? && !(IsXo1(n) && flag) ==>
      r.Elem? && r.name == n.name && r.classes == n.classes && r.attrs == n.attrs && |r.kids| == |n.kids|
    ensures n.Elem? && !(IsXo1(n) && flag) ==> r.kids == XoSeq(v, flag || "subEntryBlock" in n.classes, n.kids)
    decreases Size(n), 1
  {
    match n
    case Text(_) => n
    case Elem(nm, c, a, k) =>
      if IsXo1(n) && flag then Xo1Div(v, n)
      else Elem(nm, c, a, XoSeq(v, flag || "subEntryBlock" in c, k))
  }

  function XoSeq(v: Xo1Variant, flag: bool, L: seq<Node>): (r: seq<Node>)
    ensures |r| == |L|
    decreases SizeSeq(L), 2
  {
    if L == [] then []
    else
      SizeSeqElem(L, 0);
      [XoNode(v, flag, L[0])] + XoSeq(v, flag, L[1..])
  }

  /** The walk rewrites each node of a forest on its own. */
  lemma {:induction false} XoSeqEach(v: Xo1Variant, flag: bool, L: seq<Node>, i: nat)
    requires i < |L|
    ensures XoSeq(v, flag, L)[i] == XoNode(v, flag, L[i])
    decreases i
  {
    if i > 0 {
      XoSeqEach(v, flag, L[1..], i - 1);
    }
  }

  /** `convert_xo1_to_list(soup)`: below every `subEntryBlock` no `x_xo1`
      span is left, and a document without one is left as it is. */
  function ConvertXo1ToList(v: Xo1Variant, doc: seq<Node>): (r: seq<Node>)
    ensures NoXo1Below(r)
    ensures All(doc, e => !IsClass(e, "subEntryBlock")) ==> r == doc
  {
    NoXo1BelowSubEntry(v, doc);
    if All(doc, e => !IsClass(e, "subEntryBlock")) then
      Xo1OutsideUnchanged(v, doc);
      XoSeq(v, false, doc)
    else
      XoSeq(v, false, doc)
  }

  /** Every `subEntryBlock` element of the forest has no `x_xo1` span in
      its subtree. */
  predicate NoXo1Below(L: seq<Node>)
  {
    forall i | 0 <= i < |L| :: L[i].Elem? ==>
      if "subEntryBlock" in L[i].classes then All(L[i].kids, NotXo1) else NoXo1Below(L[i].kids)
  }

  /** Starting from the root, the pass leaves no `x_xo1` span below any
      `subEntryBlock`. */
  lemma {:induction false} NoXo1BelowSubEntry(v: Xo1Variant, L: seq<Node>)
    ensures NoXo1Below(XoSeq(v, false, L))
    decreases SizeSeq(L)
  {
    var r := XoSeq(v, false, L);
    forall i | 0 <= i < |r| && r[i].Elem?
      ensures if "subEntryBlock" in r[i].classes then All(r[i].kids, NotXo1) else NoXo1Below(r[i].kids)
    {
      XoSeqEach(v, false, L, i);
      SizeSeqElem(L, i);
      var n := L[i];
      assert n.Elem?;
      assert r[i].classes == n.classes;
      assert Size(n) == 1 + SizeSeq(n.kids);
      if "subEntryBlock" in n.classes {
        NoXo1LeftInside(v, n.kids);
      } else {
        NoXo1BelowSubEntry(v, n.kids);
      }
    }
  }

  /** Outside any `subEntryBlock`, sub-entries are left unchanged. */
  lemma {:induction false} Xo1OutsideUnchanged(v: Xo1Variant, L: seq<Node>)
    requires All(L, e => !IsClass(e, "subEntryBlock"))
    ensures XoSeq(v, false, L) == L
    decreases SizeSeq(L)
  {
    if L != [] {
      SizeSeqElem(L, 0);
      assert SizeSeq(L) == Size(L[0]) + SizeSeq(L[1..]);
      Xo1OutsideUnchanged(v, L[1..]);
      assert L == [L[0]] + L[1..];
      if L[0].Elem? {
        Xo1OutsideUnchanged(v, L[0].kids);
      }
    }
  }

  predicate NotXo1(n: Node)
  {
    !IsXo1(n)
  }

  /** Inside a `subEntryBlock`, no `x_xo1` span is left. */
  lemma {:induction false} NoXo1LeftInside(v: Xo1Variant, L: seq<Node>)
    ensures All(XoSeq(v, true, L), NotXo1)
    decreases SizeSeq(L), 1
  {
    if L != [] {
      var n := L[0];
      SizeSeqElem(L, 0);
      assert SizeSeq(L) == Size(n) + SizeSeq(L[1..]);
      NoXo1LeftInside(v, L[1..]);
      var r := XoSeq(v, true, L);
      assert r == [r[0]] + XoSeq(v, true, L[1..]);
      AllAppend([r[0]], XoSeq(v, true, L[1..]), NotXo1);
      assert r[0] == XoNode(v, true, n);
      if n.Elem? {
        if IsXo1(n) {
          assert r[0] == Xo1Div(v, n);
          Xo1DivClean(v, n);
        } else {
          NoXo1LeftInside(v, n.kids);
          assert r[0] == Elem(n.name, n.classes, n.attrs, XoSeq(v, true, n.kids));
          AllOne(r[0], NotXo1);
        }
      }
    }
  }

  /** A sub-entry's `div`, with its rewritten label and items, holds no
      `x_xo1` span. */
  lemma {:induction false} Xo1DivClean(v: Xo1Variant, n: Node)
    requires IsXo1(n)
    ensures All([Xo1Div(v, n)], NotXo1)
    decreases Size(n), 0
  {
    var lab := Label(n.kids);
    var listed := ListedXo2(v, lab.1);
    assert SizeSeq(lab.1) <= SizeSeq(n.kids);
    var lab2 := if lab.0.Elem? then XoNode(v, true, lab.0) else lab.0;
    if lab.0.Elem? {
      assert SizeSeq([lab.0]) == Size(lab.0);
      NoXo1LeftInside(v, [lab.0]);
      assert XoSeq(v, true, [lab.0]) == [lab2];
    }
    assert All([lab2], NotXo1);
    NoXo1LeftInside(v, listed);
    var items := XoSeq(v, true, listed);
    AllLiEach(items);
    var d := Xo1Div(v, n);
    if items == [] {
      assert d.kids == [lab2];
    } else {
      var ul := Elem("ul", [], map[], LiEach(items));
      assert d.kids == [lab2, ul];
      AllOne(ul, NotXo1);
      AllAppend([lab2], [ul], NotXo1);
    }
    AllOne(d, NotXo1);
  }

  lemma {:induction false} AllLiEach(L: seq<Node>)
    requires All(L, NotXo1)
    ensures All(LiEach(L), NotXo1)
  {
    if L != [] {
      AllLiEach(L[1..]);
      assert LiEach(L) == [Li(L[0])] + LiEach(L[1..]);
      AllAppend([Li(L[0])], LiEach(L[1..]), NotXo1);
      assert L == [L[0]] + L[1..];
      AllAppend([L[0]], L[1..], NotXo1);
      assert Li(L[0]).kids == [L[0]];
    }
  }

  // ---------------------------------------------------------------------
  // convert_x_xo_blocks
  // ---------------------------------------------------------------------

  /** `convert_x_xo_blocks(soup)`: grouping, then the sub-entry lists. */
  function ConvertXoBlocks(v: Xo1Variant, doc: seq<Node>): seq<Node>
  {
    ConvertXo1ToList(v, GroupXo0Blocks(doc))
  }

  // ---------------------------------------------------------------------
  // convert_subsenses_to_list
  // ---------------------------------------------------------------------

  const SUBSENSE_CLASSES := {"msDict", "x_xo2sub", "hasSn", "t_subsense"}
  const ANCHOR_CLASSES := {"msDict", "x_xo2sub", "t_first"}

  /** A phrase entry: a span with class `se2`. */
  predicate IsSe2Entry(n: Node)
  {
    n.Elem? && n.name == "span" && "se2" in n.classes
  }

  /** A second-level subsense span. */
  predicate IsSubsense(n: Node)
  {
    HasAllClasses(n, SUBSENSE_CLASSES)
  }

  /** The child after which the list goes: any element (of any tag) whose
      classes include `ANCHOR_CLASSES`. */
  predicate IsAnchor(n: Node)
  {
    n.Elem? && ANCHOR_CLASSES <= ClassSet(n)
  }

  /** The children of an entry split into its subsenses and the others,
      each part in order. */
  function SplitSubsenses(k: seq<Node>): (r: (seq<Node>, seq<Node>))
    ensures |r.0| + |r.1| == |k|
    ensures SizeSeq(r.0) + SizeSeq(r.1) == SizeSeq(k)
    ensures forall i | 0 <= i < |r.0| :: IsSubsense(r.0[i])
    ensures forall i | 0 <= i < |r.1| :: !IsSubsense(r.1[i]) && r.1[i] in k
    ensures (forall i | 0 <= i < |k| :: !IsSubsense(k[i])) ==> r == ([], k)
    ensures r.0 == [] ==> forall i | 0 <= i < |k| :: !IsSubsense(k[i])
    ensures r == (Keep(k, IsSubsense), Keep(k, NotSubsense))
  {
    PartitionKeeps(k, IsSubsense, NotSubsense);
    PartitionOthers(k, IsSubsense);
    PartitionNone(k, IsSubsense);
    Partition(k, IsSubsense)
  }

  /** Index of the first anchor among the remaining children. */
  function AnchorIndex(L: seq<Node>): (r: Option<nat>)
    ensures r.Some? ==> r.value < |L| && IsAnchor(L[r.value])
    ensures r.Some? ==> forall j | 0 <= j < r.value :: !IsAnchor(L[j])
    ensures r.None? <==> forall j | 0 <= j < |L| :: !IsAnchor(L[j])
  {
    if L == [] then None
    else if IsAnchor(L[0]) then Some(0)
    else
      match AnchorIndex(L[1..])
      case None => None
      case Some(i) => Some(i + 1)
  }

  /** `insert_after` the anchor at `at`, or `append` when there is none. */
  function Place(L: seq<Node>, at: Option<nat>, x: Node): (r: seq<Node>)
    requires at.Some? ==> at.value < |L|
    ensures |r| == |L| + 1
    ensures at.None? ==> r[..|L|] == L && r[|L|] == x
    ensures at.Some? ==>
      (r[..at.value + 1] == L[..at.value + 1] && r[at.value + 1] == x && r[at.value + 2..] == L[at.value + 1..])
  {
    match at
    case None => L + [x]
    case Some(i) => L[..i + 1] + [x] + L[i + 1..]
  }

  lemma PlaceAll(L: seq<Node>, at: Option<nat>, x: Node, P: Node -> bool)
    requires at.Some? ==> at.value < |L|
    requires All(L, P) && All([x], P)
    ensures All(Place(L, at, x), P)
  {
    match at
    case None =>
      AllAppend(L, [x], P);
    case Some(i) =>
      var a, b := L[..i + 1], L[i + 1..];
      assert L == a + b;
      AllAppend(a, b, P);
      assert All(a, P) && All(b, P);
      AllAppend(a, [x], P);
      AllAppend(a + [x], b, P);
      assert Place(L, at, x) == a + [x] + b;
  }

  lemma PlaceEach(L: seq<Node>, at: Option<nat>, x: Node, P: Node -> bool)
    requires at.Some? ==> at.value < |L|
    requires (forall i | 0 <= i < |L| :: P(L[i])) && P(x)
    ensures forall i | 0 <= i < |Place(L, at, x)| :: P(Place(L, at, x)[i])
  {
    var r := Place(L, at, x);
    forall i | 0 <= i < |r|
      ensures P(r[i])
    {
      match at
      case None =>
        if i < |L| {
          assert r[i] == r[..|L|][i];
        }
      case Some(j) =>
        if i <= j {
          assert r[i] == r[..j + 1][i];
        } else if j + 1 < i {
          assert r[i] == r[j + 2..][i - j - 2];
        }
    }
  }

  /** `convert_subsenses_to_list` on one node: an entry with subsense
      children loses them, and one `ul` holding an `li` per subsense (with
      that subsense's children) goes after the first anchor, or last. */
  function SubNode(n: Node): (r: Node)
    ensures r.Text? <==> n.Text?
    ensures n.Text? ==> r == n
    ensures n.Elem? ==> r.name == n.name && r.classes == n.classes && r.attrs == n.attrs
    ensures IsSe2Entry(n) && SplitSubsenses(n.kids).0 != [] ==>
      var others := SplitSubsenses(n.kids).1;
      r.kids == Place(SubSeq(others), AnchorIndex(others), Elem("ul", [], map[], SubItems(SplitSubsenses(n.kids).0)))
    ensures n.Elem? && !(IsSe2Entry(n) && SplitSubsenses(n.kids).0 != []) ==> r.kids == SubSeq(n.kids)
    decreases Size(n), 1
  {
    match n
    case Text(_) => n
    case Elem(nm, c, a, k) =>
      var sp := SplitSubsenses(k);
      if IsSe2Entry(n) && sp.0 != [] then
        var ul := Elem("ul", [], map[], SubItems(sp.0));
        Elem(nm, c, a, Place(SubSeq(sp.1), AnchorIndex(sp.1), ul))
      else Elem(nm, c, a, SubSeq(k))
  }

  function SubSeq(L: seq<Node>): (r: seq<Node>)
    ensures |r| == |L|
    ensures forall i | 0 <= i < |L| :: r[i].Text? <==> L[i].Text?
    ensures forall i | 0 <= i < |L| :: L[i].Text? ==> r[i] == L[i]
    ensures forall i | 0 <= i < |L| :: L[i].Elem? ==>
      r[i].name == L[i].name && r[i].classes == L[i].classes && r[i].attrs == L[i].attrs
    decreases SizeSeq(L), 2
  {
    if L == [] then []
    else
      SizeSeqElem(L, 0);
      [SubNode(L[0])] + SubSeq(L[1..])
  }

  /** One `li` per subsense, holding that subsense's children. */
  function SubItems(subs: seq<Node>): (r: seq<Node>)
    requires forall i | 0 <= i < |subs| :: subs[i].Elem?
    ensures |r| == |subs|
    ensures forall i | 0 <= i < |r| :: r[i].Elem? && r[i].name == "li" && r[i].classes == []
    decreases SizeSeq(subs), 2
  {
    if subs == [] then []
    else
      SizeSeqElem(subs, 0);
      [Elem("li", [], map[], SubSeq(subs[0].kids))] + SubItems(subs[1..])
  }

  /** Each `li` is bare and holds its subsense's children, themselves
      rewritten, in order. */
  lemma {:induction false} SubItemsContents(subs: seq<Node>)
    requires forall i | 0 <= i < |subs| :: subs[i].Elem?
    ensures forall i | 0 <= i < |subs| ::
      SubItems(subs)[i].attrs == map[] && SubItems(subs)[i].kids == SubSeq(subs[i].kids)
  {
    if subs != [] {
      SubItemsContents(subs[1..]);
      var r := SubItems(subs);
      assert r[1..] == SubItems(subs[1..]);
      forall i | 0 < i < |subs|
        ensures r[i] == SubItems(subs[1..])[i - 1] && subs[i] == subs[1..][i - 1]
      {
      }
    }
  }

  /** `convert_subsenses_to_list(soup)`. */
  function ConvertSubsensesToList(doc: seq<Node>): seq<Node>
  {
    SubSeq(doc)
  }

  /** An entry whose children hold no subsense. */
  predicate Settled(n: Node)
  {
    IsSe2Entry(n) ==> forall i | 0 <= i < |n.kids| :: !IsSubsense(n.kids[i])
  }

  /** After the pass no entry keeps a subsense child. */
  lemma {:induction false} SubsensesSettled(L: seq<Node>)
    ensures All(SubSeq(L), Settled)
    decreases SizeSeq(L), 2
  {
    if L != [] {
      var n := L[0];
      assert SizeSeq(L) == Size(n) + SizeSeq(L[1..]);
      SubsensesSettled(L[1..]);
      var r := SubSeq(L);
      assert r == [SubNode(n)] + SubSeq(L[1..]);
      AllAppend([SubNode(n)], SubSeq(L[1..]), Settled);
      if n.Elem? {
        NodeSettled(n);
      }
    }
  }

  /** One node of the pass leaves a settled subtree. */
  lemma {:induction false} NodeSettled(n: Node)
    requires n.Elem?
    ensures All([SubNode(n)], Settled)
    decreases Size(n), 1
  {
    var sp := SplitSubsenses(n.kids);
    var r := SubNode(n);
    AllOne(r, Settled);
    if IsSe2Entry(n) && sp.0 != [] {
      EntrySettled(n, sp.0, sp.1);
    } else {
      assert r == Elem(n.name, n.classes, n.attrs, SubSeq(n.kids));
      SubsensesSettled(n.kids);
    }
  }

  /** The rewritten entry: settled itself, and so is everything below. */
  lemma {:induction false} EntrySettled(n: Node, subs: seq<Node>, others: seq<Node>)
    requires IsSe2Entry(n) && SplitSubsenses(n.kids) == (subs, others) && subs != []
    ensures Settled(SubNode(n)) && All(SubNode(n).kids, Settled)
    decreases Size(n), 0
  {
    var ul := Elem("ul", [], map[], SubItems(subs));
    var m := SubSeq(others);
    var kids := Place(m, AnchorIndex(others), ul);
    assert SubNode(n) == Elem(n.name, n.classes, n.attrs, kids);
    SubsensesSettled(others);
    ItemsSettled(subs);
    AllOne(ul, Settled);
    PlaceAll(m, AnchorIndex(others), ul, Settled);
    SubSeqNotSubsense(others);
    assert NotSubsense(ul);
    PlaceEach(m, AnchorIndex(others), ul, NotSubsense);
    SettledOf(Elem(n.name, n.classes, n.attrs, kids));
  }

  lemma SettledOf(e: Node)
    requires e.Elem? && forall i | 0 <= i < |e.kids| :: NotSubsense(e.kids[i])
    ensures Settled(e)
  {
  }

  lemma SubSeqNotSubsense(others: seq<Node>)
    requires forall i | 0 <= i < |others| :: !IsSubsense(others[i])
    ensures forall i | 0 <= i < |others| :: NotSubsense(SubSeq(others)[i])
  {
    var m := SubSeq(others);
    forall i | 0 <= i < |m|
      ensures NotSubsense(m[i])
    {
      SameMatch(others[i], m[i]);
    }
  }

  predicate NotSubsense(n: Node)
  {
    !IsSubsense(n)
  }

  /** Nodes of the same kind, name and classes match alike. */
  lemma SameMatch(a: Node, b: Node)
    requires a.Text? <==> b.Text?
    requires a.Elem? ==> a.name == b.name && a.classes == b.classes
    ensures IsSubsense(a) <==> IsSubsense(b)
  {
  }

  lemma {:induction false} ItemsSettled(subs: seq<Node>)
    requires forall i | 0 <= i < |subs| :: subs[i].Elem?
    ensures All(SubItems(subs), Settled)
    decreases SizeSeq(subs), 1
  {
    if subs != [] {
      SizeSeqElem(subs, 0);
      assert SizeSeq(subs) == Size(subs[0]) + SizeSeq(subs[1..]);
      SubsensesSettled(subs[0].kids);
      ItemsSettled(subs[1..]);
      var li := Elem("li", [], map[], SubSeq(subs[0].kids));
      assert SubItems(subs) == [li] + SubItems(subs[1..]);
      AllAppend([li], SubItems(subs[1..]), Settled);
    }
  }

  /** A document where no entry has a subsense child is left as it is. */
  lemma {:induction false} SubsensesIdentity(L: seq<Node>)
    requires All(L, Settled)
    ensures SubSeq(L) == L
    decreases SizeSeq(L)
  {
    if L != [] {
      var n := L[0];
      assert SizeSeq(L) == Size(n) + SizeSeq(L[1..]);
      SubsensesIdentity(L[1..]);
      assert L == [n] + L[1..];
      if n.Elem? {
        SubsensesIdentity(n.kids);
      }
    }
  }

  /** Running the pass twice is running it once. */
  lemma SubsensesIdempotent(L: seq<Node>)
    ensures SubSeq(SubSeq(L)) == SubSeq(L)
  {
    SubsensesSettled(L);
    SubsensesIdentity(SubSeq(L));
  }
}

=== FILE: main_definition.dfy ===
/** The main definition block: every outermost `se1` span becomes a
    `section` whose runs of sense items are gathered into lists, whose
    `t_core` senses are collected into one list at its end, and whose
    known note and origin blocks are renamed.

    Only the outermost `se1` spans are rewritten: a `se1` inside another
    one is left as the outer rewrite leaves it. */
module MainDefinition {
  import opened Wrappers
  import opened Tree
  import opened Matchers

  // ---------------------------------------------------------------------
  // se1 spans and part-of-speech headings
  // ---------------------------------------------------------------------

  /** What `find_all("span", class_="se1")` visits. */
  predicate IsSe1(n: Node)
  {
    n.Elem? && n.name == "span" && "se1" in n.classes
  }

  /** What `find_all("span", class_="x_xdh")` visits. */
  predicate IsPosHeading(n: Node)
  {
    n.Elem? && n.name == "span" && "x_xdh" in n.classes
  }

  /** Every part-of-speech heading below becomes a `p`, unless it is a
      label span. */
  function PosNode(n: Node): (r: Node)
    ensures r.Text? <==> n.Text?
    ensures n.Text? ==> r == n
    ensures n.Elem? ==> r.classes == n.classes && r.attrs == n.attrs && |r.kids| == |n.kids|
    ensures n.Elem? ==> r.name == (if IsPosHeading(n) && !HasClasses(n, SkipLabel) then "p" else n.name)
    ensures n.Elem? ==> r.kids == PosSeq(n.kids)
    decreases n
  {
    match n
    case Text(_) => n
    case Elem(nm, c, a, k) =>
      var e := Elem(nm, c, a, PosSeq(k));
      if IsPosHeading(n) then ConvertTag(e, "p") else e
  }

  function PosSeq(L: seq<Node>): (r: seq<Node>)
    ensures |r| == |L|
    ensures forall i | 0 <= i < |L| :: r[i] == PosNode(L[i])
    decreases L
  {
    if L == [] then [] else [PosNode(L[0])] + PosSeq(L[1..])
  }

  /** A heading left as a span is a label span. */
  predicate PosDone(e: Node)
  {
    IsPosHeading(e) ==> HasClasses(e, SkipLabel)
  }

  /** After the renaming every heading left a span is a label span. */
  lemma {:induction false} PosHeadingsRenamed(L: seq<Node>)
    ensures All(PosSeq(L), PosDone)
    decreases L
  {
    if L != [] {
      PosHeadingsRenamed(L[1..]);
      var r := PosSeq(L);
      assert r == [PosNode(L[0])] + PosSeq(L[1..]);
      AllAppend([PosNode(L[0])], PosSeq(L[1..]), PosDone);
      AllOne(PosNode(L[0]), PosDone);
      if L[0].Elem? {
        PosHeadingsRenamed(L[0].kids);
      }
    }
  }

  /** Renaming keeps every character of text in place. */
  lemma {:induction false} PosKeepsText(L: seq<Node>)
    ensures TextSeq(PosSeq(L)) == TextSeq(L)
    decreases L
  {
    if L != [] {
      PosKeepsText(L[1..]);
      assert PosSeq(L) == [PosNode(L[0])] + PosSeq(L[1..]);
      TextSeqAppend([PosNode(L[0])], PosSeq(L[1..]));
      TextSeqAppend([L[0]], L[1..]);
      assert L == [L[0]] + L[1..];
      if L[0].Elem? {
        PosKeepsText(L[0].kids);
      }
    }
  }

  /** A forest whose headings are all label spans is left as it is. */
  lemma {:induction false} PosIdentity(L: seq<Node>)
    requires All(L, PosDone)
    ensures PosSeq(L) == L
    decreases L
  {
    if L != [] {
      PosIdentity(L[1..]);
      assert L == [L[0]] + L[1..];
      AllAppend([L[0]], L[1..], PosDone);
      if L[0].Elem? {
        AllOne(L[0], PosDone);
        PosIdentity(L[0].kids);
      }
    }
  }

  // ---------------------------------------------------------------------
  // Gathering one sense item
  // ---------------------------------------------------------------------

  /** The rebuilding walk matches definitions and subsenses by class alone;
      `process_se2_blocks` matches them with `has_classes`, spans only. */
  datatype SenseKind = WalkItem | Se2Item

  function FirstPattern(kind: SenseKind): Pattern
  {
    match kind
    case WalkItem => Pattern(None, ClassSets(TFirst))
    case Se2Item => Pattern(Some("span"), ClassSets(TFirst))
  }

  /** A subsense that is moved into the item's nested list. */
  predicate IsNested(kind: SenseKind, n: Node)
  {
    match kind
    case WalkItem => n.Elem? && ClassSets(SubsenseInSe2) <= ClassSet(n)
    case Se2Item => HasClasses(n, SubsenseInSe2)
  }

  /** The contents of the first definition below are moved to the end of
      the children, and the emptied definition is dropped. */
  function AppendFirst(kind: SenseKind, k: seq<Node>): (r: seq<Node>)
    ensures FirstIn(Elements(k), FirstPattern(kind)).None? ==> r == k
    ensures FirstIn(Elements(k), FirstPattern(kind)).Some? ==>
      var f := FirstIn(Elements(k), FirstPattern(kind)).value;
      f.Elem? && |f.kids| <= |r| && r[|r| - |f.kids|..] == f.kids && SizeSeq(r) + 1 == SizeSeq(k)
    ensures FirstIn(Elements(k), FirstPattern(kind)).Some? ==>
      var f := FirstIn(Elements(k), FirstPattern(kind)).value;
      |f.kids| <= |r| && PutBack(r[..|r| - |f.kids|], ExtractPath(k, FirstPattern(kind)), f) == Some(k)
  {
    match ExtractFirst(k, FirstPattern(kind))
    case None => k
    case Some(p) =>
      ExtractPutBack(k, FirstPattern(kind));
      var r := p.1 + p.0.kids;
      assert r[..|r| - |p.0.kids|] == p.1;
      SizeSeqAppend(p.1, p.0.kids);
      assert r[|r| - |p.0.kids|..] == p.0.kids;
      r
  }

  /** An `li` holding the contents of each node. */
  function ContentItems(L: seq<Node>): (r: seq<Node>)
    requires forall i | 0 <= i < |L| :: L[i].Elem?
    ensures |r| == |L|
    ensures forall i | 0 <= i < |L| :: r[i] == Elem("li", [], map[], L[i].kids)
  {
    if L == [] then [] else [Elem("li", [], map[], L[0].kids)] + ContentItems(L[1..])
  }

  /** The nested subsenses among the children are taken out, and one `ul`
      holding an `li` per subsense (with its contents) goes at the end. */
  function NestSubsenses(kind: SenseKind, k: seq<Node>): (r: seq<Node>)
    ensures (forall i | 0 <= i < |k| :: !IsNested(kind, k[i])) ==> r == k
    ensures forall i | 0 <= i < |r| :: !IsNested(kind, r[i])
    ensures (exists i | 0 <= i < |k| :: IsNested(kind, k[i])) ==>
      |r| > 0 && r[|r| - 1] == Elem("ul", [], map[], ContentItems(Keep(k, x => IsNested(kind, x))))
    ensures (exists i | 0 <= i < |k| :: IsNested(kind, k[i])) ==>
      |r| > 0 && r[..|r| - 1] == Keep(k, x => !IsNested(kind, x))
  {
    var subs := Keep(k, x => IsNested(kind, x));
    NoneKept(k, x => IsNested(kind, x));
    if subs == [] then k
    else
      var others := Keep(k, x => !IsNested(kind, x));
      var ul := Elem("ul", [], map[], ContentItems(subs));
      assert forall i | 0 <= i < |others| :: !IsNested(kind, others[i]);
      others + [ul]
  }

  /** One sense item, already renamed: its first definition's contents go to
      the end of its children, then its subsenses go into a nested list. */
  function GatherSense(kind: SenseKind, n: Node): (r: Node)
    requires n.Elem?
    ensures r.Elem? && r.name == n.name && r.classes == n.classes && r.attrs == n.attrs
    ensures forall i | 0 <= i < |r.kids| :: !IsNested(kind, r.kids[i])
    ensures (FirstIn(Elements(n.kids), FirstPattern(kind)).None? &&
             forall i | 0 <= i < |n.kids| :: !IsNested(kind, n.kids[i])) ==> r == n
  {
    n.(kids := NestSubsenses(kind, AppendFirst(kind, n.kids)))
  }

  // ---------------------------------------------------------------------
  // Known blocks
  // ---------------------------------------------------------------------

  /** `KNOWN_BLOCK_CLASSES`, in its iteration order. */
  const KNOWN_BLOCK_CLASSES: seq<(string, string)> :=
    [("note", "note_block"), ("etym", "origin_block"), ("x_xdt", "origin_block")]

  /** Index of the first known class the element carries, or 3. */
  function FirstKnown(cs: set<string>): (i: nat)
    ensures i <= |KNOWN_BLOCK_CLASSES|
    ensures i < |KNOWN_BLOCK_CLASSES| ==> KNOWN_BLOCK_CLASSES[i].0 in cs
    ensures forall j | 0 <= j < i :: KNOWN_BLOCK_CLASSES[j].0 !in cs
  {
    if "note" in cs then 0 else if "etym" in cs then 1 else if "x_xdt" in cs then 2 else 3
  }

  function ReplaceClass(cls: seq<string>, orig: string, canon: string): (r: seq<string>)
    ensures |r| == |cls|
    ensures forall i | 0 <= i < |cls| :: r[i] == if cls[i] == orig then canon else cls[i]
  {
    if cls == [] then [] else [if cls[0] == orig then canon else cls[0]] + ReplaceClass(cls[1..], orig, canon)
  }

  /** A non-sense element carrying a known class has that class swapped for
      its block class and is renamed `section`; otherwise it is unchanged. */
  function KnownBlock(n: Node): (r: Node)
    requires n.Elem?
    ensures FirstKnown(ClassSet(n)) == |KNOWN_BLOCK_CLASSES| ==> r == n
    ensures var i := FirstKnown(ClassSet(n));
      i < |KNOWN_BLOCK_CLASSES| ==>
        && r.Elem? && r.name == "section" && r.attrs == n.attrs && r.kids == n.kids
        && ClassSet(r) == ClassSet(n) - {KNOWN_BLOCK_CLASSES[i].0} + {KNOWN_BLOCK_CLASSES[i].1}
  {
    var i := FirstKnown(ClassSet(n));
    if i == |KNOWN_BLOCK_CLASSES| then n
    else
      var (orig, canon) := KNOWN_BLOCK_CLASSES[i];
      ReplaceClassSet(n.classes, orig, canon);
      n.(name := "section", classes := ReplaceClass(n.classes, orig, canon))
  }

  /** Swapping a class that is present removes it and adds its replacement,
      as a set. */
  lemma ReplaceClassSet(cls: seq<string>, orig: string, canon: string)
    requires orig in cls
    ensures (set c | c in ReplaceClass(cls, orig, canon)) == (set c | c in cls) - {orig} + {canon}
  {
    var r := ReplaceClass(cls, orig, canon);
    var A := set c | c in r;
    var B := (set c | c in cls) - {orig} + {canon};
    forall c | c in A ensures c in B {
      var j :| 0 <= j < |r| && r[j] == c;
      if cls[j] == orig {
        assert c == canon;
      } else {
        assert c == cls[j] && c != orig;
      }
    }
    forall c | c in B ensures c in A {
      if c == canon {
        var j :| 0 <= j < |cls| && cls[j] == orig;
        assert r[j] == canon;
      } else {
        assert c in cls;
        var j :| 0 <= j < |cls| && cls[j] == c;
        assert r[j] == c;
      }
    }
    assert A == B;
  }

  // ---------------------------------------------------------------------
  // The rebuilding walk over the children of a se1
  // ---------------------------------------------------------------------

  /** A main sense: any element carrying `t_core` or `t_subsense`, or a span
      whose classes include `se2`, `x_xd1` and `hasSn`. */
  predicate IsSenseItem(n: Node)
  {
    n.Elem? && ("t_core" in n.classes || "t_subsense" in n.classes || HasClasses(n, Se2))
  }

  /** What the walk makes of one child: a finished sense item, or the node
      that goes into the new children as it is. */
  datatype Piece = Sense(item: Node) | Other(node: Node)

  function Classify(n: Node): (p: Piece)
    ensures p.Sense? <==> IsSenseItem(n)
    ensures p.Other? && n.Text? ==> p.node == n
    ensures p.Other? && n.Elem? ==> p.node == KnownBlock(n)
    ensures p.Sense? ==> p.item == GatherSense(WalkItem, ConvertTag(n, "li"))
  {
    if IsSenseItem(n) then Sense(GatherSense(WalkItem, ConvertTag(n, "li")))
    else if n.Elem? then Other(KnownBlock(n))
    else Other(n)
  }

  function Pieces(L: seq<Node>): (P: seq<Piece>)
    ensures |P| == |L| && forall i | 0 <= i < |L| :: P[i] == Classify(L[i])
  {
    seq(|L|, i requires 0 <= i < |L| => Classify(L[i]))
  }

  /** Length of the run of senses at the front. */
  function RunLength(P: seq<Piece>): (m: nat)
    ensures m <= |P|
    ensures forall i | 0 <= i < m :: P[i].Sense?
    ensures m < |P| ==> P[m].Other?
  {
    if P == [] || P[0].Other? then 0 else 1 + RunLength(P[1..])
  }

  function Items(P: seq<Piece>): (r: seq<Node>)
    requires forall i | 0 <= i < |P| :: P[i].Sense?
    ensures |r| == |P| && forall i | 0 <= i < |P| :: r[i] == P[i].item
  {
    seq(|P|, i requires 0 <= i < |P| => P[i].item)
  }

  function SenseList(items: seq<Node>): Node
  {
    Elem("ul", [], map[], items)
  }

  /** The new children: each maximal run of senses becomes one `ul`. */
  function Render(P: seq<Piece>): seq<Node>
    decreases |P|
  {
    if P == [] then []
    else if P[0].Other? then [P[0].node] + Render(P[1..])
    else
      var m := RunLength(P);
      [SenseList(Items(P[..m]))] + Render(P[m..])
  }

  /** Without senses nothing is gathered: the nodes come out in order. */
  lemma {:induction false} RenderOthers(P: seq<Piece>)
    requires forall i | 0 <= i < |P| :: P[i].Other?
    ensures |Render(P)| == |P| && forall i | 0 <= i < |P| :: Render(P)[i] == P[i].node
  {
    if P != [] {
      RenderOthers(P[1..]);
    }
  }

  /** A run of senses alone becomes exactly one list holding them in order. */
  lemma RenderRun(P: seq<Piece>)
    requires P != [] && forall i | 0 <= i < |P| :: P[i].Sense?
    ensures Render(P) == [SenseList(Items(P))]
  {
    assert RunLength(P) == |P|;
    assert P[..|P|] == P;
    assert P[|P|..] == [];
  }

  /** Rendering splits at any point that is not inside a run of senses. */
  lemma {:induction false} RenderAppend(A: seq<Piece>, B: seq<Piece>)
    requires A == [] || A[|A| - 1].Other? || B == [] || B[0].Other?
    ensures Render(A + B) == Render(A) + Render(B)
    decreases |A|
  {
    if A == [] {
      assert A + B == B;
    } else if A[0].Other? {
      assert (A + B)[1..] == A[1..] + B;
      RenderAppend(A[1..], B);
    } else {
      var m := RunLength(A);
      if m < |A| {
        RunLengthAppend(A, B);
        assert (A + B)[..m] == A[..m];
        assert (A + B)[m..] == A[m..] + B;
        RenderAppend(A[m..], B);
      } else {
        RenderWholeRun(A, B);
      }
    }
  }

  /** A block of senses followed by a non-sense (or nothing) renders as one
      list and then the rest. */
  lemma RenderWholeRun(A: seq<Piece>, B: seq<Piece>)
    requires A != [] && A[0].Sense? && RunLength(A) == |A|
    requires B == [] || B[0].Other?
    ensures Render(A + B) == Render(A) + Render(B)
  {
    var m := |A|;
    assert A[..m] == A && A[m..] == [];
    assert Render(A) == [SenseList(Items(A))];
    if B == [] {
      assert A + B == A;
    } else {
      RunLengthAppend(A, B);
      assert (A + B)[0] == A[0];
      assert (A + B)[..m] == A;
      assert (A + B)[m..] == B;
    }
  }

  lemma {:induction false} RunLengthAppend(A: seq<Piece>, B: seq<Piece>)
    requires RunLength(A) < |A| || B == [] || B[0].Other?
    ensures RunLength(A + B) == RunLength(A)
  {
    if A == [] {
      assert A + B == B;
    } else {
      assert (A + B)[0] == A[0];
      if A[0].Sense? {
        assert (A + B)[1..] == A[1..] + B;
        RunLengthAppend(A[1..], B);
      }
    }
  }

  function Flush(newChildren: seq<Node>, senses: seq<Node>): seq<Node>
  {
    if senses == [] then newChildren else newChildren + [SenseList(senses)]
  }

  /** The loop of `convert_senses_to_list` over the children of one se1,
      with its buffer of senses flushed before every other child. */
  method WalkChildren(L: seq<Node>) returns (r: seq<Node>)
    ensures r == Render(Pieces(L))
  {
    r := FlushingLoop(Pieces(L));
  }

  /** The buffer loop itself, over the classified children. */
  method FlushingLoop(P: seq<Piece>) returns (r: seq<Node>)
    ensures r == Render(P)
  {
    var newChildren: seq<Node> := [];
    var senses: seq<Node> := [];
    var i := 0;
    ghost var s := 0;  // where the pending run of senses starts
    while i < |P|
      invariant s <= i <= |P|
      invariant forall j | s <= j < i :: P[j].Sense?
      invariant senses == Items(P[s..i])
      invariant s == 0 || P[s - 1].Other?
      invariant newChildren == Render(P[..s])
    {
      if P[i].Sense? {
        ItemsSnoc(P, s, i);
        senses := senses + [P[i].item];
      } else {
        FlushStep(P, s, i);
        newChildren := Flush(newChildren, senses) + [P[i].node];
        senses := [];
        s := i + 1;
      }
      i := i + 1;
    }
    assert P[s..i] == P[s..];
    FlushEnd(P, s);
    r := Flush(newChildren, senses);
  }

  lemma ItemsSnoc(P: seq<Piece>, s: nat, i: nat)
    requires s <= i < |P| && forall j | s <= j <= i :: P[j].Sense?
    ensures Items(P[s..i + 1]) == Items(P[s..i]) + [P[i].item]
  {
  }

  /** Closing a run at an other piece: the run's list, then that piece. */
  lemma FlushStep(P: seq<Piece>, s: nat, i: nat)
    requires s <= i < |P| && P[i].Other?
    requires forall j | s <= j < i :: P[j].Sense?
    requires s == 0 || P[s - 1].Other?
    ensures Render(P[..i + 1]) == Flush(Render(P[..s]), Items(P[s..i])) + [P[i].node]
  {
    assert P[..i + 1] == P[..s] + (P[s..i] + [P[i]]);
    RenderAppend(P[..s], P[s..i] + [P[i]]);
    RenderAppend(P[s..i], [P[i]]);
    if s < i {
      RenderRun(P[s..i]);
    } else {
      assert P[s..i] == [];
    }
  }

  /** The final flush. */
  lemma FlushEnd(P: seq<Piece>, s: nat)
    requires s <= |P|
    requires forall j | s <= j < |P| :: P[j].Sense?
    requires s == 0 || P[s - 1].Other?
    ensures Render(P) == Flush(Render(P[..s]), Items(P[s..]))
  {
    assert P == P[..s] + P[s..];
    RenderAppend(P[..s], P[s..]);
    if s < |P| {
      RenderRun(P[s..]);
    } else {
      assert P[s..] == [];
    }
  }

  /** Nothing but other pieces that are not senses comes out as it went in,
      and every gathered run is a class-less `ul`: no sense item is left
      directly among the new children. */
  lemma {:induction false} RenderNoSense(P: seq<Piece>)
    requires forall i | 0 <= i < |P| :: P[i].Other? ==> !IsSenseItem(P[i].node)
    ensures forall i | 0 <= i < |Render(P)| :: !IsSenseItem(Render(P)[i])
    decreases |P|
  {
    if P != [] {
      if P[0].Other? {
        RenderNoSense(P[1..]);
      } else {
        var m := RunLength(P);
        assert forall i | 0 <= i < |P[m..]| :: P[m..][i] == P[m + i];
        RenderNoSense(P[m..]);
      }
    }
  }

  /** An element the walk does not take for a sense stays no sense after
      the known-block renaming. */
  lemma KnownBlockNoSense(n: Node)
    requires n.Elem? && !IsSenseItem(n)
    ensures !IsSenseItem(KnownBlock(n))
  {
    var i := FirstKnown(ClassSet(n));
    if i < |KNOWN_BLOCK_CLASSES| {
      var r := KnownBlock(n);
      assert "t_core" !in ClassSet(n) && "t_subsense" !in ClassSet(n);
      assert "t_core" !in ClassSet(r) && "t_subsense" !in ClassSet(r);
    }
  }

  /** No child the walk emits directly is a sense item. */
  lemma WalkNoSense(L: seq<Node>)
    ensures forall i | 0 <= i < |Render(Pieces(L))| :: !IsSenseItem(Render(Pieces(L))[i])
  {
    var P := Pieces(L);
    forall i | 0 <= i < |P| && P[i].Other?
      ensures !IsSenseItem(P[i].node)
    {
      if L[i].Elem? {
        KnownBlockNoSense(L[i]);
      }
    }
    RenderNoSense(P);
  }

  // ---------------------------------------------------------------------
  // process_t_core_blocks
  // ---------------------------------------------------------------------

  predicate IsCore(n: Node)
  {
    HasClasses(n, TCore)
  }

  predicate NotCore(n: Node)
  {
    !IsCore(n)
  }

  predicate IsCoreSubsense(n: Node)
  {
    HasClasses(n, TSubsense)
  }

  predicate NotCoreSubsense(n: Node)
  {
    !IsCoreSubsense(n)
  }

  /** The `li` of one core: a copy of its contents, then, when it has
      subsense siblings, a `ul` with a copy of each one's contents. */
  function CoreItem(core: Node, subs: seq<Node>): (r: Node)
    requires core.Elem? && forall i | 0 <= i < |subs| :: subs[i].Elem?
    ensures r.Elem? && r.name == "li" && r.classes == [] && r.attrs == map[]
    ensures |core.kids| <= |r.kids| && r.kids[..|core.kids|] == core.kids
    ensures subs == [] <==> |r.kids| == |core.kids|
    ensures subs != [] ==> r.kids[|core.kids|..] == [Elem("ul", [], map[], ContentItems(subs))]
  {
    var tail := if subs == [] then [] else [Elem("ul", [], map[], ContentItems(subs))];
    var r := Elem("li", [], map[], core.kids + tail);
    assert r.kids[..|core.kids|] == core.kids;
    assert r.kids[|core.kids|..] == tail;
    r
  }

  /** The cores in document order, each taken out with the subsense siblings
      that follow it up to the next core: the forest left behind, and the
      `li` of every core in order. The subtree of a core is not searched
      further. */
  function CoreSeq(L: seq<Node>): (r: (seq<Node>, seq<Node>))
    ensures SizeSeq(r.0) <= SizeSeq(L)
    ensures forall i | 0 <= i < |r.1| :: r.1[i].Elem? && r.1[i].name == "li"
    decreases SizeSeq(L)
  {
    if L == [] then ([], [])
    else
      var n := L[0];
      assert SizeSeq(L) == Size(n) + SizeSeq(L[1..]);
      if IsCore(n) then
        var sp := SplitRun(L[1..], IsCore, IsCoreSubsense);
        var rest := CoreSeq(sp.1);
        (rest.0, [CoreItem(n, sp.0)] + rest.1)
      else
        var rest := CoreSeq(L[1..]);
        match n
        case Text(_) =>
          SizeSeqAppend([n], rest.0);
          ([n] + rest.0, rest.1)
        case Elem(nm, c, a, k) =>
          var inner := CoreSeq(k);
          var e := Elem(nm, c, a, inner.0);
          SizeSeqAppend([e], rest.0);
          ([e] + rest.0, inner.1 + rest.1)
  }

  /** `process_t_core_blocks(soup, se1)` on the children of a se1: without
      a core nothing changes; otherwise the cores are gone from the rest,
      and a `ul` of their items, in document order, is appended. */
  function ProcessTCoreBlocks(kids: seq<Node>): (r: seq<Node>)
    ensures All(kids, NotCore) ==> r == kids
    ensures !All(kids, NotCore) ==>
      |r| > 0 && r[..|r| - 1] == CoreSeq(kids).0 && All(r[..|r| - 1], NotCore)
      && r[|r| - 1] == Elem("ul", [], map[], CoreSeq(kids).1) && CoreSeq(kids).1 != []
  {
    var c := CoreSeq(kids);
    CoreIdentity(kids);
    NoCoreLeft(kids);
    if c.1 == [] then kids
    else
      var r := c.0 + [Elem("ul", [], map[], c.1)];
      assert r[..|r| - 1] == c.0;
      r
  }

  /** Any other node at the front is searched on its own: the cores found
      in its children come first, in order, then those of its siblings. */
  lemma CoreStepsOver(e: Node, rest: seq<Node>)
    requires !IsCore(e)
    ensures CoreSeq([e] + rest)
      == if e.Text? then ([e] + CoreSeq(rest).0, CoreSeq(rest).1)
         else ([Elem(e.name, e.classes, e.attrs, CoreSeq(e.kids).0)] + CoreSeq(rest).0,
               CoreSeq(e.kids).1 + CoreSeq(rest).1)
  {
    var L := [e] + rest;
    assert L[0] == e && L[1..] == rest;
  }

  /** Without cores nothing happens; with cores, some `li` is produced. */
  lemma {:induction false} CoreIdentity(L: seq<Node>)
    ensures All(L, NotCore) ==> CoreSeq(L) == (L, [])
    ensures CoreSeq(L).1 == [] ==> All(L, NotCore)
    decreases SizeSeq(L)
  {
    if L != [] {
      var n := L[0];
      assert SizeSeq(L) == Size(n) + SizeSeq(L[1..]);
      assert L == [n] + L[1..];
      AllAppend([n], L[1..], NotCore);
      AllOne(n, NotCore);
      if !IsCore(n) {
        CoreIdentity(L[1..]);
        if n.Elem? {
          CoreIdentity(n.kids);
        }
      }
    }
  }

  /** A core at the front takes the subsense siblings of the run before the
      next core; the rest of that run and everything after stay. */
  lemma CoreTakesItsSubsenses(core: Node, rest: seq<Node>)
    requires IsCore(core)
    ensures var run := RunBefore(rest, IsCore);
      var left := Keep(run, NotCoreSubsense) + rest[|run|..];
      && CoreSeq([core] + rest).0 == CoreSeq(left).0
      && CoreSeq([core] + rest).1 == [CoreItem(core, Keep(run, IsCoreSubsense))] + CoreSeq(left).1
  {
    var L := [core] + rest;
    assert L[0] == core && L[1..] == rest;
    SplitRunSpec(rest, IsCore, IsCoreSubsense, NotCoreSubsense);
  }

  /** After the collection no core is left in the forest. */
  lemma {:induction false} NoCoreLeft(L: seq<Node>)
    ensures All(CoreSeq(L).0, NotCore)
    decreases SizeSeq(L)
  {
    if L != [] {
      var n := L[0];
      assert SizeSeq(L) == Size(n) + SizeSeq(L[1..]);
      if IsCore(n) {
        var sp := SplitRun(L[1..], IsCore, IsCoreSubsense);
        NoCoreLeft(sp.1);
      } else {
        var rest := CoreSeq(L[1..]);
        NoCoreLeft(L[1..]);
        match n
        case Text(_) =>
          AllAppend([n], rest.0, NotCore);
        case Elem(nm, c, a, k) =>
          var e := Elem(nm, c, a, CoreSeq(k).0);
          NoCoreLeft(k);
          AllOne(e, NotCore);
          AllAppend([e], rest.0, NotCore);
      }
    }
  }

  /** A core is a sense item, so where no top node is one, the collection
      only rewrites below the top: no sense item appears there either. */
  lemma {:induction false} CoreKeepsNoSense(L: seq<Node>)
    requires forall i | 0 <= i < |L| :: !IsSenseItem(L[i])
    ensures forall i | 0 <= i < |CoreSeq(L).0| :: !IsSenseItem(CoreSeq(L).0[i])
    decreases SizeSeq(L)
  {
    if L != [] {
      var n := L[0];
      assert SizeSeq(L) == Size(n) + SizeSeq(L[1..]);
      assert !IsCore(n);
      CoreKeepsNoSense(L[1..]);
    }
  }

  // ---------------------------------------------------------------------
  // process_se2_blocks
  // ---------------------------------------------------------------------

  predicate IsSe2Block(n: Node)
  {
    HasClasses(n, Se2)
  }

  /** Each block becomes an `li` with its definition and subsenses gathered. */
  function Se2Items(blocks: seq<Node>): (r: seq<Node>)
    requires forall i | 0 <= i < |blocks| :: blocks[i].Elem?
    ensures |r| == |blocks|
    ensures forall i | 0 <= i < |r| :: r[i] == GatherSense(Se2Item, ConvertTag(blocks[i], "li"))
  {
    seq(|blocks|, i requires 0 <= i < |blocks| => GatherSense(Se2Item, ConvertTag(blocks[i], "li")))
  }

  /** `process_se2_blocks(soup, se1)` on the children of a se1: the
      second-level blocks among them move, in order, into one list at the
      end. */
  function ProcessSe2Blocks(kids: seq<Node>): (r: seq<Node>)
    ensures (forall i | 0 <= i < |kids| :: !IsSe2Block(kids[i])) ==> r == kids
    ensures (exists i | 0 <= i < |kids| :: IsSe2Block(kids[i])) ==>
      && |r| > 0
      && r[|r| - 1] == SenseList(Se2Items(Keep(kids, IsSe2Block)))
      && forall i | 0 <= i < |r| :: !IsSe2Block(r[i])
    ensures (exists i | 0 <= i < |kids| :: IsSe2Block(kids[i])) ==>
      |r| > 0 && r[..|r| - 1] == Keep(kids, x => !IsSe2Block(x))
  {
    var blocks := Keep(kids, IsSe2Block);
    NoneKept(kids, IsSe2Block);
    if blocks == [] then kids
    else
      var others := Keep(kids, x => !IsSe2Block(x));
      others + [SenseList(Se2Items(blocks))]
  }

  // ---------------------------------------------------------------------
  // convert_senses_to_list
  // ---------------------------------------------------------------------

  /** The children of a se1 after its rewrite: headings renamed, senses
      gathered into runs, cores collected, second-level blocks listed. */
  function Se1Kids(k: seq<Node>): seq<Node>
  {
    ProcessSe2Blocks(ProcessTCoreBlocks(Render(Pieces(PosSeq(k)))))
  }

  /** After the walk no second-level block is a direct child any more, so
      `process_se2_blocks` finds nothing to do, and no direct child of the
      rewritten se1 is a sense item. */
  lemma Se1KidsNoSense(k: seq<Node>)
    ensures var w := ProcessTCoreBlocks(Render(Pieces(PosSeq(k))));
      ProcessSe2Blocks(w) == w && forall i | 0 <= i < |w| :: !IsSenseItem(w[i])
  {
    var rendered := Render(Pieces(PosSeq(k)));
    WalkNoSense(PosSeq(k));
    CoreKeepsNoSense(rendered);
    var w := ProcessTCoreBlocks(rendered);
    assert forall i | 0 <= i < |w| :: !IsSenseItem(w[i]);
    assert forall i | 0 <= i < |w| :: !IsSe2Block(w[i]);
  }

  /** One outermost se1: renamed `section` unless it is a label span, with
      its children rebuilt; no sense item is left among them. */
  function Se1Node(n: Node): (r: Node)
    requires IsSe1(n)
    ensures r.Elem? && r.classes == n.classes && r.attrs == n.attrs
    ensures r.name == (if HasClasses(n, SkipLabel) then "span" else "section")
    ensures forall i | 0 <= i < |r.kids| :: !IsSenseItem(r.kids[i])
    ensures r.kids == Se1Kids(n.kids) == ProcessTCoreBlocks(Render(Pieces(PosSeq(n.kids))))
  {
    Se1KidsNoSense(n.kids);
    Elem(ConvertTag(n, "section").name, n.classes, n.attrs, Se1Kids(n.kids))
  }

  function SensesNode(n: Node): (r: Node)
    ensures n.Text? ==> r == n
    ensures n.Elem? ==> r.Elem? && r.classes == n.classes && r.attrs == n.attrs
    ensures n.Elem? && !IsSe1(n) ==> r.name == n.name && |r.kids| == |n.kids|
    ensures IsSe1(n) ==> forall i | 0 <= i < |r.kids| :: !IsSenseItem(r.kids[i])
    ensures IsSe1(n) ==> r == Se1Node(n)
    ensures n.Elem? && !IsSe1(n) ==> r.kids == SensesSeq(n.kids)
    decreases n
  {
    match n
    case Text(_) => n
    case Elem(nm, c, a, k) =>
      if IsSe1(n) then Se1Node(n) else Elem(nm, c, a, SensesSeq(k))
  }

  function SensesSeq(L: seq<Node>): (r: seq<Node>)
    ensures |r| == |L|
    ensures forall i | 0 <= i < |L| :: r[i] == SensesNode(L[i])
    decreases L
  {
    if L == [] then [] else [SensesNode(L[0])] + SensesSeq(L[1..])
  }

  /** `convert_senses_to_list(soup)`: each top-level se1 is rebuilt with no
      sense left among its direct children, every other node is converted
      on its own, and a document without se1 spans is left as it is. */
  function ConvertSensesToList(doc: seq<Node>): (r: seq<Node>)
    ensures |r| == |doc|
    ensures forall i | 0 <= i < |doc| && IsSe1(doc[i]) ::
      r[i] == Se1Node(doc[i]) && forall j | 0 <= j < |r[i].kids| :: !IsSenseItem(r[i].kids[j])
    ensures All(doc, NotSe1) ==> r == doc
  {
    if All(doc, NotSe1) then
      SensesIdentity(doc);
      SensesSeq(doc)
    else
      SensesSeq(doc)
  }

  predicate NotSe1(n: Node)
  {
    !IsSe1(n)
  }

  /** A document without se1 spans is left as it is. */
  lemma {:induction false} SensesIdentity(L: seq<Node>)
    requires All(L, NotSe1)
    ensures SensesSeq(L) == L
    decreases L
  {
    if L != [] {
      assert L == [L[0]] + L[1..];
      AllAppend([L[0]], L[1..], NotSe1);
      SensesIdentity(L[1..]);
      if L[0].Elem? {
        AllOne(L[0], NotSe1);
        SensesIdentity(L[0].kids);
      }
    }
  }
}

=== FILE: matchers.dfy ===
/** Class-set matchers: the predicates every pass uses to pick the elements
    it rewrites, and the document-order search (`find`) built on them. */
module Matchers {
  import opened Wrappers
  import opened Tree

  /** `is_class`: the element has a class attribute holding `className`;
      any tag name qualifies. */
  predicate IsClass(n: Node, className: string)
  {
    n.Elem? && className in n.classes
  }

  /** `has_all_classes`: a span that has a class attribute holding every
      required class. */
  predicate HasAllClasses(n: Node, required: set<string>)
  {
    n.Elem? && n.name == "span" && |n.classes| > 0 && required <= ClassSet(n)
  }

  /** The keys of the `CLASS_SETS` table of the main-definition pass. */
  datatype ClassKey = TCore | TSubsense | Se2 | TFirst | SubsenseInSe2 | SkipLabel

  /** `CLASS_SETS`: the required class set behind each key. */
  function ClassSets(k: ClassKey): set<string>
  {
    match k
    case TCore => {"msDict", "x_xd1", "t_core"}
    case TSubsense => {"msDict", "x_xd1", "hasSn", "t_subsense"}
    case Se2 => {"se2", "x_xd1", "hasSn"}
    case TFirst => {"msDict", "x_xd1sub", "t_first"}
    case SubsenseInSe2 => {"msDict", "x_xd1sub", "hasSn", "t_subsense"}
    case SkipLabel => {"gp", "x_xdh", "sn", "ty_label", "tg_se2"}
  }

  /** `has_classes`: a span whose classes include `CLASS_SETS[k]`. */
  predicate HasClasses(n: Node, k: ClassKey)
  {
    n.Elem? && n.name == "span" && ClassSets(k) <= ClassSet(n)
  }

  /** `has_classes(t, k)` is `has_all_classes(t, CLASS_SETS[k])`: every set
      of the table is non-empty, so a match implies a class attribute. */
  lemma HasClassesIsHasAllClasses(n: Node, k: ClassKey)
    ensures HasClasses(n, k) <==> HasAllClasses(n, ClassSets(k))
  {
    if HasClasses(n, k) {
      var c :| c in ClassSets(k);
      assert c in ClassSet(n);
    }
  }

  /** Matching is a subset test: extra classes never block a match, and a
      missing required class always does. */
  lemma SubsetMatch(n: Node, required: set<string>, extra: seq<string>)
    requires n.Elem?
    ensures HasAllClasses(n, required) ==> HasAllClasses(n.(classes := n.classes + extra), required)
    ensures (exists c :: c in required && c !in n.classes) ==> !HasAllClasses(n, required)
  {
    var m := n.(classes := n.classes + extra);
    assert ClassSet(n) <= ClassSet(m);
  }

  /** `convert_tag`: rename an element unless it is a label span, which
      keeps its name; nothing but the name ever changes. */
  function ConvertTag(n: Node, newName: string): (r: Node)
    requires n.Elem?
    ensures r.Elem? && r.classes == n.classes && r.attrs == n.attrs && r.kids == n.kids
    ensures r.name == (if HasClasses(n, SkipLabel) then n.name else newName)
  {
    if HasClasses(n, SkipLabel) then n else n.(name := newName)
  }

  // ---------------------------------------------------------------------
  // find(name, class_=...) in document order
  // ---------------------------------------------------------------------

  /** A search pattern: an optional tag name and a set of required classes. */
  datatype Pattern = Pattern(tag: Option<string>, required: set<string>)

  predicate Matches(n: Node, p: Pattern)
  {
    n.Elem? && (p.tag.None? || n.name == p.tag.value) && p.required <= ClassSet(n)
  }

  /** The first matching element of a document-order snapshot. */
  function FirstIn(E: seq<Node>, p: Pattern): (r: Option<Node>)
    ensures r.Some? ==> Matches(r.value, p) && r.value in E
    ensures r.None? <==> forall i | 0 <= i < |E| :: !Matches(E[i], p)
  {
    if E == [] then None else if Matches(E[0], p) then Some(E[0]) else FirstIn(E[1..], p)
  }

  lemma FirstInAppend(a: seq<Node>, b: seq<Node>, p: Pattern)
    ensures FirstIn(a + b, p) == if FirstIn(a, p).Some? then FirstIn(a, p) else FirstIn(b, p)
  {
    if a == [] {
      assert a + b == b;
    } else {
      assert (a + b)[0] == a[0];
      assert (a + b)[1..] == a[1..] + b;
      FirstInAppend(a[1..], b, p);
    }
  }

  /** `x = tag.find(...); x.extract()`: the first matching descendant in
      document order, detached with its subtree, and the forest it leaves. */
  function ExtractFirst(L: seq<Node>, p: Pattern): (r: Option<(Node, seq<Node>)>)
    ensures r.Some? <==> FirstIn(Elements(L), p).Some?
    ensures r.Some? ==> r.value.0 == FirstIn(Elements(L), p).value
    ensures r.Some? ==> SizeSeq(L) == Size(r.value.0) + SizeSeq(r.value.1)
  {
    if L == [] then None
    else
      ElementsAppend([L[0]], L[1..]);
      assert [L[0]] + L[1..] == L;
      FirstInAppend(Elements([L[0]]), Elements(L[1..]), p);
      match L[0]
      case Text(_) =>
        assert Elements([L[0]]) == [];
        (match ExtractFirst(L[1..], p)
         case None => None
         case Some(found) =>
           SizeSeqAppend([L[0]], found.1);
           Some((found.0, [L[0]] + found.1)))
      case Elem(nm, c, a, k) =>
        assert Elements([L[0]]) == [L[0]] + Elements(k);
        FirstInAppend([L[0]], Elements(k), p);
        if Matches(L[0], p) then Some((L[0], L[1..]))
        else
          match ExtractFirst(k, p)
          case Some(found) =>
            var e := Elem(nm, c, a, found.1);
            SizeSeqAppend([e], L[1..]);
            Some((found.0, [e] + L[1..]))
          case None =>
            match ExtractFirst(L[1..], p)
            case None => None
            case Some(found) =>
              SizeSeqAppend([L[0]], found.1);
              Some((found.0, [L[0]] + found.1))
  }

  /** Putting a node back into a forest: `path` gives the child index to
      descend into at each level, and its last entry the index the node is
      inserted at. `None` when the path does not fit the forest. */
  function PutBack(L: seq<Node>, path: seq<nat>, x: Node): Option<seq<Node>>
    decreases |path|
  {
    if path == [] then None
    else if |path| == 1 then
      if path[0] <= |L| then Some(L[..path[0]] + [x] + L[path[0]..]) else None
    else if path[0] < |L| && L[path[0]].Elem? then
      match PutBack(L[path[0]].kids, path[1..], x)
      case None => None
      case Some(k) => Some(L[path[0] := L[path[0]].(kids := k)])
    else None
  }

  /** Where `ExtractFirst` takes its node from, as a path for `PutBack`. */
  function ExtractPath(L: seq<Node>, p: Pattern): seq<nat>
  {
    if L == [] then []
    else
      match L[0]
      case Text(_) => Shifted(ExtractPath(L[1..], p))
      case Elem(nm, c, a, k) =>
        if Matches(L[0], p) then [0]
        else if ExtractFirst(k, p).Some? then [0] + ExtractPath(k, p)
        else Shifted(ExtractPath(L[1..], p))
  }

  /** The same position one sibling further right. */
  function Shifted(path: seq<nat>): seq<nat>
  {
    if path == [] then [] else [path[0] + 1] + path[1..]
  }

  /** Putting back below an added first sibling. */
  lemma {:induction false} PutBackCons(h: Node, L: seq<Node>, path: seq<nat>, x: Node)
    requires PutBack(L, path, x).Some?
    ensures PutBack([h] + L, Shifted(path), x) == Some([h] + PutBack(L, path, x).value)
  {
    var q := Shifted(path);
    var hL := [h] + L;
    if |path| == 1 {
      assert hL[..q[0]] == [h] + L[..path[0]];
      assert hL[q[0]..] == L[path[0]..];
      assert hL[..q[0]] + [x] + hL[q[0]..] == [h] + (L[..path[0]] + [x] + L[path[0]..]);
    } else {
      assert q[1..] == path[1..];
      assert hL[q[0]] == L[path[0]];
      var k := PutBack(L[path[0]].kids, path[1..], x).value;
      assert hL[q[0] := hL[q[0]].(kids := k)] == [h] + L[path[0] := L[path[0]].(kids := k)];
    }
  }

  /** The node `ExtractFirst` takes out goes back where it came from: the
      forest it leaves is the original with exactly that subtree missing. */
  lemma {:induction false} ExtractPutBack(L: seq<Node>, p: Pattern)
    requires ExtractFirst(L, p).Some?
    ensures PutBack(ExtractFirst(L, p).value.1, ExtractPath(L, p), ExtractFirst(L, p).value.0) == Some(L)
  {
    var r := ExtractFirst(L, p).value;
    match L[0]
    case Text(_) =>
      ExtractPutBack(L[1..], p);
      PutBackCons(L[0], ExtractFirst(L[1..], p).value.1, ExtractPath(L[1..], p), r.0);
      assert [L[0]] + L[1..] == L;
    case Elem(nm, c, a, k) =>
      if Matches(L[0], p) {
        assert L[..0] + [L[0]] + L[1..] == L;
      } else if ExtractFirst(k, p).Some? {
        ExtractPutBack(k, p);
        var path := ExtractPath(L, p);
        assert path[1..] == ExtractPath(k, p);
        var rest := r.1;
        assert rest[0].kids == ExtractFirst(k, p).value.1;
        assert rest[0 := rest[0].(kids := k)] == L;
      } else {
        ExtractPutBack(L[1..], p);
        PutBackCons(L[0], ExtractFirst(L[1..], p).value.1, ExtractPath(L[1..], p), r.0);
        assert [L[0]] + L[1..] == L;
      }
  }
}

=== FILE: pipeline.dfy ===
/** The two processing pipelines: the semantic converter's `process_html`
    and the earlier prototype script's. Parsing the page and printing the
    result are left to the caller; both pipelines are functions from the
    parsed forest to the rewritten one. */
module Pipeline {
  import opened Wrappers
  import opened Tree
  import SpanStyles
  import Matchers
  import Brackets
  import DefinitionPhrases
  import MainDefinition
  import Cleanup

  /** The passes of the semantic `process_html` that come before the
      bracket pass: phrase blocks, then span styles. */
  function BeforeBrackets(doc: seq<Node>): seq<Node>
  {
    var a := DefinitionPhrases.ConvertXoBlocks(DefinitionPhrases.SEMANTIC_XO1, doc);
    SpanStyles.ConvertSpanStyles(SpanStyles.SEMANTIC_STYLES, a)
  }

  /** The passes that come after it: Apple styles, subsense lists, sense
      lists, then the cleanup passes. The finished forest has no heading
      span left. */
  function AfterBrackets(c: seq<Node>): (r: seq<Node>)
    ensures All(r, Cleanup.NotHeading)
  {
    SpanStyles.AppleTablesWellFormed();
    var d := SpanStyles.ConvertAppleSpanStyles(SpanStyles.SEMANTIC_APPLE, c);
    var e := DefinitionPhrases.ConvertSubsensesToList(d);
    var f := MainDefinition.ConvertSensesToList(e);
    var g := Cleanup.RemoveBulletSpans(f);
    var h := Cleanup.ConvertBlocks(Cleanup.OriginRule("section", Cleanup.KeepOthers), g);
    var i := Cleanup.ConvertBlocks(Cleanup.DerivativesRule("section", Cleanup.KeepOthers), h);
    var j := Cleanup.ConvertBlocks(Cleanup.UsageRule("section", Cleanup.KeepOthers), i);
    var k := Cleanup.InjectHwLinebreaks(j);
    var l := Cleanup.RemoveEmptyTags(k);
    Cleanup.NoHeadingLeft(l);
    Cleanup.ConvertHeadingSpansToP(l)
  }

  /** The semantic `process_html` as the source runs it, with the bracket
      pass around `lg` (skipping inside `vg`) as written: the call fails
      exactly when that pass fails, and a finished forest has no heading
      span left. */
  function ProcessHtml(doc: seq<Node>): (r: Result<seq<Node>>)
    ensures r.Failure? <==>
      Brackets.WrapClassTextWithBrackets(Brackets.SEMANTIC_BRACKETS_AS_WRITTEN, {"lg"}, Brackets.SkipClasses(None), BeforeBrackets(doc)).Failure?
    ensures r.Success? ==> All(r.value, Cleanup.NotHeading)
  {
    var b := BeforeBrackets(doc);
    match Brackets.WrapClassTextWithBrackets(Brackets.SEMANTIC_BRACKETS_AS_WRITTEN, {"lg"}, Brackets.SkipClasses(None), b)
    case Failure(e) => Failure(e)
    case Success(c) => Success(AfterBrackets(c))
  }

  /** The same pipeline with the corrected bracket pass, which never
      fails: the finished forest has no heading span left. */
  function CorrectedProcessHtml(doc: seq<Node>): (r: seq<Node>)
    ensures All(r, Cleanup.NotHeading)
  {
    var b := BeforeBrackets(doc);
    Brackets.StrippedNeverFails({"lg"}, Brackets.SkipClasses(None), false, b);
    AfterBrackets(Brackets.WrapClassTextWithBrackets(Brackets.SEMANTIC_BRACKETS, {"lg"}, Brackets.SkipClasses(None), b).value)
  }

  /** A page whose only `lg` span holds one bare text reaches the bracket
      pass unchanged, and the whole call fails on it; the corrected
      pipeline goes through. */
  lemma ProcessHtmlFailsOnLoneText()
    ensures ProcessHtml(Brackets.LONE_TEXT_DOC).Failure?
  {
    var doc := Brackets.LONE_TEXT_DOC;
    var n := doc[0];
    assert All(doc, e => !DefinitionPhrases.IsGroupHead(e));
    DefinitionPhrases.GroupIdentity(doc);
    assert All(doc, e => !Matchers.IsClass(e, "subEntryBlock"));
    DefinitionPhrases.Xo1OutsideUnchanged(DefinitionPhrases.SEMANTIC_XO1, doc);
    assert "lg" !in SpanStyles.STYLE_MAP;
    assert forall i | 0 <= i < |SpanStyles.COMPOSITE_STYLE_MAP| :: "gp" in SpanStyles.COMPOSITE_STYLE_MAP[i].0;
    assert SpanStyles.SpanStyleRule(SpanStyles.SEMANTIC_STYLES, n.classes).None?;
    assert All(doc, e => !SpanStyles.Styled(SpanStyles.SEMANTIC_STYLES, e));
    SpanStyles.SpanStylesIdentity(SpanStyles.SEMANTIC_STYLES, doc);
    assert BeforeBrackets(doc) == doc;
    Brackets.AsWrittenFailsOnLoneText();
  }

  /** Run in this order, the corrected bracket pass and then the Apple pass
      turn an `lg` span (whose only Apple class is `lg`) into an `em` whose
      only child is the class-less bracket span; the bracket texts survive
      the Apple pass. */
  lemma LgBracketInsideEm(c: seq<string>, a: map<string, string>, k: seq<Node>)
    requires "lg" in c
    requires forall x | x in c :: x == "lg" || x !in SpanStyles.APPLE_STYLE_MAP
    ensures var b := Brackets.WrapClassTextWithBrackets(Brackets.SEMANTIC_BRACKETS, {"lg"}, Brackets.SkipClasses(None), [Elem("span", c, a, k)]);
      b.Success? && SpanStyles.AppleWellFormed(SpanStyles.SEMANTIC_APPLE)
      && var d := SpanStyles.ConvertAppleSpanStyles(SpanStyles.SEMANTIC_APPLE, b.value);
      |d| == 1 && d[0].Elem? && d[0].name == "em" && d[0].classes == [] && d[0].attrs == map[]
      && |d[0].kids| == 1 && Brackets.IsWrapper(Brackets.SEMANTIC_BRACKETS, d[0].kids[0])
  {
    var w := LgBracketed(c, a, k);
    SpanStyles.AppleTablesWellFormed();
    LgRule(c);
    LgEm(c, a, w);
  }

  /** The corrected bracket pass puts an `lg` span's contents in a wrapper. */
  lemma LgBracketed(c: seq<string>, a: map<string, string>, k: seq<Node>) returns (w: Node)
    requires "lg" in c
    ensures Brackets.WrapClassTextWithBrackets(Brackets.SEMANTIC_BRACKETS, {"lg"}, Brackets.SkipClasses(None), [Elem("span", c, a, k)])
      == Success([Elem("span", c, a, [w])])
    ensures Brackets.IsWrapper(Brackets.SEMANTIC_BRACKETS, w)
  {
    var n := Elem("span", c, a, k);
    var skip := Brackets.SkipClasses(None);
    Brackets.StrippedNeverFails({"lg"}, skip, false, [n]);
    Brackets.BracketSeqEach(Brackets.SEMANTIC_BRACKETS, {"lg"}, skip, false, [n]);
    assert "lg" in ClassSet(n) * {"lg"};
    var b := Brackets.WrapClassTextWithBrackets(Brackets.SEMANTIC_BRACKETS, {"lg"}, skip, [n]).value;
    w := b[0].kids[0];
    assert b == [Elem("span", c, a, [w])];
  }

  /** `lg` is the span's only Apple class, so the Apple rule is `em`. */
  lemma LgRule(c: seq<string>)
    requires "lg" in c
    requires forall x | x in c :: x == "lg" || x !in SpanStyles.APPLE_STYLE_MAP
    ensures SpanStyles.AppleRule(SpanStyles.SEMANTIC_APPLE, c, false) == Some(SpanStyles.EM)
  {
    var i := SpanStyles.FirstKey(c, SpanStyles.APPLE_STYLE_MAP.Keys);
    assert i < |c| && c[i] == "lg";
  }

  /** The Apple pass makes the `em` and leaves the wrapper's bracket texts. */
  lemma LgEm(c: seq<string>, a: map<string, string>, w: Node)
    requires SpanStyles.AppleWellFormed(SpanStyles.SEMANTIC_APPLE)
    requires SpanStyles.AppleRule(SpanStyles.SEMANTIC_APPLE, c, false) == Some(SpanStyles.EM)
    requires Brackets.IsWrapper(Brackets.SEMANTIC_BRACKETS, w)
    ensures var d := SpanStyles.ConvertAppleSpanStyles(SpanStyles.SEMANTIC_APPLE, [Elem("span", c, a, [w])]);
      |d| == 1 && d[0].Elem? && d[0].name == "em" && d[0].classes == [] && d[0].attrs == map[]
      && |d[0].kids| == 1 && Brackets.IsWrapper(Brackets.SEMANTIC_BRACKETS, d[0].kids[0])
  {
    var at := SpanStyles.SEMANTIC_APPLE;
    var n := Elem("span", c, a, [w]);
    assert !SpanStyles.InsideEg([]);
    assert [c] + [] == [c];
    var kids := SpanStyles.AppleSeq(at, [c], [w]);
    assert SpanStyles.AppleNode(at, [], n) == SpanStyles.ChainNodes(["em"], [], kids);
    var w2 := kids[0];
    assert SpanStyles.AppleRule(at, [], SpanStyles.InsideEg([c])).None?;
    assert w2.kids == SpanStyles.AppleSeq(at, [[]] + [c], w.kids);
  }

  /** The prototype's `process_html`: phrase blocks (empty `x_xo2` spans
      listed too), span
      styles without the composite table, brackets around `lg` with the
      moved contents kept as they are and no ancestor test, its own Apple
      table, then subsense lists. No `se2` entry is left with a subsense
      child. */
  function PrototypeProcessHtml(doc: seq<Node>): (r: seq<Node>)
    ensures All(r, DefinitionPhrases.Settled)
  {
    var a := DefinitionPhrases.ConvertXoBlocks(DefinitionPhrases.PROTOTYPE_XO1, doc);
    var b := SpanStyles.ConvertSpanStyles(SpanStyles.PROTOTYPE_STYLES, a);
    Brackets.BracketsRoundTrip(Brackets.HTML_BRACKETS, {"lg"}, Brackets.PROTOTYPE_SKIP, false, b);
    var c := Brackets.WrapClassTextWithBrackets(Brackets.HTML_BRACKETS, {"lg"}, Brackets.PROTOTYPE_SKIP, b).value;
    SpanStyles.AppleTablesWellFormed();
    var d := SpanStyles.ConvertAppleSpanStyles(SpanStyles.PROTOTYPE_APPLE, c);
    DefinitionPhrases.SubsensesSettled(d);
    DefinitionPhrases.ConvertSubsensesToList(d)
  }
}

=== FILE: span_styles.dfy ===
/** Inline style rewriting: spans carrying style classes become semantic
    inline tags.

    Both passes snapshot every span in document order and visit the snapshot
    in REVERSE. Reverse pre-order visits every descendant before its
    ancestors, and rewriting a span only replaces that span in its parent,
    so when a span is visited its children are already rewritten and its
    ancestors are still the input's. The functions below therefore rewrite
    the children first and then the span itself, and they thread the
    ancestors' class lists down for the one ancestor test (`is_inside_eg`). */
module SpanStyles {
  import opened Wrappers
  import opened Tree

  /** An output rule: the tag name list and the class list of the new tags
      (the only attribute the tables set is `class`). */
  datatype Style = Style(tags: seq<string>, classes: seq<string>)

  const STRONG := Style(["strong"], [])
  const EM := Style(["em"], [])
  const SUP := Style(["sup"], [])
  const SUB := Style(["sub"], [])
  const U := Style(["u"], [])

  /** `STYLE_MAP` (identical in the prototype script). */
  const STYLE_MAP: map<string, Style> := map[
    "bold" := STRONG,
    "italic" := EM,
    "underline" := U,
    "sup" := SUP,
    "sub" := SUB,
    "sc" := Style(["span"], ["small-caps"]),
    "bi" := Style(["em", "strong"], []),
    "sui" := Style(["sup", "em"], []),
    "ini" := Style(["sub", "em"], [])
  ]

  /** `APPLE_STYLE_MAP` of the semantic converter. */
  const APPLE_STYLE_MAP: map<string, Style> := map[
    "sy_underline" := U,
    "str" := Style(["span"], ["stress"]),
    "ex" := EM,
    "v" := STRONG,
    "l" := STRONG,
    "f" := STRONG,
    "lg" := EM,
    "ff" := Style(["em", "strong"], []),
    "gg" := EM,
    "subEnt" := SUB,
    "inf" := STRONG,
    "sy" := EM,
    "nu" := SUP,
    "dn" := SUB,
    "work" := Style(["em", "code"], [])
  ]

  /** `APPLE_STYLE_MAP` of the prototype script: the first nine entries. */
  const PROTOTYPE_APPLE_STYLE_MAP: map<string, Style> := map[
    "sy_underline" := U,
    "str" := Style(["span"], ["stress"]),
    "ex" := EM,
    "v" := STRONG,
    "l" := STRONG,
    "f" := STRONG,
    "lg" := EM,
    "ff" := Style(["em", "strong"], []),
    "gg" := EM
  ]

  /** `COMPOSITE_STYLE_MAP`, in the dictionary's order. */
  const COMPOSITE_STYLE_MAP: seq<(set<string>, Style)> := [
    ({"gp", "ty_hom", "tg_hw"}, SUP),
    ({"gp", "ty_hom", "tg_xr"}, SUP)
  ]

  /** The tables one run of `convert_span_styles` consults. */
  datatype StyleTables = StyleTables(composite: seq<(set<string>, Style)>, single: map<string, Style>)

  const SEMANTIC_STYLES := StyleTables(COMPOSITE_STYLE_MAP, STYLE_MAP)
  /** The prototype's composite table is empty. */
  const PROTOTYPE_STYLES := StyleTables([], STYLE_MAP)

  /** The tables one run of `convert_apple_span_styles` consults, and whether
      `gg` is the special case that wins over every other Apple class. */
  datatype AppleTables = AppleTables(table: map<string, Style>, ggSpecialCase: bool)

  const SEMANTIC_APPLE := AppleTables(APPLE_STYLE_MAP, true)
  const PROTOTYPE_APPLE := AppleTables(PROTOTYPE_APPLE_STYLE_MAP, false)

  /** The `code` rule used for `gg` inside an example. */
  const CODE := Style(["code"], [])

  // ---------------------------------------------------------------------
  // Rule choice
  // ---------------------------------------------------------------------

  /** Index of the first composite rule whose class set the span covers. */
  function FirstComposite(comp: seq<(set<string>, Style)>, cs: set<string>): (i: nat)
    ensures i <= |comp|
    ensures i < |comp| ==> comp[i].0 <= cs
    ensures forall j | 0 <= j < i :: !(comp[j].0 <= cs)
  {
    if comp == [] then 0
    else if comp[0].0 <= cs then 0
    else 1 + FirstComposite(comp[1..], cs)
  }

  /** Index of the first class, in the span's own order, that is a key. */
  function FirstKey(cls: seq<string>, keys: set<string>): (i: nat)
    ensures i <= |cls|
    ensures i < |cls| ==> cls[i] in keys
    ensures forall j | 0 <= j < i :: cls[j] !in keys
  {
    if cls == [] then 0
    else if cls[0] in keys then 0
    else 1 + FirstKey(cls[1..], keys)
  }

  /** The rule `convert_span_styles` applies to a span with classes `cls`:
      the first composite rule the classes cover; otherwise the rule of the
      first class in the span's own order that is a key; otherwise none. */
  function SpanStyleRule(t: StyleTables, cls: seq<string>): (r: Option<Style>)
    ensures r.None? <==>
      (forall i | 0 <= i < |t.composite| :: !(t.composite[i].0 <= set c | c in cls))
      && (forall c | c in cls :: c !in t.single)
    ensures forall i | 0 <= i < |t.composite| && t.composite[i].0 <= (set c | c in cls) ::
      (forall j | 0 <= j < i :: !(t.composite[j].0 <= set c | c in cls)) ==> r == Some(t.composite[i].1)
    ensures (forall i | 0 <= i < |t.composite| :: !(t.composite[i].0 <= set c | c in cls)) ==>
      forall k | 0 <= k < |cls| && cls[k] in t.single ::
        (forall j | 0 <= j < k :: cls[j] !in t.single) ==> r == Some(t.single[cls[k]])
  {
    var cs := set c | c in cls;
    var ci := FirstComposite(t.composite, cs);
    if ci < |t.composite| then Some(t.composite[ci].1)
    else
      var k := FirstKey(cls, t.single.Keys);
      if k < |cls| then Some(t.single[cls[k]]) else None
  }

  /** A span covering either homograph class set becomes `sup` whatever
      single-class rules its other classes would select. */
  lemma HomographIsSup(cls: seq<string>)
    requires {"gp", "ty_hom", "tg_hw"} <= (set c | c in cls) || {"gp", "ty_hom", "tg_xr"} <= (set c | c in cls)
    ensures SpanStyleRule(SEMANTIC_STYLES, cls) == Some(SUP)
  {
    var cs := set c | c in cls;
    assert COMPOSITE_STYLE_MAP[0].0 <= cs || COMPOSITE_STYLE_MAP[1].0 <= cs;
    var i := FirstComposite(COMPOSITE_STYLE_MAP, cs);
    assert i < 2;
  }

  /** `is_inside_eg`: walk the parent chain (nearest first) looking for the
      class `eg`. */
  method IsInsideEg(ancestors: seq<seq<string>>) returns (r: bool)
    ensures r <==> exists i | 0 <= i < |ancestors| :: "eg" in ancestors[i]
  {
    var i := 0;
    while i < |ancestors|
      invariant 0 <= i <= |ancestors|
      invariant forall j | 0 <= j < i :: "eg" !in ancestors[j]
    {
      if "eg" in ancestors[i] {
        return true;
      }
      i := i + 1;
    }
    return false;
  }

  /** Some proper ancestor (class lists, nearest first) carries `eg`. */
  predicate InsideEg(ancestors: seq<seq<string>>)
  {
    exists i | 0 <= i < |ancestors| :: "eg" in ancestors[i]
  }

  /** The rule `convert_apple_span_styles` applies: none for a span without
      Apple classes; with the special case on, `gg` wins and gives `code`
      (no attributes) inside an example and the table's `em` elsewhere;
      otherwise the first Apple class in the span's own order decides. */
  function AppleRule(at: AppleTables, cls: seq<string>, insideEg: bool): (r: Option<Style>)
    ensures r.None? <==> forall c | c in cls :: c !in at.table
    ensures at.ggSpecialCase && "gg" in cls && "gg" in at.table ==>
      r == Some(if insideEg then CODE else at.table["gg"])
    ensures !(at.ggSpecialCase && "gg" in cls && "gg" in at.table) ==>
      forall k | 0 <= k < |cls| && cls[k] in at.table ::
        (forall j | 0 <= j < k :: cls[j] !in at.table) ==> r == Some(at.table[cls[k]])
  {
    var k := FirstKey(cls, at.table.Keys);
    if k == |cls| then None
    else if at.ggSpecialCase && "gg" in cls && "gg" in at.table then
      (if insideEg then Some(CODE) else Some(at.table["gg"]))
    else Some(at.table[cls[k]])
  }

  // ---------------------------------------------------------------------
  // The two wrapping helpers
  // ---------------------------------------------------------------------

  /** `wrap_with_tags`: each tag name in turn gets a fresh element that
      receives all children of the previous one. Only the last element is
      returned, so the earlier names leave no wrapper; `emptied` is the
      original element afterwards. */
  method WrapWithTags(element: Node, tagNames: seq<string>, classes: seq<string>)
      returns (r: Node, emptied: Node)
    requires element.Elem?
    ensures tagNames == [] ==> r == element && emptied == element
    ensures tagNames != [] ==> r == Elem(tagNames[|tagNames| - 1], classes, map[], element.kids)
    ensures tagNames != [] ==> emptied == element.(kids := [])
    ensures TextOf(r) == TextOf(element)
  {
    var current := element;
    emptied := element;
    var i := 0;
    while i < |tagNames|
      invariant 0 <= i <= |tagNames|
      invariant current.Elem? && current.kids == element.kids
      invariant i == 0 ==> current == element && emptied == element
      invariant i > 0 ==> current == Elem(tagNames[i - 1], classes, map[], element.kids)
      invariant i > 0 ==> emptied == element.(kids := [])
    {
      var wrapped := Elem(tagNames[i], classes, map[], current.kids);
      if i == 0 {
        emptied := current.(kids := []);
      }
      current := wrapped;
      i := i + 1;
    }
    r := current;
  }

  /** What `wrap_with_tags` returns, as a function of its arguments. */
  function Rewrap(e: Node, st: Style): Node
    requires e.Elem?
  {
    if st.tags == [] then e else Elem(st.tags[|st.tags| - 1], st.classes, map[], e.kids)
  }

  /** The nested chain `tags[0]` (outermost) ... `tags[-1]` (innermost), every
      level with the same classes, the innermost holding `kids`. */
  function ChainNodes(tagNames: seq<string>, classes: seq<string>, kids: seq<Node>): (r: Node)
    requires |tagNames| > 0
    ensures r.Elem? && r.name == tagNames[0] && r.classes == classes && r.attrs == map[]
    ensures TextOf(r) == TextSeq(kids)
    decreases |tagNames|
  {
    if |tagNames| == 1 then Elem(tagNames[0], classes, map[], kids)
    else
      var inner := ChainNodes(tagNames[1..], classes, kids);
      assert TextSeq([inner]) == TextOf(inner);
      Elem(tagNames[0], classes, map[], [inner])
  }

  /** The tag names met walking `depth` levels down a chain of only children. */
  function ChainNames(n: Node, depth: nat): seq<string>
    decreases depth
  {
    if depth == 0 || n.Text? then []
    else [n.name] + (if depth > 1 && |n.kids| == 1 then ChainNames(n.kids[0], depth - 1) else [])
  }

  /** The children found `depth` levels down a chain of only children. */
  function ChainInner(n: Node, depth: nat): seq<Node>
    decreases depth
  {
    if n.Text? then [n]
    else if depth <= 1 || |n.kids| != 1 then n.kids
    else ChainInner(n.kids[0], depth - 1)
  }

  /** Reading a chain back gives the tag list and the moved children. */
  lemma {:induction false} ChainRoundTrip(tagNames: seq<string>, classes: seq<string>, kids: seq<Node>)
    requires |tagNames| > 0
    ensures ChainNames(ChainNodes(tagNames, classes, kids), |tagNames|) == tagNames
    ensures ChainInner(ChainNodes(tagNames, classes, kids), |tagNames|) == kids
    decreases |tagNames|
  {
    if |tagNames| > 1 {
      ChainRoundTrip(tagNames[1..], classes, kids);
      assert tagNames == [tagNames[0]] + tagNames[1..];
    }
  }

  /** `wrap_with_tags_preserving_content`: an empty tag list is an assertion
      failure; otherwise the chain of all the tags, holding every child of
      the original element in the innermost level. */
  function WrapPreserving(element: Node, tagNames: seq<string>, classes: seq<string>): (r: Result<Node>)
    requires element.Elem?
    ensures r.Failure? <==> tagNames == []
    ensures r.Success? ==> r.value.Elem? && r.value.name == tagNames[0] && r.value.attrs == map[]
    ensures r.Success? ==> ChainNames(r.value, |tagNames|) == tagNames
    ensures r.Success? ==> ChainInner(r.value, |tagNames|) == element.kids
    ensures r.Success? ==> TextOf(r.value) == TextOf(element)
  {
    if tagNames == [] then Failure("empty tag list")
    else
      ChainRoundTrip(tagNames, classes, element.kids);
      Success(ChainNodes(tagNames, classes, element.kids))
  }

  // ---------------------------------------------------------------------
  // convert_span_styles
  // ---------------------------------------------------------------------

  function StyleNode(t: StyleTables, n: Node): (r: Node)
    ensures TextOf(r) == TextOf(n)
    ensures n.Elem? && !Styled(t, n) ==> r.Elem? && r.name == n.name && r.classes == n.classes && r.attrs == n.attrs
    ensures Styled(t, n) && SpanStyleRule(t, n.classes).value.tags != [] ==>
      var st := SpanStyleRule(t, n.classes).value;
      r.Elem? && r.name == st.tags[|st.tags| - 1] && r.classes == st.classes && r.attrs == map[]
    ensures n.Elem? ==> r.Elem? && r.kids == StyleSeq(t, n.kids)
  {
    match n
    case Text(_) => n
    case Elem(nm, c, a, k) =>
      var e := Elem(nm, c, a, StyleSeq(t, k));
      if nm == "span" then
        match SpanStyleRule(t, c)
        case Some(st) => Rewrap(e, st)
        case None => e
      else e
  }

  function StyleSeq(t: StyleTables, L: seq<Node>): (r: seq<Node>)
    ensures |r| == |L|
    ensures forall i | 0 <= i < |L| :: r[i] == StyleNode(t, L[i])
    ensures TextSeq(r) == TextSeq(L)
  {
    if L == [] then []
    else
      var r := [StyleNode(t, L[0])] + StyleSeq(t, L[1..]);
      assert r[0] == StyleNode(t, L[0]) && r[1..] == StyleSeq(t, L[1..]);
      r
  }

  /** `convert_span_styles` over a document. */
  function ConvertSpanStyles(t: StyleTables, doc: seq<Node>): seq<Node>
  {
    StyleSeq(t, doc)
  }

  /** A span some rule of `t` still applies to. */
  predicate Styled(t: StyleTables, e: Node)
  {
    e.Elem? && e.name == "span" && SpanStyleRule(t, e.classes).Some?
  }

  /** An output rule never re-creates a span the same tables would rewrite. */
  predicate Inert(t: StyleTables, st: Style)
  {
    st.tags != [] && (st.tags[|st.tags| - 1] == "span" ==> SpanStyleRule(t, st.classes).None?)
  }

  predicate TablesInert(t: StyleTables)
  {
    && (forall i | 0 <= i < |t.composite| :: Inert(t, t.composite[i].1))
    && (forall k | k in t.single :: Inert(t, t.single[k]))
  }

  lemma StyleTablesInert()
    ensures TablesInert(SEMANTIC_STYLES)
    ensures TablesInert(PROTOTYPE_STYLES)
  {
    SingleRulesInert(SEMANTIC_STYLES);
    SingleRulesInert(PROTOTYPE_STYLES);
  }

  /** Of the single-class rules only `sc` ends in a span, and its
      `small-caps` class is no style class. */
  lemma SingleRulesInert(t: StyleTables)
    requires t == SEMANTIC_STYLES || t == PROTOTYPE_STYLES
    ensures forall i | 0 <= i < |t.composite| :: Inert(t, t.composite[i].1)
    ensures forall k | k in t.single :: Inert(t, t.single[k])
  {
    SmallCapsUnstyled(t);
    forall k | k in STYLE_MAP
      ensures Inert(t, STYLE_MAP[k])
    {
      LastTagNotSpan(k);
    }
  }

  lemma SmallCapsUnstyled(t: StyleTables)
    requires t == SEMANTIC_STYLES || t == PROTOTYPE_STYLES
    ensures SpanStyleRule(t, ["small-caps"]).None?
  {
    assert (set c | c in ["small-caps"]) == {"small-caps"};
    assert "small-caps" !in STYLE_MAP;
  }

  lemma LastTagNotSpan(k: string)
    requires k in STYLE_MAP
    ensures STYLE_MAP[k].tags != []
    ensures k != "sc" ==> STYLE_MAP[k].tags[|STYLE_MAP[k].tags| - 1] != "span"
    ensures k == "sc" ==> STYLE_MAP[k].classes == ["small-caps"]
  {
  }

  lemma RuleStyleInert(t: StyleTables, cls: seq<string>)
    requires TablesInert(t)
    requires SpanStyleRule(t, cls).Some?
    ensures Inert(t, SpanStyleRule(t, cls).value)
  {
  }

  /** The span pass keeps the document's text, character for character. */
  lemma {:induction false} SpanStylesConserveText(t: StyleTables, L: seq<Node>)
    ensures TextSeq(StyleSeq(t, L)) == TextSeq(L)
  {
    if L != [] {
      SpanStylesConserveText(t, L[1..]);
      match L[0]
      case Text(_) =>
      case Elem(nm, c, a, k) =>
        SpanStylesConserveText(t, k);
    }
  }

  /** Every span a rule applies to is rewritten, inner spans included:
      afterwards no span in the document is one the tables would rewrite. */
  lemma {:induction false} NoStyledSpanLeft(t: StyleTables, L: seq<Node>)
    requires TablesInert(t)
    ensures All(StyleSeq(t, L), e => !Styled(t, e))
  {
    if L != [] {
      NoStyledSpanLeft(t, L[1..]);
      match L[0]
      case Text(_) =>
      case Elem(nm, c, a, k) =>
        NoStyledSpanLeft(t, k);
        if nm == "span" && SpanStyleRule(t, c).Some? {
          RuleStyleInert(t, c);
        }
    }
  }

  /** Where no span matches a rule, the pass changes nothing. */
  lemma {:induction false} SpanStylesIdentity(t: StyleTables, L: seq<Node>)
    requires All(L, e => !Styled(t, e))
    ensures StyleSeq(t, L) == L
  {
    if L != [] {
      SpanStylesIdentity(t, L[1..]);
      match L[0]
      case Text(_) =>
      case Elem(nm, c, a, k) =>
        SpanStylesIdentity(t, k);
    }
  }

  /** Running the span pass twice is running it once. */
  lemma SpanStylesIdempotent(t: StyleTables, L: seq<Node>)
    requires TablesInert(t)
    ensures ConvertSpanStyles(t, ConvertSpanStyles(t, L)) == ConvertSpanStyles(t, L)
  {
    NoStyledSpanLeft(t, L);
    SpanStylesIdentity(t, ConvertSpanStyles(t, L));
  }

  // ---------------------------------------------------------------------
  // convert_apple_span_styles
  // ---------------------------------------------------------------------

  /** Every rule the Apple tables can pick has a non-empty tag list. */
  predicate AppleWellFormed(at: AppleTables)
  {
    forall k | k in at.table :: |at.table[k].tags| > 0
  }

  /** `ancestors` holds the class lists of the node's ancestors, nearest first. */
  function AppleNode(at: AppleTables, ancestors: seq<seq<string>>, n: Node): (r: Node)
    requires AppleWellFormed(at)
    ensures TextOf(r) == TextOf(n)
    ensures n.Elem? && !(n.name == "span" && AppleRule(at, n.classes, InsideEg(ancestors)).Some?) ==>
      r.Elem? && r.name == n.name && r.classes == n.classes && r.attrs == n.attrs
      && r.kids == AppleSeq(at, [n.classes] + ancestors, n.kids)
    ensures n.Elem? && n.name == "span" && AppleRule(at, n.classes, InsideEg(ancestors)).Some? ==>
      var st := AppleRule(at, n.classes, InsideEg(ancestors)).value;
      r.Elem? && r.name == st.tags[0] && r.attrs == map[]
      && ChainNames(r, |st.tags|) == st.tags
      && ChainInner(r, |st.tags|) == AppleSeq(at, [n.classes] + ancestors, n.kids)
    decreases n
  {
    match n
    case Text(_) => n
    case Elem(nm, c, a, k) =>
      var kids := AppleSeq(at, [c] + ancestors, k);
      if nm == "span" then
        match AppleRule(at, c, InsideEg(ancestors))
        case Some(st) =>
          ChainRoundTrip(st.tags, st.classes, kids);
          ChainNodes(st.tags, st.classes, kids)
        case None => Elem(nm, c, a, kids)
      else Elem(nm, c, a, kids)
  }

  function AppleSeq(at: AppleTables, ancestors: seq<seq<string>>, L: seq<Node>): (r: seq<Node>)
    requires AppleWellFormed(at)
    ensures |r| == |L|
    ensures forall i | 0 <= i < |L| :: r[i] == AppleNode(at, ancestors, L[i])
    ensures TextSeq(r) == TextSeq(L)
    decreases L
  {
    if L == [] then []
    else
      var r := [AppleNode(at, ancestors, L[0])] + AppleSeq(at, ancestors, L[1..]);
      assert r[0] == AppleNode(at, ancestors, L[0]) && r[1..] == AppleSeq(at, ancestors, L[1..]);
      r
  }

  /** `convert_apple_span_styles` over a document (whose root has no class). */
  function ConvertAppleSpanStyles(at: AppleTables, doc: seq<Node>): seq<Node>
    requires AppleWellFormed(at)
  {
    AppleSeq(at, [], doc)
  }

  lemma AppleTablesWellFormed()
    ensures AppleWellFormed(SEMANTIC_APPLE)
    ensures AppleWellFormed(PROTOTYPE_APPLE)
  {
  }

  /** A span carrying at least one Apple class. */
  predicate AppleStyled(at: AppleTables, e: Node)
  {
    e.Elem? && e.name == "span" && exists c | c in e.classes :: c in at.table
  }

  /** No rule of the tables creates a span that carries an Apple class. */
  predicate AppleInert(at: AppleTables)
  {
    && (forall k | k in at.table ::
          "span" in at.table[k].tags ==> forall c | c in at.table[k].classes :: c !in at.table)
    && "span" !in CODE.tags
  }

  lemma {:induction false} ChainInert(tagNames: seq<string>, classes: seq<string>, kids: seq<Node>, P: Node -> bool)
    requires |tagNames| > 0
    requires All(kids, P)
    requires forall i | 0 <= i < |tagNames| :: P(Elem(tagNames[i], classes, map[], []).(kids := []))
    requires forall x: Node | x.Elem? :: P(x) == P(x.(kids := []))
    ensures All([ChainNodes(tagNames, classes, kids)], P)
    decreases |tagNames|
  {
    var r := ChainNodes(tagNames, classes, kids);
    assert P(Elem(tagNames[0], classes, map[], []));
    assert P(r);
    if |tagNames| > 1 {
      ChainInert(tagNames[1..], classes, kids, P);
      forall i | 0 <= i < |tagNames[1..]|
        ensures P(Elem(tagNames[1..][i], classes, map[], []).(kids := []))
      {
        assert tagNames[1..][i] == tagNames[i + 1];
      }
    }
  }

  lemma AppleTablesInert()
    ensures AppleInert(SEMANTIC_APPLE)
    ensures AppleInert(PROTOTYPE_APPLE)
  {
  }

  /** The Apple pass keeps the document's text, character for character. */
  lemma {:induction false} AppleConservesText(at: AppleTables, ancestors: seq<seq<string>>, L: seq<Node>)
    requires AppleWellFormed(at)
    ensures TextSeq(AppleSeq(at, ancestors, L)) == TextSeq(L)
    decreases L
  {
    if L != [] {
      AppleConservesText(at, ancestors, L[1..]);
      match L[0]
      case Text(_) =>
      case Elem(nm, c, a, k) =>
        AppleConservesText(at, [c] + ancestors, k);
    }
  }

  /** After the Apple pass no span carries an Apple class. */
  lemma {:induction false} NoAppleSpanLeft(at: AppleTables, ancestors: seq<seq<string>>, L: seq<Node>)
    requires AppleWellFormed(at) && AppleInert(at)
    ensures All(AppleSeq(at, ancestors, L), e => !AppleStyled(at, e))
    decreases L
  {
    if L != [] {
      NoAppleSpanLeft(at, ancestors, L[1..]);
      match L[0]
      case Text(_) =>
      case Elem(nm, c, a, k) =>
        var kids := AppleSeq(at, [c] + ancestors, k);
        NoAppleSpanLeft(at, [c] + ancestors, k);
        var P := (e: Node) => !AppleStyled(at, e);
        if nm == "span" {
          match AppleRule(at, c, InsideEg(ancestors))
          case Some(st) =>
            assert st == CODE || st in at.table.Values;
            ChainInert(st.tags, st.classes, kids, P);
          case None =>
        }
    }
  }

  /** Where no span has an Apple class, the Apple pass changes nothing. */
  lemma {:induction false} AppleIdentity(at: AppleTables, ancestors: seq<seq<string>>, L: seq<Node>)
    requires AppleWellFormed(at)
    requires All(L, e => !AppleStyled(at, e))
    ensures AppleSeq(at, ancestors, L) == L
    decreases L
  {
    if L != [] {
      AppleIdentity(at, ancestors, L[1..]);
      match L[0]
      case Text(_) =>
      case Elem(nm, c, a, k) =>
        AppleIdentity(at, [c] + ancestors, k);
    }
  }

  /** Running the Apple pass twice is running it once. */
  lemma AppleIdempotent(at: AppleTables, L: seq<Node>)
    requires AppleWellFormed(at) && AppleInert(at)
    ensures ConvertAppleSpanStyles(at, ConvertAppleSpanStyles(at, L)) == ConvertAppleSpanStyles(at, L)
  {
    NoAppleSpanLeft(at, [], L);
    AppleIdentity(at, [], AppleSeq(at, [], L));
  }
}

=== FILE: tree.dfy ===
/** The markup tree that every pass rewrites.

    A document is the forest of nodes below the parser's root object: the
    root itself is never a span, never carries a class and is never matched,
    so every pass is a function from `seq<Node>` to `seq<Node>`. A `find_all`
    over the document is a snapshot of `Elements(forest)`, the elements in
    document (pre-)order. */
module Tree {
  import opened Wrappers

  /** A text leaf, or an element with a tag name, its class list (kept apart
      from the other attributes; an empty list stands for "no class
      attribute"), its other attributes and its ordered children. */
  datatype Node =
    | Text(s: string)
    | Elem(name: string, classes: seq<string>, attrs: map<string, string>, kids: seq<Node>)

  /** The classes of a node as a set; a text leaf has none. */
  function ClassSet(n: Node): set<string>
  {
    if n.Elem? then set c | c in n.classes else {}
  }

  // ---------------------------------------------------------------------
  // Measures
  // ---------------------------------------------------------------------

  /** Number of nodes in a subtree. */
  function Size(n: Node): nat
  {
    match n
    case Text(_) => 1
    case Elem(_, _, _, k) => 1 + SizeSeq(k)
  }

  function SizeSeq(L: seq<Node>): nat
  {
    if L == [] then 0 else Size(L[0]) + SizeSeq(L[1..])
  }

  lemma SizeSeqAppend(a: seq<Node>, b: seq<Node>)
    ensures SizeSeq(a + b) == SizeSeq(a) + SizeSeq(b)
  {
    if a == [] {
      assert a + b == b;
    } else {
      assert (a + b)[0] == a[0];
      assert (a + b)[1..] == a[1..] + b;
      SizeSeqAppend(a[1..], b);
    }
  }

  /** A contiguous part of a forest is no bigger than the forest. */
  lemma SizeSeqSlice(L: seq<Node>, i: nat, j: nat)
    requires i <= j <= |L|
    ensures SizeSeq(L[i..j]) <= SizeSeq(L)
  {
    assert L == L[..i] + L[i..j] + L[j..];
    SizeSeqAppend(L[..i] + L[i..j], L[j..]);
    SizeSeqAppend(L[..i], L[i..j]);
  }

  /** Replacing one tree by another of the same size keeps the forest's size. */
  lemma SizeSeqUpdate(L: seq<Node>, i: nat, x: Node)
    requires i < |L| && Size(x) == Size(L[i])
    ensures SizeSeq(L[i := x]) == SizeSeq(L)
  {
    assert L == L[..i] + [L[i]] + L[i + 1..];
    assert L[i := x] == L[..i] + [x] + L[i + 1..];
    SizeSeqAppend(L[..i] + [L[i]], L[i + 1..]);
    SizeSeqAppend(L[..i], [L[i]]);
    SizeSeqAppend(L[..i] + [x], L[i + 1..]);
    SizeSeqAppend(L[..i], [x]);
  }

  /** Forests whose trees have the same sizes, one by one, have the same size. */
  lemma {:induction false} SizeSeqPointwise(a: seq<Node>, b: seq<Node>)
    requires |a| == |b| && forall i | 0 <= i < |a| :: Size(a[i]) == Size(b[i])
    ensures SizeSeq(a) == SizeSeq(b)
  {
    if a != [] {
      SizeSeqPointwise(a[1..], b[1..]);
    }
  }

  lemma SizeSeqElem(L: seq<Node>, i: nat)
    requires i < |L|
    ensures Size(L[i]) <= SizeSeq(L)
  {
    if i > 0 {
      SizeSeqElem(L[1..], i - 1);
    }
  }

  // ---------------------------------------------------------------------
  // Rendered text
  // ---------------------------------------------------------------------

  /** The concatenated text of a subtree (`get_text()` / `.text`). */
  function TextOf(n: Node): string
  {
    match n
    case Text(s) => s
    case Elem(_, _, _, k) => TextSeq(k)
  }

  function TextSeq(L: seq<Node>): string
  {
    if L == [] then "" else TextOf(L[0]) + TextSeq(L[1..])
  }

  lemma TextSeqAppend(a: seq<Node>, b: seq<Node>)
    ensures TextSeq(a + b) == TextSeq(a) + TextSeq(b)
  {
    if a == [] {
      assert a + b == b;
    } else {
      assert (a + b)[0] == a[0];
      assert (a + b)[1..] == a[1..] + b;
      TextSeqAppend(a[1..], b);
    }
  }

  // ---------------------------------------------------------------------
  // Document-order traversal
  // ---------------------------------------------------------------------

  /** The elements of a forest in document order: what `find_all(True)`
      snapshots before a pass mutates anything. */
  function Elements(L: seq<Node>): seq<Node>
  {
    if L == [] then []
    else
      (match L[0]
       case Text(_) => []
       case Elem(_, _, _, k) => [L[0]] + Elements(k))
      + Elements(L[1..])
  }

  lemma ElementsAppend(a: seq<Node>, b: seq<Node>)
    ensures Elements(a + b) == Elements(a) + Elements(b)
  {
    if a == [] {
      assert a + b == b;
    } else {
      assert (a + b)[0] == a[0];
      assert (a + b)[1..] == a[1..] + b;
      ElementsAppend(a[1..], b);
    }
  }

  /** Every element of the forest satisfies `P` (texts are not consulted). */
  predicate All(L: seq<Node>, P: Node -> bool)
  {
    if L == [] then true
    else
      (match L[0]
       case Text(_) => true
       case Elem(_, _, _, k) => P(L[0]) && All(k, P))
      && All(L[1..], P)
  }

  lemma AllOne(x: Node, P: Node -> bool)
    ensures All([x], P) <==> x.Text? || (P(x) && All(x.kids, P))
  {
    assert [x][1..] == [];
  }

  lemma AllAppend(a: seq<Node>, b: seq<Node>, P: Node -> bool)
    ensures All(a + b, P) <==> All(a, P) && All(b, P)
  {
    if a == [] {
      assert a + b == b;
    } else {
      assert (a + b)[0] == a[0];
      assert (a + b)[1..] == a[1..] + b;
      AllAppend(a[1..], b, P);
    }
  }

  /** `All` agrees with a quantifier over the document-order snapshot. */
  lemma {:induction false} AllIsElements(L: seq<Node>, P: Node -> bool)
    ensures All(L, P) <==> forall e | e in Elements(L) :: P(e)
  {
    if L != [] {
      AllIsElements(L[1..], P);
      match L[0]
      case Text(_) =>
      case Elem(_, _, _, k) =>
        AllIsElements(k, P);
    }
  }

  predicate IsElem(n: Node)
  {
    n.Elem?
  }

  predicate IsText(n: Node)
  {
    n.Text?
  }

  /** The nodes of `L` that satisfy `P`, in order (a list comprehension). */
  function Keep(L: seq<Node>, P: Node -> bool): (r: seq<Node>)
    ensures |r| <= |L|
    ensures forall i | 0 <= i < |r| :: P(r[i])
  {
    if L == [] then [] else (if P(L[0]) then [L[0]] else []) + Keep(L[1..], P)
  }

  /** Splitting a forest by a predicate loses and duplicates no node. */
  lemma {:induction false} KeepSize(L: seq<Node>, P: Node -> bool)
    ensures SizeSeq(Keep(L, P)) + SizeSeq(Keep(L, x => !P(x))) == SizeSeq(L)
  {
    if L != [] {
      KeepSize(L[1..], P);
      var a := if P(L[0]) then [L[0]] else [];
      var b := if !P(L[0]) then [L[0]] else [];
      SizeSeqAppend(a, Keep(L[1..], P));
      SizeSeqAppend(b, Keep(L[1..], x => !P(x)));
    }
  }

  /** Nothing is kept exactly when no node satisfies `P`. */
  lemma {:induction false} NoneKept(L: seq<Node>, P: Node -> bool)
    ensures Keep(L, P) == [] <==> forall i | 0 <= i < |L| :: !P(L[i])
  {
    if L != [] {
      NoneKept(L[1..], P);
      assert forall i | 1 <= i < |L| :: L[i] == L[1..][i - 1];
    }
  }

  lemma KeepOne(x: Node, P: Node -> bool)
    ensures Keep([x], P) == if P(x) then [x] else []
  {
    assert [x][1..] == [];
  }

  lemma KeepAppend(a: seq<Node>, b: seq<Node>, P: Node -> bool)
    ensures Keep(a + b, P) == Keep(a, P) + Keep(b, P)
  {
    if a == [] {
      assert a + b == b;
    } else {
      assert (a + b)[0] == a[0];
      assert (a + b)[1..] == a[1..] + b;
      KeepAppend(a[1..], b, P);
    }
  }

  /** The nodes that satisfy `P` and the others, each in order. */
  function Partition(k: seq<Node>, P: Node -> bool): (r: (seq<Node>, seq<Node>))
    ensures |r.0| + |r.1| == |k|
    ensures SizeSeq(r.0) + SizeSeq(r.1) == SizeSeq(k)
    ensures forall i | 0 <= i < |r.0| :: P(r.0[i])
  {
    if k == [] then ([], [])
    else
      var t := Partition(k[1..], P);
      if P(k[0]) then
        SizeSeqAppend([k[0]], t.0);
        ([k[0]] + t.0, t.1)
      else
        SizeSeqAppend([k[0]], t.1);
        (t.0, [k[0]] + t.1)
  }

  /** The two parts of a partition are the two filters of the forest. */
  lemma {:induction false} PartitionKeeps(k: seq<Node>, P: Node -> bool, Q: Node -> bool)
    requires forall i | 0 <= i < |k| :: Q(k[i]) == !P(k[i])
    ensures Partition(k, P) == (Keep(k, P), Keep(k, Q))
  {
    if k != [] {
      PartitionKeeps(k[1..], P, Q);
      var t := Partition(k[1..], P);
      assert Q(k[0]) == !P(k[0]);
      if P(k[0]) {
        assert Keep(k, Q) == [] + Keep(k[1..], Q) == t.1;
        assert Keep(k, P) == [k[0]] + t.0;
        assert Partition(k, P) == ([k[0]] + t.0, t.1);
      } else {
        assert Keep(k, Q) == [k[0]] + t.1;
        assert Keep(k, P) == [] + Keep(k[1..], P) == t.0;
        assert Partition(k, P) == (t.0, [k[0]] + t.1);
      }
    }
  }

  /** The other part holds only nodes of `k` that fail `P`. */
  lemma {:induction false} PartitionOthers(k: seq<Node>, P: Node -> bool)
    ensures forall i | 0 <= i < |Partition(k, P).1| :: !P(Partition(k, P).1[i]) && Partition(k, P).1[i] in k
  {
    if k != [] {
      var tl := k[1..];
      PartitionOthers(tl, P);
      assert forall x | x in tl :: x in k;
      var t := Partition(tl, P);
      var r := Partition(k, P);
      if !P(k[0]) {
        assert r.1 == [k[0]] + t.1;
        forall i | 0 <= i < |r.1|
          ensures !P(r.1[i]) && r.1[i] in k
        {
          if i > 0 {
            assert r.1[i] == t.1[i - 1];
          }
        }
      }
    }
  }

  /** With no node satisfying `P`, nothing moves; and nothing is taken only
      when no node satisfies `P`. */
  lemma {:induction false} PartitionNone(k: seq<Node>, P: Node -> bool)
    ensures (forall i | 0 <= i < |k| :: !P(k[i])) ==> Partition(k, P) == ([], k)
    ensures Partition(k, P).0 == [] ==> forall i | 0 <= i < |k| :: !P(k[i])
  {
    if k != [] {
      var tl := k[1..];
      PartitionNone(tl, P);
      assert forall i | 1 <= i < |k| :: k[i] == tl[i - 1];
      if !P(k[0]) {
        assert k == [k[0]] + tl;
      }
    }
  }

  /** The siblings before the first one that satisfies `Stop`. */
  function RunBefore(L: seq<Node>, Stop: Node -> bool): (r: seq<Node>)
    ensures |r| <= |L| && r == L[..|r|]
    ensures forall i | 0 <= i < |r| :: !Stop(r[i])
    ensures |r| < |L| ==> Stop(L[|r|])
  {
    if L == [] || Stop(L[0]) then [] else [L[0]] + RunBefore(L[1..], Stop)
  }

  /** A walk over the siblings up to the first `Stop` node: the ones that
      satisfy `Take` are taken out, in order; the others stay, and so does
      everything from the stop on. */
  function SplitRun(L: seq<Node>, Stop: Node -> bool, Take: Node -> bool): (r: (seq<Node>, seq<Node>))
    ensures SizeSeq(r.0) + SizeSeq(r.1) == SizeSeq(L)
    ensures forall i | 0 <= i < |r.0| :: Take(r.0[i])
    ensures forall i | 0 <= i < |r.1| :: r.1[i] in L
  {
    if L == [] then ([], [])
    else if Stop(L[0]) then ([], L)
    else
      var t := SplitRun(L[1..], Stop, Take);
      if Take(L[0]) then
        SizeSeqAppend([L[0]], t.0);
        ([L[0]] + t.0, t.1)
      else
        SizeSeqAppend([L[0]], t.1);
        (t.0, [L[0]] + t.1)
  }

  /** The taken siblings are exactly the `Take` nodes of the run before the
      stop, in order; the rest of the run stays, followed by the stop and
      everything after it. */
  lemma SplitRunSpec(L: seq<Node>, Stop: Node -> bool, Take: Node -> bool, Leave: Node -> bool)
    requires forall i | 0 <= i < |L| :: Leave(L[i]) == !Take(L[i])
    ensures SplitRun(L, Stop, Take).0 == Keep(RunBefore(L, Stop), Take)
    ensures SplitRun(L, Stop, Take).1 == Keep(RunBefore(L, Stop), Leave) + L[|RunBefore(L, Stop)|..]
  {
    SplitRunTaken(L, Stop, Take);
    SplitRunLeft(L, Stop, Take, Leave);
  }

  lemma {:induction false} SplitRunTaken(L: seq<Node>, Stop: Node -> bool, Take: Node -> bool)
    ensures SplitRun(L, Stop, Take).0 == Keep(RunBefore(L, Stop), Take)
  {
    if L != [] && !Stop(L[0]) {
      SplitRunTaken(L[1..], Stop, Take);
      var b := RunBefore(L[1..], Stop);
      assert RunBefore(L, Stop) == [L[0]] + b;
      KeepOne(L[0], Take);
      KeepAppend([L[0]], b, Take);
    }
  }

  lemma {:induction false} SplitRunLeft(L: seq<Node>, Stop: Node -> bool, Take: Node -> bool, Leave: Node -> bool)
    requires forall i | 0 <= i < |L| :: Leave(L[i]) == !Take(L[i])
    ensures SplitRun(L, Stop, Take).1 == Keep(RunBefore(L, Stop), Leave) + L[|RunBefore(L, Stop)|..]
  {
    if L != [] && !Stop(L[0]) {
      var tl := L[1..];
      assert forall i | 0 <= i < |tl| :: tl[i] == L[i + 1];
      SplitRunLeft(tl, Stop, Take, Leave);
      var t := SplitRun(tl, Stop, Take);
      var b := RunBefore(tl, Stop);
      assert t.1 == Keep(b, Leave) + tl[|b|..];
      assert RunBefore(L, Stop) == [L[0]] + b;
      KeepOne(L[0], Leave);
      KeepAppend([L[0]], b, Leave);
      assert L[|b| + 1..] == tl[|b|..];
      assert Leave(L[0]) == !Take(L[0]);
    }
  }

  /** Nodes the walk never takes stay where they were, in order. */
  lemma {:induction false} SplitRunKeeps(L: seq<Node>, Stop: Node -> bool, Take: Node -> bool, Q: Node -> bool)
    requires forall i | 0 <= i < |L| :: Q(L[i]) ==> !Take(L[i])
    ensures Keep(SplitRun(L, Stop, Take).1, Q) == Keep(L, Q)
  {
    if L != [] && !Stop(L[0]) {
      SplitRunKeeps(L[1..], Stop, Take, Q);
      var t := SplitRun(L[1..], Stop, Take);
      assert L == [L[0]] + L[1..];
      KeepAppend([L[0]], L[1..], Q);
      KeepOne(L[0], Q);
      if !Take(L[0]) {
        KeepAppend([L[0]], t.1, Q);
      }
    }
  }

  // ---------------------------------------------------------------------
  // Whitespace, as Python's str.isspace / str.strip define it
  // ---------------------------------------------------------------------

  /** The characters Python 3 reports as whitespace. */
  predicate IsSpaceChar(c: char)
  {
    || c == ' '
    || ('\t' <= c <= '\r')
    || ('\U{1C}' <= c <= '\U{1F}')
    || c == '\U{85}' || c == '\U{A0}' || c == '\U{1680}'
    || ('\U{2000}' <= c <= '\U{200A}')
    || c == '\U{2028}' || c == '\U{2029}' || c == '\U{202F}'
    || c == '\U{205F}' || c == '\U{3000}'
  }

  /** Python's `str.isspace()`: non-empty and whitespace only. */
  predicate IsSpaceStr(s: string)
  {
    |s| > 0 && forall i | 0 <= i < |s| :: IsSpaceChar(s[i])
  }

  /** `str.lstrip()`: the longest suffix that does not start with whitespace. */
  function LStrip(s: string): (r: string)
    ensures |r| <= |s| && r == s[|s| - |r|..]
    ensures forall i | 0 <= i < |s| - |r| :: IsSpaceChar(s[i])
    ensures r == [] || !IsSpaceChar(r[0])
  {
    if |s| > 0 && IsSpaceChar(s[0]) then LStrip(s[1..]) else s
  }

  /** `str.rstrip()`: the longest prefix that does not end with whitespace. */
  function RStrip(s: string): (r: string)
    ensures |r| <= |s| && r == s[..|r|]
    ensures forall i | |r| <= i < |s| :: IsSpaceChar(s[i])
    ensures r == [] || !IsSpaceChar(r[|r| - 1])
  {
    if |s| > 0 && IsSpaceChar(s[|s| - 1]) then RStrip(s[..|s| - 1]) else s
  }

  /** `str.strip()`. */
  function Strip(s: string): string
  {
    RStrip(LStrip(s))
  }

  /** Stripping keeps an infix whose ends are not whitespace, and drops only
      whitespace around it. */
  lemma StripSpec(s: string)
    ensures var r := Strip(s); var i := |s| - |LStrip(s)|;
      && i + |r| <= |s| && r == s[i..i + |r|]
      && (forall j | 0 <= j < i :: IsSpaceChar(s[j]))
      && (forall j | i + |r| <= j < |s| :: IsSpaceChar(s[j]))
      && (r == [] || (!IsSpaceChar(r[0]) && !IsSpaceChar(r[|r| - 1])))
  {
    StripInfix(s);
    StripTrailing(s);
    StripEnds(s);
  }

  lemma StripInfix(s: string)
    ensures var r := Strip(s); var i := |s| - |LStrip(s)|;
      i + |r| <= |s| && r == s[i..i + |r|]
  {
    var l := LStrip(s);
    var r := RStrip(l);
    var i := |s| - |l|;
    assert l == s[i..];
    PrefixOfSuffix(s, i, |r|);
  }

  lemma PrefixOfSuffix(s: string, i: nat, k: nat)
    requires i + k <= |s|
    ensures s[i..][..k] == s[i..i + k]
  {
  }

  lemma StripTrailing(s: string)
    ensures var r := Strip(s); var i := |s| - |LStrip(s)|;
      i + |r| <= |s| && forall j | i + |r| <= j < |s| :: IsSpaceChar(s[j])
  {
    var l := LStrip(s);
    var r := RStrip(l);
    var i := |s| - |l|;
    assert l == s[i..];
    SpaceTail(s, l, r, i);
  }

  lemma StripEnds(s: string)
    ensures var r := Strip(s); r == [] || (!IsSpaceChar(r[0]) && !IsSpaceChar(r[|r| - 1]))
  {
    var l := LStrip(s);
    var r := RStrip(l);
    if r != [] {
      assert r[0] == l[0];
    }
  }

  lemma SpaceTail(s: string, l: string, r: string, i: nat)
    requires i <= |s| && l == s[i..] && |r| <= |l|
    requires forall k | |r| <= k < |l| :: IsSpaceChar(l[k])
    ensures forall j | i + |r| <= j < |s| :: IsSpaceChar(s[j])
  {
    forall j | i + |r| <= j < |s|
      ensures IsSpaceChar(s[j])
    {
      assert s[j] == l[j - i];
    }
  }

  /** Stripping twice is stripping once. */
  lemma StripIdempotent(s: string)
    ensures Strip(Strip(s)) == Strip(s)
  {
    var r := Strip(s);
    StripSpec(s);
    LStripNoop(r);
    RStripNoop(r);
  }

  lemma LStripNoop(s: string)
    requires s == [] || !IsSpaceChar(s[0])
    ensures LStrip(s) == s
  {
  }

  lemma RStripNoop(s: string)
    requires s == [] || !IsSpaceChar(s[|s| - 1])
    ensures RStrip(s) == s
  {
  }

  /** A string strips to nothing exactly when it is all whitespace. */
  lemma StripEmptyIffBlank(s: string)
    ensures Strip(s) == "" <==> forall i | 0 <= i < |s| :: IsSpaceChar(s[i])
  {
    var l := LStrip(s);
    assert |l| == 0 || l[0] == s[|s| - |l|];
  }

  /** `get_text(strip=True)`: every text leaf stripped, then concatenated. */
  function StrippedTextOf(n: Node): string
  {
    match n
    case Text(s) => Strip(s)
    case Elem(_, _, _, k) => StrippedTextSeq(k)
  }

  function StrippedTextSeq(L: seq<Node>): string
  {
    if L == [] then "" else StrippedTextOf(L[0]) + StrippedTextSeq(L[1..])
  }

  // ---------------------------------------------------------------------
  // The `.string` property of a tag
  // ---------------------------------------------------------------------

  /** `.string`: a text leaf's own text; for an element with exactly one
      child, that child's `.string`; otherwise nothing. */
  function DotString(n: Node): Option<string>
  {
    match n
    case Text(s) => Some(s)
    case Elem(_, _, _, k) => if |k| == 1 then DotString(k[0]) else None
  }

  /** Where `.string` exists it is the whole rendered text of the node. */
  lemma {:induction false} DotStringIsText(n: Node)
    requires DotString(n).Some?
    ensures TextOf(n) == DotString(n).value
  {
    match n
    case Text(_) =>
    case Elem(_, _, _, k) =>
      DotStringIsText(k[0]);
      assert k == [k[0]];
      assert TextSeq(k) == TextOf(k[0]) + TextSeq(k[1..]);
  }

  /** Replace, in place, the text leaf that `.string` designates with `f` of
      its text; every element on the way keeps its name, classes and attributes. */
  function MapDotString(n: Node, f: string -> string): (r: Node)
    requires DotString(n).Some?
    ensures DotString(r) == Some(f(DotString(n).value))
    ensures Size(r) == Size(n)
    ensures r.Elem? <==> n.Elem?
    ensures n.Elem? ==> r.name == n.name && r.classes == n.classes && r.attrs == n.attrs
  {
    match n
    case Text(s) => Text(f(s))
    case Elem(nm, c, a, k) =>
      assert SizeSeq(k) == Size(k[0]);
      var k0 := MapDotString(k[0], f);
      assert SizeSeq([k0]) == Size(k0);
      Elem(nm, c, a, [k0])
  }
}

=== FILE: wrappers.dfy ===
/** Failure-compatible result types shared by the passes. */
module Wrappers {

  /** A value that may be absent. */
  datatype Option<+T> = None | Some(value: T)

  /** The value of a computation, or the error that stopped it. */
  datatype Result<+T> = Success(value: T) | Failure(error: string)
}
